=== FILE: README.md ===
# webnotes in Dafny

A Dafny model of the note-keeping core of the `webnotes` tools, which link web pages to Markdown notes.

**The index engine.** `get_or_create_file` maps a page address to a note file under a notes root. It keeps an index file of `address 漢 path` records.
- A new page gets a new note: a plain header, or a filled-in Jira, Jira-support or pull-request template in that category's folder.
- An indexed page whose note is where it should be is confirmed.
- A note that moved is found again by searching the tree: a note found by name is adopted unchanged, and one found by issue key is renamed in place.
- A note that disappeared is created again.

**The helpers around it:**
- the issue-tracker client's decoding of an issue;
- the front-matter reader that collects the story-point properties of a note;
- the sprint-refinement helpers (meeting title, bullet list, collecting the first open issues of the team's sprints);
- the Confluence page tree with its JSON serialisation, table rows and per-topic cell colours.

**How the model is built.** Everything is pure functions over immutable values.
- The filesystem is a sequence of directories in `os.walk` order (`NotesTree`).
- The index is a dictionary kept in insertion order (`IndexStore`).
- Exceptions that propagate are `Err` values of a `Raised` or `EngineError` type.
- The random collision suffix, the tracker, the clock, the calendar and uuids are parameters (oracles).

**Modules:**
- `Wrappers`: `Option`, `Result` and the raised exception classes.
- `Strings`: Python's `strip`, `split`, `replace`, `str(int)` and string order.
- `Json`: Python values as JSON-like data.
- `Utilities`: file names, the index delimiter, issue numbers and links, Jira board addresses.
- `IndexStore`: the index file format.
- `NotesTree`: the abstract filesystem.
- `Locator`: `find` and `find_jira`.
- `NotesInterface`: classification, creation and the engine.
- `JiraInterface`: issue decoding and story points.
- `FileAdjuster`: front-matter properties.
- `SprintRefinement`: the refinement meeting helpers.
- `ConfluenceNodes`: the page tree.
- `CellColors` and `TableNode`: table rows and cell colours.

**Behaviours the model keeps as written** (proved as lemmas):
- The Jira-support and pull-request classifiers test the Jira template path and folder options rather than their own (`SampleConfigStillTemplatesPr`).
- `find` matches a right-stripped file name, so it can return a path that does not exist (`FindPaddedName`).
- After a name collision the index records the random name. The next visit then finds the colliding file at the expected path, re-points the index at it and leaves the tree unchanged (`CollisionRepoints`).
- Creating a templated note overwrites an existing file of the same name in the category folder (`TemplatedCreateOverwrites`).
- `get_title` with an argument other than "DI" or "DO" leaves `days` unbound and raises `UnboundLocalError` (`RefinementDays`).
- Story points that come back from the tracker as a float such as 3.0 are cut to the text "3" when the issue is built, so they are reported (`FractionalPointsAreText`). Truthy story points that are not text and print without a '.', such as an integer, make `adjust_file` fail when it strips them; the exception is caught and reported (`FinishLooksUp`).

## Model

| member | source | states |
|---|---|---|
| Utilities.GetHeaderWithLink | webnotes/utilities.py:33-34 | the header is `---\n`, then `link: ` and the address, then `\n---`, and nothing else |
| Utilities.ReplaceMultiplePointwise | webnotes/utilities.py:37-41 | replacing each listed character in turn by a one-character replacement blanks exactly the listed characters, position by position, and keeps the length |
| Utilities.GetFilename | webnotes/utilities.py:44-48 | the file name ends in ".md"; its stem is the stripped, masked title; the stem holds none of `/ [ ] & "` and has no surrounding white space |
| Utilities.MaskedBySanitiser | webnotes/utilities.py:45 | the character-by-character replacement loop equals the one-pass mask of the unsafe characters |
| Utilities.GetFilenameIdempotent | webnotes/utilities.py:37-48 | building a file name from the stem of a built file name gives the same file name |
| Utilities.GetFilenameIsComponent | webnotes/utilities.py:44-48 | a built file name is a non-empty single path component |
| Utilities.GetFilenameHasToken | webnotes/utilities.py:44-48 | a built file name has a first white-space separated token, so `split()[0]` cannot fail on it |
| Utilities.FirstToken | webnotes/utilities.py:77 | `split()[0]`: a non-empty run of non-space characters that starts the left-stripped text and ends at a space or the end |
| Utilities.GetIssueNumber | webnotes/utilities.py:76-80 | the first token is returned exactly when it contains "OPA" or "SUP", otherwise nothing |
| Utilities.PrIssueNumber | webnotes/utilities.py:99-104 | the number is the field that starts right after the first occurrence of the separator and runs up to the next space, the next occurrence of the separator, or the end |
| Utilities.FieldAtUnique | webnotes/utilities.py:103-104 | the field at a position is determined by the position, so the number is the only text meeting that description |
| Utilities.PrIssueKeyOccurs | webnotes/utilities.py:99-104 | the separator followed by the number occurs in the title |
| Utilities.PrIssueLink | webnotes/utilities.py:98-105 | a link is built exactly when some option's `-` separator occurs; it is then the browse address of the first option in list order whose separator occurs, followed by the number after that separator's first occurrence |
| Utilities.PrIssueLinkOptions | webnotes/utilities.py:98-105 | with the options `OPA`, `SUP`: a title holding "OPA-" links to the OPA number; otherwise one holding "SUP-" links to the SUP number |
| Utilities.OptionOrderDecides | webnotes/utilities.py:98-105 | the title "SUP-1 OPA-2" links to `OPA-2`: the order of the options decides, not the position in the title |
| Utilities.OptionSeparators | webnotes/utilities.py:98-102 | no option matches exactly when neither "OPA-" nor "SUP-" occurs |
| Utilities.PrIssueLinkNotNoIssue | webnotes/utilities.py:94-105 | a link built from an issue number is never the no-issue marker |
| Utilities.GetJiraIssueLinkFromPrTitle | webnotes/utilities.py:94-105 | the no-issue marker comes back exactly when the lower-cased title contains "noissue"; nothing comes back exactly when there is no marker and no issue separator; otherwise the link is the OPA link when "OPA-" occurs, and the SUP link when only "SUP-" does |
| Utilities.GetUrlTitle | webnotes/utilities.py:107-111 | the title always ends in " - Jira", and is the bare number with that suffix when the tracker has no such issue |
| Utilities.AfterLast | webnotes/utilities.py:116 | `split('&')[-1]` is the longest suffix without the separator |
| Utilities.SelectedNumber | webnotes/utilities.py:116-118 | the number is the text of the last `&` segment that follows `selectedIssue=` and runs up to the next `=` or the end, and holds no `=` |
| Utilities.HandleSpecialJiraCases | webnotes/utilities.py:114-123 | a board address with a selected issue becomes the browse address of the selected number, and the title becomes `get_url_title` of that number; every other address and title pass through unchanged |
| Utilities.SpecialCasesIdempotent | webnotes/utilities.py:114-123 | rewriting an already rewritten address and title changes nothing |
| IndexStore.Get | webnotes/utilities.py:62 | a dictionary lookup finds the value of the key's entry, and only for present keys |
| IndexStore.Put | webnotes/NotesInterface.py:209 | assignment replaces the value of a present key in place and appends a new key at the end; it keeps keys distinct |
| IndexStore.GetPut | webnotes/NotesInterface.py:209 | after an assignment the key reads back the new value and every other key its old one |
| IndexStore.PutSame | webnotes/NotesInterface.py:209 | re-assigning a key its current value changes nothing |
| IndexStore.TranslateRemovesCr | webnotes/utilities.py:53 | reading in text mode leaves no carriage return |
| IndexStore.TranslateKeepsPlain | webnotes/utilities.py:53 | text without a carriage return is read as it is |
| IndexStore.TranslateConcat | webnotes/utilities.py:53 | the translation of two texts joined is the two translations joined, when the cut does not split a `\r\n` |
| IndexStore.TranslateCrLf | webnotes/utilities.py:53 | a `\r\n` becomes one `\n` and the text around it is translated on its own |
| IndexStore.TranslateLoneCr | webnotes/utilities.py:53 | a `\r` not followed by `\n` becomes one `\n` |
| IndexStore.ReadLines | webnotes/utilities.py:53 | `readlines` splits the text into lines that concatenate back to it, every line but the last ending in a newline |
| IndexStore.ReadLinesCons | webnotes/utilities.py:53 | a leading newline-terminated line is read as the first line, the rest as the rest |
| IndexStore.FixExtension | webnotes/utilities.py:60-61 | a title ending in ".md.md" is cut after its first ".md"; any other title is kept |
| IndexStore.ParseLine | webnotes/utilities.py:54-61 | a line yields a record exactly when it contains the delimiter and its title is not "None"; the key is the text before the delimiter cut at the first `?`; the value is the right-stripped second field with the extension fix applied |
| IndexStore.ParseRecord | webnotes/NotesInterface.py:49 | a record written for a clean key and value parses back to that key and value |
| IndexStore.RecordFields | webnotes/NotesInterface.py:49 | a written record contains the delimiter, its first field is the key and its title the value |
| IndexStore.ParseIndex | webnotes/utilities.py:51-63 | the loaded index has distinct keys and only clean keys and values |
| IndexStore.ParseWritten | webnotes/utilities.py:51-63 | parsing the lines of a written index replays its assignments in order |
| IndexStore.RoundTrip | webnotes/NotesInterface.py:46-50 | loading a written clean index gives it back exactly, order included |
| IndexStore.ReloadIsStable | webnotes/utilities.py:51-63 | writing a loaded index and loading it again gives the same index |
| IndexStore.WriteIndexAppend | webnotes/NotesInterface.py:48-49 | the records are written one per entry in insertion order |
| IndexStore.LaterRecordWins | webnotes/utilities.py:62 | a record appended to a written index overrides the same key when loaded |
| NotesTree.PathJoin | webnotes/NotesInterface.py:98 | `os.path.join` of a folder and a name is the name for the root folder and `folder/name` otherwise |
| NotesTree.SplitJoin | webnotes/NotesInterface.py:182-183 | `os.path.split` of a joined path gives the folder and name back |
| NotesTree.WriteFile | webnotes/NotesInterface.py:90-91 | writing a file fails on a directory or a missing folder; otherwise the path then holds the content and no other file changes |
| NotesTree.Rename | webnotes/NotesInterface.py:184 | renaming a file fails on a missing source or a directory target; otherwise the new path holds the source's content and all other files are kept |
| NotesTree.RenameWellFormed | webnotes/NotesInterface.py:184 | a rename keeps the tree well formed and the old name gone |
| Locator.FindFrom | webnotes/utilities.py:67-73 | the first directory in walk order, and in it the first name, whose stripped form is a stripped file name there |
| Locator.Find | webnotes/utilities.py:66-73 | `find` returns nothing exactly when no name matches anywhere, and otherwise the first match in walk order and name order, joined with its directory |
| Locator.FindGivesFile | webnotes/utilities.py:66-73 | when no file name carries trailing space, a found path is an existing file |
| Locator.FindPaddedName | webnotes/utilities.py:68-72 | a file saved with a trailing space is found under a path that does not exist |
| Locator.FindJira | webnotes/utilities.py:83-91 | no issue number gives nothing; otherwise the first file in walk order whose stripped name starts with the number, and nothing exactly when there is none |
| Locator.FindJiraNamesIssue | webnotes/utilities.py:86-91 | the found file's name starts with the issue number and its folder exists |
| NotesInterface.Classify | webnotes/NotesInterface.py:67-75 | the category is Jira-support, Jira or pull request by the first classifier that holds, in that order, and no template otherwise |
| NotesInterface.SampleConfigStillTemplatesPr | webnotes/NotesInterface.py:52-65 | with the sample Jira template and folder options, nothing is classified Jira or Jira-support, yet pull-request titles still are |
| NotesInterface.GetPrefixedFilename | webnotes/NotesInterface.py:94-104 | a templated name is placed in its category's folder, any other name stays at the root |
| NotesInterface.PickName | webnotes/NotesInterface.py:77-79 | the name is kept when free; otherwise the first free name built from the title and a random draw; nothing when every draw collides |
| NotesInterface.PickedIsComponent | webnotes/NotesInterface.py:78-79 | a picked collision name is a single path component |
| Strings.ReplaceStep | webnotes/NotesInterface.py:133-134 | `str.replace` copies the text before the first occurrence, writes the value in its place and carries on after it |
| Strings.ReplaceKeepsPrefix | webnotes/NotesInterface.py:133-134 | the text before the first occurrence is kept as it is |
| Strings.ReplaceInserts | webnotes/NotesInterface.py:133-134 | a text holding the placeholder holds the value after the replacement |
| Strings.ReplaceRemoves | webnotes/NotesInterface.py:133-134 | no occurrence of the placeholder is left when the value shares neither its first nor its last character and does not occur inside it |
| Strings.ReplaceChar | webnotes/utilities.py:37-41 | replacing one character by one character works position by position and keeps the length |
| NotesInterface.SubstituteTruthyTwo | webnotes/NotesInterface.py:116-118 | the two pull-request values are applied in order, each only when it is truthy |
| NotesInterface.IssueTemplateFilled | webnotes/NotesInterface.py:124-154 | a Jira or Jira-support template holding the link placeholder comes out holding the page address, and with no placeholder left when the address cannot form part of one |
| NotesInterface.PrTemplateFilled | webnotes/NotesInterface.py:106-122 | without an issue link only the pull-request placeholder is filled and the issue placeholder stays; with a link that cannot form part of a placeholder no issue placeholder is left |
| NotesInterface.CreateFromTemplate | webnotes/NotesInterface.py:106-154 | a missing template raises; otherwise the category folder's copy holds the filled-in template and no other file changes |
| NotesInterface.CreatePlain | webnotes/NotesInterface.py:89-92 | a plain note holds the link header, and no other file changes |
| NotesInterface.CreateNewFile | webnotes/NotesInterface.py:77-92 | it fails with `OracleExhausted` exactly when the draws run out; a plain note lands at the picked free name with the header; the created path is a file and nothing else changes |
| NotesInterface.CreateKeepsRootFile | webnotes/NotesInterface.py:77-92 | creating a note never replaces an existing file at the root |
| NotesInterface.TemplatedCreateOverwrites | webnotes/NotesInterface.py:124-138 | a templated note whose name exists in the category folder, but not at the root, replaces that file |
| NotesInterface.PageKey | webnotes/NotesInterface.py:159-160 | the index key is the rewritten address up to its first `?`, or all of it when there is none, so it holds no `?` |
| NotesInterface.PageFilename | webnotes/NotesInterface.py:161 | the note name is a non-empty single path component with a first token |
| NotesInterface.RenameNote | webnotes/NotesInterface.py:180-185 | renaming in place succeeds exactly when `os.rename` in the folder does, and then yields its tree: the old file's content under the new name in the same folder, every other file kept; a failure is the rename's error |
| NotesInterface.RenameNoteFrame | webnotes/NotesInterface.py:180-185 | after a rename in place the tree is well formed, the same paths exist, the old name is gone unless it is the new one, and every other file is unchanged |
| NotesInterface.Relocate | webnotes/NotesInterface.py:176-207 | an existing old path is renamed in place; otherwise a note found by name is adopted unchanged; otherwise a note found by issue key is renamed in place; otherwise the note is created again; both renames are exactly `RenameNote`, with its frame |
| NotesInterface.RelocateRenamesInPlace | webnotes/NotesInterface.py:180-185 | when the indexed path still exists, relocating keeps the tree well formed and every other file, and the old name is gone unless it is the new one |
| NotesInterface.Resolve | webnotes/NotesInterface.py:156-209 | the new index is the old one with the page's key assigned the note's path |
| NotesInterface.ResolveConfirmed | webnotes/NotesInterface.py:169-174 | an indexed page whose note exists at the expected path leaves the tree alone and indexes that path |
| NotesInterface.ResolveCreates | webnotes/NotesInterface.py:163-165 | an unindexed page creates a new file, exactly as `create_new_file` does |
| NotesInterface.ResolveRelocates | webnotes/NotesInterface.py:176-207 | an indexed page whose note is not at the expected path is relocated, starting from the indexed path |
| NotesInterface.CreateLandsWhereExpected | webnotes/NotesInterface.py:163-165 | a new page without a name collision gets its note at the expected path |
| NotesInterface.NewNoteLands | webnotes/NotesInterface.py:77-104 | a note created under a free name lands at that name in its category's folder, and that path then exists |
| NotesInterface.ConfirmIsStable | webnotes/NotesInterface.py:163-174 | once a page's note is at the expected path, visiting the page again changes nothing |
| NotesInterface.CreateThenConfirm | webnotes/NotesInterface.py:163-174 | visiting a new page twice gives the same outcome as visiting it once |
| NotesInterface.NoteExistsAfter | webnotes/NotesInterface.py:156-209 | in a tree without padded names, the returned path exists after every successful visit |
| NotesInterface.CollisionRepoints | webnotes/NotesInterface.py:77-79 | after a name collision the page is indexed under the random name; the next visit re-points the index at the colliding file at the expected path and leaves the tree unchanged |
| NotesInterface.SavedIndexReloads | webnotes/NotesInterface.py:209-210 | the saved index file loads as the old index with the page's key assigned the returned path |
| JiraInterface.GetStoryPoints | webnotes/JiraInterface.py:8-11 | a value whose text has a dot becomes the text before the first dot; any other value is kept; the result's text has no dot |
| JiraInterface.GetStoryPointsIdempotent | webnotes/JiraInterface.py:8-11 | applying the conversion twice is the same as once |
| JiraInterface.FloatPointsCut | webnotes/JiraInterface.py:8-11 | the float 3.0 becomes the text "3" |
| JiraInterface.NewJiraIssue | webnotes/JiraInterface.py:14-20 | the issue keeps key, summary, status and description and stores the converted story points |
| JiraInterface.Iterate | webnotes/JiraInterface.py:72-73 | iterating `None`, a boolean or a number raises; strings, lists and dicts iterate |
| JiraInterface.DescriptionText | webnotes/JiraInterface.py:63-79 | the description text is never empty, and is the fallback text unless the description is a dict with content |
| JiraInterface.NodesTextOfTextNodes | webnotes/JiraInterface.py:70-75 | for text-bearing nodes the extracted text is their texts concatenated in order |
| JiraInterface.DescriptionOfDocument | webnotes/JiraInterface.py:67-77 | a well-formed document yields its concatenated text, or the no-text message when that is empty |
| JiraInterface.DecodeIssue | webnotes/JiraInterface.py:48-86 | no body gives no issue; a non-dict body raises; for a dict body with dict fields and status there is no issue exactly when key, summary, status name or story points is missing or "N/A", and otherwise the issue is built from exactly those four values and the description text |
| JiraInterface.LiteralNotAvailableGivesNoIssue | webnotes/JiraInterface.py:57-82 | a summary that is literally "N/A" gives no issue |
| JiraInterface.MissingStoryPointsGiveNoIssue | webnotes/JiraInterface.py:57-82 | a body without the story-point field decodes to no issue |
| JiraInterface.ExtractIssuesNumbers | webnotes/JiraInterface.py:163-164 | at most one key per item |
| JiraInterface.ExtractIssuesNumbersAppend | webnotes/JiraInterface.py:163-164 | the keys of two lists are the keys of each, concatenated, and the first error wins |
| JiraInterface.ExtractIssuesNumbersOfDicts | webnotes/JiraInterface.py:163-164 | for a list of dicts the result holds exactly the keys of the items that have one |
| FileAdjuster.OpeningFrom | webnotes/FileAdjuster.py:25 | the last start of a front-matter match at or before a bound, and nothing exactly when none starts there |
| FileAdjuster.Opening | webnotes/FileAdjuster.py:25 | the greedy `\s*` settles on the last position from which the pattern matches, and there is none exactly when the regex finds no match |
| FileAdjuster.FrontMatter | webnotes/FileAdjuster.py:25-30 | a front matter is found exactly when the regex matches, and it is the shortest text up to a closing `\n---` |
| FileAdjuster.GroupUnique | webnotes/FileAdjuster.py:25-30 | the lazy group is determined by where it starts |
| FileAdjuster.FieldValue | webnotes/FileAdjuster.py:40-46 | a property value is stripped |
| FileAdjuster.KeysExclusive | webnotes/FileAdjuster.py:39-46 | a line starts at most one of the three properties |
| FileAdjuster.ScanSnoc | webnotes/FileAdjuster.py:38-46 | scanning one more line continues the scan from where it stood |
| FileAdjuster.ScanFindsLast | webnotes/FileAdjuster.py:34-46 | the scan keeps the last non-empty total, the last done value (or ""), and the last link |
| FileAdjuster.AdjustFile | webnotes/FileAdjuster.py:17-81 | a missing path gives the "File does not exist" message; a folder fails; no front matter gives "Not a jira story"; properties always carry a link |
| FileAdjuster.Finish | webnotes/FileAdjuster.py:49-78 | a missing or empty link gives exactly "Not a jira story"; properties carry the scanned link; a failure is an `AttributeError`, from decoding the tracker's answer or from stripping a total that is not text |
| FileAdjuster.NotJiraExactly | webnotes/FileAdjuster.py:27-50 | "Not a jira story" comes back exactly for a document without front matter or without a non-empty last link |
| FileAdjuster.AdjustDocument | webnotes/FileAdjuster.py:25-46 | a document with front matter is decided by the scan of its lines |
| FileAdjuster.PropertiesFromLastLines | webnotes/FileAdjuster.py:38-78 | the reported link is the last link line, and the done value is the last one with its quotes stripped |
| FileAdjuster.FinishFields | webnotes/FileAdjuster.py:64-65 | a non-empty done value loses its surrounding quotes |
| FileAdjuster.FinishStated | webnotes/FileAdjuster.py:53-62 | a stated, non-blank total is reported with its quotes stripped, whatever the tracker says |
| FileAdjuster.StatedTotalIsKept | webnotes/FileAdjuster.py:53-62 | a note that states its total does not consult the tracker, and reports that total |
| FileAdjuster.FinishLooksUp | webnotes/FileAdjuster.py:53-62 | without a total, the tracker's answer is decoded as `get_jira_issue` does: a decoding that raises fails the call, no issue leaves the total unset, and an issue's story points are reported as they are when falsy, quote-stripped when text, and a failure otherwise |
| FileAdjuster.MissingTotalIsLookedUp | webnotes/FileAdjuster.py:53-62 | the same, for a note whose front matter has no total |
| FileAdjuster.FractionalPointsAreText | webnotes/FileAdjuster.py:53-62 | story points printed with a '.' reach the report as text and never fail the quote removal; a float 3.0 is reported as "3" |
| FileAdjuster.HeaderFrontMatter | webnotes/FileAdjuster.py:25-33 | the front matter of a freshly created note is the single line `link: address` |
| FileAdjuster.PlainNoteIsNoStory | webnotes/FileAdjuster.py:25-50 | a freshly created plain note is not a Jira story |
| SprintRefinement.RefinementDays | webnotes/alfredWorkflows/SprintRefinement.py:18-24 | no or empty argument means Tuesday and Thursday; "DI" and "DO" in any case mean one of them; anything else raises `UnboundLocalError` |
| SprintRefinement.WeekdayAhead | webnotes/alfredWorkflows/SprintRefinement.py:26-28 | any weekday is reached within six days of stepping forward |
| SprintRefinement.NextRefinementDay | webnotes/alfredWorkflows/SprintRefinement.py:26-28 | the loop stops at the first day on or after today whose weekday is wanted, at most six days ahead |
| SprintRefinement.GetTitle | webnotes/alfredWorkflows/SprintRefinement.py:16-37 | the title is that of the first wanted day on or after today, and it fails exactly when the argument is not recognised |
| SprintRefinement.TitleDayNames | webnotes/alfredWorkflows/SprintRefinement.py:29-35 | the title shows "Di" for a Tuesday and "Do" for any other day |
| SprintRefinement.DateTextInjective | webnotes/alfredWorkflows/SprintRefinement.py:35 | the unpadded `day.month.year` text determines the date |
| SprintRefinement.TitleDeterminesDate | webnotes/alfredWorkflows/SprintRefinement.py:29-37 | two equal titles are for the same date and agree on whether it is a Tuesday |
| SprintRefinement.Items | webnotes/alfredWorkflows/SprintRefinement.py:42-47 | one item per pair, in order, only the last one marked |
| SprintRefinement.ItemsAppend | webnotes/alfredWorkflows/SprintRefinement.py:43-47 | adding a pair unmarks the previous last item and appends a marked one |
| SprintRefinement.MarkedIffLast | webnotes/alfredWorkflows/SprintRefinement.py:43-47 | an item ends with " (wenn Zeit)</li>" exactly when it is the last, whatever its address and title |
| SprintRefinement.ItemAddressReadsBack | webnotes/alfredWorkflows/SprintRefinement.py:45-47 | an address without double quotes reads back from the item's `href` |
| SprintRefinement.BulletList | webnotes/alfredWorkflows/SprintRefinement.py:42-51 | the list is the bold title and the opening `<ul>`, then the items joined in order, then the closing `</ul>` |
| SprintRefinement.BulletListMarksLast | webnotes/alfredWorkflows/SprintRefinement.py:42-51 | the list's body is empty exactly when there are no pairs, and otherwise ends with the last pair's item and the marker |
| SprintRefinement.PhxSprints | webnotes/alfredWorkflows/SprintRefinement.py:65 | exactly the sprints whose name contains "PHX" are kept, none added |
| SprintRefinement.PhxSprintsCount | webnotes/alfredWorkflows/SprintRefinement.py:65 | a sprint whose name contains "PHX" is kept as often as it occurs, any other not at all |
| SprintRefinement.PhxSprintsAppend | webnotes/alfredWorkflows/SprintRefinement.py:65 | the filter keeps input order: filtering two lists joined is joining the two filtered lists |
| SprintRefinement.Insert | webnotes/alfredWorkflows/SprintRefinement.py:66 | inserting into a name-sorted list keeps it sorted and adds exactly the one sprint |
| SprintRefinement.SortByName | webnotes/alfredWorkflows/SprintRefinement.py:66 | the result is sorted by name and a permutation of the input |
| SprintRefinement.StoriesPrefix | webnotes/alfredWorkflows/SprintRefinement.py:69-74 | the stories of the first sprints are a prefix of the stories of all |
| SprintRefinement.CollectStories | webnotes/alfredWorkflows/SprintRefinement.py:67-76 | it succeeds exactly when the sprints hold at least `n` stories, and then returns the first `n` in sprint order; otherwise `IndexError` |
| SprintRefinement.GetIssueNumbers | webnotes/alfredWorkflows/SprintRefinement.py:63-76 | the first `n` story keys of the team's sprints taken in name order, or `IndexError` when there are fewer |
| ConfluenceNodes.NewNode | webnotes/ConfluencePageNodes/Node.py:7-18 | absent attributes and content default to empty, and the node serialises to its type, attributes and serialised children |
| ConfluenceNodes.ContentJson | webnotes/ConfluencePageNodes/Node.py:30-33 | the serialised children are as many as the children and in the same order |
| ConfluenceNodes.SerialisedContent | webnotes/ConfluencePageNodes/Node.py:30-33 | the content entry of every container's JSON is the list of its serialised children |
| ConfluenceNodes.SerialisedKeys | webnotes/ConfluencePageNodes/Node.py:27-34 | a node has exactly the keys type, attrs, content; a root type, content, version; a row type, content; a text text, type, marks; raw entries pass through unchanged |
| ConfluenceNodes.Remove | webnotes/ConfluencePageNodes/RootNode.py:33-34 | deleting a key leaves it absent and every other key as it was |
| ConfluenceNodes.Set | webnotes/ConfluencePageNodes/RootNode.py:36 | setting a key makes it read the value, keeps other keys, and appends a new key at the end |
| ConfluenceNodes.RootJsonShape | webnotes/ConfluencePageNodes/RootNode.py:31-36 | the root's JSON is type "doc", content and version, in that order, with no attrs |
| ConfluenceNodes.RootSerialised | webnotes/ConfluencePageNodes/RootNode.py:24-37 | a root serialises with type "doc", its version and no attrs |
| ConfluenceNodes.NewRoot | webnotes/ConfluencePageNodes/RootNode.py:10-22 | a root has type "doc", no attrs, the given version or version 1 when omitted, and the given content or empty content when omitted |
| ConfluenceNodes.NewText | webnotes/ConfluencePageNodes/TextContent.py:7-29 | the text is kept verbatim with type "text", and the mark list is empty exactly when the mark type is falsy |
| ConfluenceNodes.FalsyMarksAreNone | webnotes/ConfluencePageNodes/TextContent.py:28 | every falsy mark type serialises like no mark |
| ConfluenceNodes.CreateSpace | webnotes/ConfluencePageNodes/TextContent.py:31-39 | a single unmarked space |
| ConfluenceNodes.CreateEmpty | webnotes/ConfluencePageNodes/TextContent.py:41-49 | an unmarked empty text |
| ConfluenceNodes.FromToJson | webnotes/ConfluencePageNodes/Node.py:20-35 | reading back the JSON of a canonical tree gives the tree, so serialisation loses nothing but the spelling of a falsy mark |
| ConfluenceNodes.NewParagraph | webnotes/ConfluencePageNodes/ParagraphNode.py:10-11 | a paragraph has type "paragraph", no attributes, and the given content or empty content when omitted |
| ConfluenceNodes.NewRow | webnotes/ConfluencePageNodes/Table/TableRowNode.py:4-5 | a row has type "tableRow", empty content by default, and no attrs in its JSON |
| ConfluenceNodes.AddCell | webnotes/ConfluencePageNodes/Table/TableRowNode.py:7-8 | the row's serialised cells are the old ones followed by the new cell |
| ConfluenceNodes.ColouredAttrs | webnotes/ConfluencePageNodes/Table/TableCellNode.py:8-15 | spans of one, the width as a one-element list, and a background exactly for a truthy colour |
| ConfluenceNodes.NewCell | webnotes/ConfluencePageNodes/Table/TableCellNode.py:4-17 | a cell has type "tableCell", spans of one, the given width or 568.0, a background exactly when the colour is truthy and equal to it, and empty content by default |
| ConfluenceNodes.NewHeader | webnotes/ConfluencePageNodes/Table/TableHeaderNode.py:4-14 | a header has type "tableHeader", the given width or 568.0, and never a background |
| CellColors.NewCellColors | webnotes/ConfluencePageNodes/Table/CellColors.py:2-4 | a fresh iterator is on the palette at position 0 |
| CellColors.NextColor | webnotes/ConfluencePageNodes/Table/CellColors.py:6-9 | a call hands out a palette colour and keeps the position on the palette |
| CellColors.AdvanceIndex | webnotes/ConfluencePageNodes/Table/CellColors.py:8 | after `k` calls the position is `k mod 6` |
| CellColors.KthColor | webnotes/ConfluencePageNodes/Table/CellColors.py:3-9 | call number `k` returns colour `k mod 6` of the palette |
| CellColors.FirstColor | webnotes/ConfluencePageNodes/Table/CellColors.py:3-7 | the first call returns "#deebff" |
| CellColors.ColorsRepeat | webnotes/ConfluencePageNodes/Table/CellColors.py:6-9 | the iterator returns to the same state every six calls |
| TableNode.NewTable | webnotes/ConfluencePageNodes/Table/TableNode.py:13-31 | no column sizes and no columns raises `ZeroDivisionError`; otherwise the table is empty, the colour state is fresh, the sizes are the given ones or `num_cols` equal shares, and the layout and width are the given ones or "full-width" and 1800.0 when omitted |
| TableNode.AddRow | webnotes/ConfluencePageNodes/Table/TableNode.py:33-34 | a row is appended and nothing else changes |
| TableNode.ZipCells | webnotes/ConfluencePageNodes/Table/TableNode.py:40-44 | one cell per value and size pair, as many as the shorter list |
| TableNode.AddTitleRow | webnotes/ConfluencePageNodes/Table/TableNode.py:36-46 | the wrong number of titles raises `ValueError`; otherwise one row of header cells is appended whose texts are the titles, with the column widths, a `None` size giving the default width 568.0 |
| TableNode.AddFormattedRow | webnotes/ConfluencePageNodes/Table/TableNode.py:48-58 | the wrong number of values raises `ValueError`; otherwise one row of uncoloured cells is appended whose texts are the values, with the column widths, a `None` size giving the default width 568.0 |
| TableNode.NullSizeGetsDefault | webnotes/ConfluencePageNodes/Table/TableNode.py:36-58 | a `None` column size gives a header or plain cell the width 568.0, not a null width |
| TableNode.AddTableRow | webnotes/ConfluencePageNodes/Table/TableNode.py:60-69 | the wrong number of contents raises `ValueError`; otherwise one row of cells holding the contents is appended, with the column widths, a `None` size giving the default width 568.0 |
| TableNode.GetCellColor | webnotes/ConfluencePageNodes/Table/TableNode.py:84-89 | a falsy topic gets no colour and changes nothing; a known topic gets its colour and changes nothing; a new topic gets the next colour of the cycle, recorded for it |
| TableNode.GetCellColorKeepsInvariant | webnotes/ConfluencePageNodes/Table/TableNode.py:84-89 | topics stay distinct, topic `i` keeps colour `i mod 6`, and the iterator stays at the number of topics mod 6 |
| TableNode.NewTopicColor | webnotes/ConfluencePageNodes/Table/TableNode.py:86-87 | the `k`-th distinct topic gets colour `k mod 6` |
| TableNode.RepeatTopicStable | webnotes/ConfluencePageNodes/Table/TableNode.py:86-88 | asking again for a topic gives the same colour and does not advance the iterator |
| TableNode.SixthTopicUncoloured | webnotes/ConfluencePageNodes/Table/TableNode.py:87 | every sixth distinct topic gets the empty colour, so its cell has no background |
| TableNode.DefaultSizesFillRows | webnotes/ConfluencePageNodes/Table/TableNode.py:22-69 | with the default column sizes every added title, formatted or table row has exactly `num_cols` cells |

## Left out

- Files, configuration and the index file are not read or written. The notes root is an abstract tree in `os.walk` order; `configparser` loading becomes an explicit `Config` record; template files are a map from path to text.
- Paths are canonical relative POSIX paths: no `//`, `.`, `..`, or leading or trailing `/`. `Path.relative_to` and `as_posix` are therefore the identity on the paths the model builds.
- `randint(0, 100)` is a finite sequence of draws. The collision loop can run forever in the source; the model reports `OracleExhausted` when the draws run out.
- `uuid` values (`localId`) are parameters.
- Network calls are parameters: the tracker, the parsed answer `get_jira_issue` decodes (in `adjust_file`; elsewhere `get_jira_issue` itself), `get_url_title`'s lookup, `get_all_open_sprints` and the backlog query. `get_issue_number_from_url` is not part of this model, so `adjust_file` takes it as a parameter.
- Messages of caught exceptions are left out. An `Error processing file:` result is `Failed` with the exception class.
- Floating point is left out. Widths and the default 568.0 are opaque numbers; `width / num_cols` is the parameter `share`; `JNum` carries the number as printed.
- Dates are ordinals whose weekday is `(ordinal + 6) mod 7`. Day, month and year come from a calendar parameter, and `date.today()` is a parameter.
- NotesTree.Rename: a directory source is not modelled. The model reports `DirectoryRename` where `os.rename` would move the directory with everything below it. The engine reaches this only when the index names a directory.
- SprintRefinement.BulletList: the default title "The Bullet List" is not modelled; the title is always passed.
- Strings.ReplaceRemoves: a value that can form part of the placeholder (one holding the delimiter, or occurring inside the placeholder) can make `str.replace` leave a placeholder behind, so no promise is made for it.
- SprintRefinement.Insert: the sort is stable, but the contract states only sortedness and permutation, not stability.
- SprintRefinement.UpperIs: `str.upper` is modelled for the ASCII letters and the dotless i, the characters whose upper case is an ASCII capital. Other characters cannot upper-case to "DI" or "DO".
- SprintRefinement.NextRefinementDay: requires a wanted weekday in 0..6, which every `days` list of `get_title` has. The `timedelta` overflow at year 9999 is not modelled.
- SprintRefinement.Sprint: sprint ids are non-negative integers.
- TableNode.AddTableRow: each row value is a list of nodes; `content or []` on other values is not modelled.
- FileAdjuster.Finish: an exception raised by the HTTP request or the configuration read inside `get_jira_issue` is not modelled, since both are I/O; the decoding of the answer, which can raise, is.
- TableNode.NewTable: `col_sizes` of `None` and `[]` are both the empty sequence. A non-numeric `width` (a `TypeError`) is not modelled.
- `add_jira_table_row` is left out. It reads `parent_topic`, `reporter`, `assignee` and `get_link()`, which the issue class of `JiraInterface.py` does not have. Its colour choice is `get_cell_color`, which is modelled.
- `TableNode.py` imports `ParagraphNode` and `TextContent` from the package; the package's `__init__` is not part of this model. Both are taken to be the classes of those names.
- Reading a page back from its JSON (`ConfluenceNodes.FromJson`) is not in the source. It serves as the partner of the serialiser.
- `ParagraphNode.inline_card_cell` and `mention_cell`, `BulletListNode`, heading, panel, extension and mention nodes are left out: they are literal constructors, or depend on uuids.
- The older `ConfluencePageNodes/TableNode.py`, `webnotes.py` and `main.py` are superseded copies of modelled code.
- CLI scripts, clipboard and subprocess calls are left out. So are the SprintRefinement `__main__` block and `copy_as_html_to_clipboard`.
- FileAdjuster.FieldValue: Python's `strip()` white-space set is modelled as the ASCII white space together with the common Unicode spaces listed in `Strings.IsSpace`.
- JiraInterface.ExtractIssuesNumbers: the contract bounds the length; the content is stated by `ExtractIssuesNumbersOfDicts`.
- The colour iterator keeps `self.colors`, which never changes after construction. The model keeps only the position, and the colours are the constant `CellColors.Palette`.
- Quoting inside `repr` of containers, and `json.dumps` of the page, are not modelled.

=== FILE: CellColors.dfy ===
/** The cyclic background-colour iterator of the page tables. */
module CellColors {

  /** The colours in the order they are handed out; the last one, the empty
      string, means "no background". */
  const Palette: seq<string> := ["#deebff", "#ffebe6", "#fffae6", "#f4f5f7", "#e3fcef", ""]

  /** The iterator's state: the position of the next colour. Its colour
      list is always the palette, so the state keeps only the position. */
  datatype State = State(index: int)

  /** A state the iterator can be in: a position on the palette. */
  predicate Valid(c: State) {
    0 <= c.index < 6
  }

  /** `CellColors()`: a fresh iterator. */
  function NewCellColors(): (r: State)
    ensures Valid(r) && r.index == 0
  {
    State(0)
  }

  /** The position moved on by one, wrapping round at the end of the
      palette. */
  function Step(c: State): (r: State)
    requires Valid(c)
    ensures Valid(r)
    ensures r.index == 0 || r.index == c.index + 1
  {
    State((c.index + 1) % 6)
  }

  /** `get_next_color`: the colour at the position, and the position moved
      on by one. */
  function NextColor(c: State): (r: (State, string))
    requires Valid(c)
    ensures Valid(r.0)
    ensures r.1 in Palette
  {
    PaletteSize();
    (Step(c), Palette[c.index])
  }

  /** The iterator after `k` calls on a fresh one. */
  function Advance(k: nat): (r: State)
    ensures Valid(r)
  {
    if k == 0 then NewCellColors() else Step(Advance(k - 1))
  }

  /** After `k` calls the iterator points at position `k mod 6`. */
  lemma {:induction false} AdvanceIndex(k: nat)
    ensures Advance(k).index == k % 6
  {
    if k > 0 {
      AdvanceIndex(k - 1);
      ModStep(k - 1);
    }
  }

  lemma PaletteSize()
    ensures |Palette| == 6
  {
  }

  lemma ModStep(m: nat)
    ensures (m % 6 + 1) % 6 == (m + 1) % 6
  {
  }

  lemma ModShift(m: nat)
    ensures (m + 6) % 6 == m % 6
  {
  }

  /** Call number `k` (counting from zero) returns `Palette[k mod 6]`. */
  lemma KthColor(k: nat)
    ensures NextColor(Advance(k)).1 == Palette[k % 6]
  {
    AdvanceIndex(k);
  }

  /** The first colour handed out is the light blue. */
  lemma FirstColor()
    ensures NextColor(NewCellColors()).1 == "#deebff"
  {
  }

  /** The iterator comes back to the same state every six calls, so the
      colours repeat with period six. */
  lemma ColorsRepeat(k: nat)
    ensures Advance(k + 6) == Advance(k)
  {
    AdvanceIndex(k);
    AdvanceIndex(k + 6);
    ModShift(k);
  }
}

=== FILE: ConfluenceNodes.dfy ===
/** The document tree of a Confluence page and its serialisation to the
    JSON-like dictionaries the page API expects. Every kind of node the
    table code builds is one constructor of `Elem`; list entries that are
    not nodes are kept as raw values and passed through unchanged. */
module ConfluenceNodes {
  import opened Wrappers
  import opened Json

  /** A Python dict, as its entries in insertion order. */
  type Dict = seq<(string, Json)>

  /** A node of the document tree.
      - `Node`: the base class and every subclass that keeps its `to_json`
        (paragraphs, table cells and headers, the table itself);
      - `Root`: the document root, of type "doc", with a version;
      - `Row`: a table row, serialised without attributes;
      - `Text`: a text run with an optional mark;
      - `Raw`: a list entry without `to_json`. */
  datatype Elem =
    | Node(kind: Json, attrs: Dict, content: seq<Elem>)
    | Root(content: seq<Elem>, version: Json)
    | Row(content: seq<Elem>)
    | Text(text: string, marksType: Json)
    | Raw(value: Json)

  /** `del d[key]` for a dict that may lack the key (the `if` guards it). */
  function Remove(d: Dict, key: string): (r: Dict)
    ensures !HasKey(r, key)
    ensures forall k | k != key :: Get(r, k) == Get(d, k)
    ensures forall i | 0 <= i < |r| :: r[i] in d
  {
    if d == [] then []
    else if d[0].0 == key then Remove(d[1..], key)
    else [d[0]] + Remove(d[1..], key)
  }

  /** `d[key] = v`: replaces the value in place, or appends a new entry. */
  function Set(d: Dict, key: string, v: Json): (r: Dict)
    ensures Get(r, key) == Some(v)
    ensures forall k | k != key :: Get(r, k) == Get(d, k)
    ensures !HasKey(d, key) ==> r == d + [(key, v)]
  {
    if d == [] then [(key, v)]
    else if d[0].0 == key then
      GetCons((key, v), d[1..]);
      [(key, v)] + d[1..]
    else
      HasKeyTail(d, key);
      var r := Set(d[1..], key, v);
      GetCons(d[0], r);
      ConsSnoc(d, (key, v));
      [d[0]] + r
  }

  lemma ConsSnoc(d: Dict, e: (string, Json))
    requires d != []
    ensures [d[0]] + (d[1..] + [e]) == d + [e]
  {
  }

  /** A dict whose first entry has another key has the key exactly when
      its tail does. */
  lemma HasKeyTail(d: Dict, key: string)
    requires d != [] && d[0].0 != key
    ensures HasKey(d, key) <==> HasKey(d[1..], key)
  {
    if HasKey(d[1..], key) {
      var i :| 0 <= i < |d[1..]| && d[1..][i].0 == key;
      assert d[i + 1].0 == key;
    }
    if HasKey(d, key) {
      var i :| 0 <= i < |d| && d[i].0 == key;
      assert d[1..][i - 1].0 == key;
    }
  }

  /** `Node.to_json`: exactly the keys type, attrs and content. */
  function NodeJson(kind: Json, attrs: Dict, items: seq<Json>): Json {
    JObj([("type", kind), ("attrs", JObj(attrs)), ("content", JArr(items))])
  }

  /** `RootNode.to_json`: the base dictionary of a "doc" node with attrs
      deleted and version added. */
  function RootJson(items: seq<Json>, version: Json): Json {
    JObj(Set(Remove(NodeJson(JStr("doc"), [], items).entries, "attrs"), "version", version))
  }

  /** `TableRowNode.to_json`: type and content only. */
  function RowJson(items: seq<Json>): Json {
    JObj([("type", JStr("tableRow")), ("content", JArr(items))])
  }

  /** `TextContent.to_json`: the mark list is empty for a falsy mark type. */
  function TextJson(text: string, marksType: Json): Json {
    JObj([("text", JStr(text)), ("type", JStr("text")),
          ("marks", JArr(if Truthy(marksType) then [JObj([("type", marksType)])] else []))])
  }

  /** The JSON form of a node; children are serialised in order, raw
      entries as they are. */
  function ToJson(e: Elem): (r: Json)
    decreases e
  {
    match e
    case Node(kind, attrs, content) =>
      NodeJson(kind, attrs, seq(|content|, i requires 0 <= i < |content| => ToJson(content[i])))
    case Root(content, version) =>
      RootJson(seq(|content|, i requires 0 <= i < |content| => ToJson(content[i])), version)
    case Row(content) =>
      RowJson(seq(|content|, i requires 0 <= i < |content| => ToJson(content[i])))
    case Text(text, marksType) => TextJson(text, marksType)
    case Raw(value) => value
  }

  /** The serialised children of a node with content: as many as the
      children, in the same order. */
  function ContentJson(e: Elem): (r: seq<Json>)
    requires e.Node? || e.Root? || e.Row?
    ensures |r| == |e.content|
    ensures forall i | 0 <= i < |r| :: r[i] == ToJson(e.content[i])
  {
    seq(|e.content|, i requires 0 <= i < |e.content| => ToJson(e.content[i]))
  }

  /** The root's dictionary is type "doc", content and version, in that
      order, with no attrs. */
  lemma RootJsonShape(items: seq<Json>, version: Json)
    ensures RootJson(items, version) == JObj([("type", JStr("doc")), ("content", JArr(items)), ("version", version)])
    ensures !HasKey(RootJson(items, version).entries, "attrs")
  {
    RemoveAttrs(items);
    AddVersion(items, version);
    var shape := [("type", JStr("doc")), ("content", JArr(items)), ("version", version)];
    NotAmongThree(shape, "attrs");
  }

  /** A key that none of three entries has. */
  lemma NotAmongThree(d: Dict, key: string)
    requires |d| == 3 && d[0].0 != key && d[1].0 != key && d[2].0 != key
    ensures !HasKey(d, key)
  {
  }

  /** Setting the version on type and content appends it. */
  lemma AddVersion(items: seq<Json>, version: Json)
    ensures Set([("type", JStr("doc")), ("content", JArr(items))], "version", version) ==
      [("type", JStr("doc")), ("content", JArr(items)), ("version", version)]
  {
    var kept := [("type", JStr("doc")), ("content", JArr(items))];
    assert !HasKey(kept, "version") by {
      assert kept[0].0 != "version" && kept[1].0 != "version";
    }
  }

  /** Deleting attrs from the base dictionary leaves type and content. */
  lemma RemoveAttrs(items: seq<Json>)
    ensures Remove(NodeJson(JStr("doc"), [], items).entries, "attrs") == [("type", JStr("doc")), ("content", JArr(items))]
  {
    var base := NodeJson(JStr("doc"), [], items).entries;
    assert Remove(base[2..], "attrs") == [base[2]] + Remove([], "attrs");
    assert Remove(base[1..], "attrs") == Remove(base[2..], "attrs") by {
      assert base[1..][1..] == base[2..];
    }
    assert Remove(base, "attrs") == [base[0]] + Remove(base[1..], "attrs");
  }

  lemma NodeContent(kind: Json, attrs: Dict, items: seq<Json>)
    ensures Get(NodeJson(kind, attrs, items).entries, "content") == Some(JArr(items))
  {
    GetFirst(NodeJson(kind, attrs, items).entries, "content", 2);
  }

  lemma RootContent(items: seq<Json>, version: Json)
    ensures Get(RootJson(items, version).entries, "content") == Some(JArr(items))
  {
    RootJsonShape(items, version);
    GetFirst(RootJson(items, version).entries, "content", 1);
  }

  lemma RowContent(items: seq<Json>)
    ensures Get(RowJson(items).entries, "content") == Some(JArr(items))
  {
    GetFirst(RowJson(items).entries, "content", 1);
  }

  /** The serialised content is the list of the serialised children. */
  lemma SerialisedContent(e: Elem)
    requires e.Node? || e.Root? || e.Row?
    ensures ToJson(e).JObj?
    ensures Get(ToJson(e).entries, "content") == Some(JArr(ContentJson(e)))
  {
    match e
    case Node(kind, attrs, _) =>
      NodeContent(kind, attrs, ContentJson(e));
    case Root(_, version) =>
      RootContent(ContentJson(e), version);
    case Row(_) =>
      RowContent(ContentJson(e));
  }

  /** The keys of each kind of serialised node, in order. */
  lemma SerialisedKeys(e: Elem)
    ensures e.Node? ==> ToJson(e).JObj? && Keys(ToJson(e).entries) == ["type", "attrs", "content"]
    ensures e.Root? ==> ToJson(e).JObj? && Keys(ToJson(e).entries) == ["type", "content", "version"]
    ensures e.Row? ==> ToJson(e).JObj? && Keys(ToJson(e).entries) == ["type", "content"]
    ensures e.Text? ==> ToJson(e).JObj? && Keys(ToJson(e).entries) == ["text", "type", "marks"]
    ensures e.Raw? ==> ToJson(e) == e.value
  {
    match e
    case Node(kind, attrs, _) =>
      KeysOfThree(("type", kind), ("attrs", JObj(attrs)), ("content", JArr(ContentJson(e))));
    case Root(_, version) =>
      RootJsonShape(ContentJson(e), version);
      KeysOfThree(("type", JStr("doc")), ("content", JArr(ContentJson(e))), ("version", version));
    case Row(_) =>
      KeysOfTwo(("type", JStr("tableRow")), ("content", JArr(ContentJson(e))));
    case Text(_, _) =>
      var j := ToJson(e).entries;
      KeysOfThree(j[0], j[1], j[2]);
    case Raw(_) =>
  }

  lemma KeysOfThree(a: (string, Json), b: (string, Json), c: (string, Json))
    ensures Keys([a, b, c]) == [a.0, b.0, c.0]
  {
  }

  lemma KeysOfTwo(a: (string, Json), b: (string, Json))
    ensures Keys([a, b]) == [a.0, b.0]
  {
  }

  /** A root serialises with type "doc", its version, and no attrs. */
  lemma RootSerialised(content: seq<Elem>, version: Json)
    ensures var j := ToJson(Root(content, version));
      && j.JObj?
      && Get(j.entries, "type") == Some(JStr("doc"))
      && Get(j.entries, "version") == Some(version)
      && !HasKey(j.entries, "attrs")
  {
    RootJsonShape(ContentJson(Root(content, version)), version);
  }

  /** Any falsy mark type serialises like no mark at all. */
  lemma FalsyMarksAreNone(text: string, m: Json)
    requires !Truthy(m)
    ensures ToJson(Text(text, m)) == ToJson(Text(text, JNull))
  {
  }

  /** The canonical trees: falsy mark types are `None`, and no raw entry is
      itself a dictionary (one could be mistaken for a node). */
  predicate Canonical(e: Elem)
    decreases e
  {
    match e
    case Node(_, _, content) => forall i | 0 <= i < |content| :: Canonical(content[i])
    case Root(content, _) => forall i | 0 <= i < |content| :: Canonical(content[i])
    case Row(content) => forall i | 0 <= i < |content| :: Canonical(content[i])
    case Text(_, m) => m == JNull || Truthy(m)
    case Raw(v) => !v.JObj?
  }

  /** Reads a serialised tree back: a dictionary with the key layout of one
      of the node kinds becomes that node; anything else stays raw. */
  function FromJson(j: Json): Elem
    decreases j
  {
    match j
    case JObj(d) =>
      if |d| == 3 && d[0].0 == "type" && d[1].0 == "attrs" && d[1].1.JObj?
        && d[2].0 == "content" && d[2].1.JArr? then
        Node(d[0].1, d[1].1.entries, FromJsonAll(d[2].1.items))
      else if |d| == 3 && d[0] == ("type", JStr("doc")) && d[1].0 == "content" && d[1].1.JArr?
        && d[2].0 == "version" then
        Root(FromJsonAll(d[1].1.items), d[2].1)
      else if |d| == 2 && d[0] == ("type", JStr("tableRow")) && d[1].0 == "content" && d[1].1.JArr? then
        Row(FromJsonAll(d[1].1.items))
      else if |d| == 3 && d[0].0 == "text" && d[0].1.JStr? && d[1] == ("type", JStr("text"))
        && d[2].0 == "marks" && d[2].1 == JArr([]) then
        Text(d[0].1.s, JNull)
      else if |d| == 3 && d[0].0 == "text" && d[0].1.JStr? && d[1] == ("type", JStr("text"))
        && d[2].0 == "marks" && d[2].1.JArr? && |d[2].1.items| == 1 && d[2].1.items[0].JObj?
        && |d[2].1.items[0].entries| == 1 && d[2].1.items[0].entries[0].0 == "type"
        && Truthy(d[2].1.items[0].entries[0].1) then
        Text(d[0].1.s, d[2].1.items[0].entries[0].1)
      else Raw(j)
    case _ => Raw(j)
  }

  function FromJsonAll(items: seq<Json>): (r: seq<Elem>)
    ensures |r| == |items|
    decreases items
  {
    if items == [] then [] else [FromJson(items[0])] + FromJsonAll(items[1..])
  }

  lemma {:induction false} FromJsonAllPointwise(items: seq<Json>, es: seq<Elem>)
    requires |items| == |es|
    requires forall i | 0 <= i < |es| :: FromJson(items[i]) == es[i]
    ensures FromJsonAll(items) == es
    decreases items
  {
    if items != [] {
      FromJsonAllPointwise(items[1..], es[1..]);
    }
  }

  /** Reading back a node dictionary gives a node. */
  lemma FromNodeJson(kind: Json, attrs: Dict, items: seq<Json>)
    ensures FromJson(NodeJson(kind, attrs, items)) == Node(kind, attrs, FromJsonAll(items))
  {
  }

  /** Reading back a root dictionary gives a root. */
  lemma FromRootJson(items: seq<Json>, version: Json)
    ensures FromJson(RootJson(items, version)) == Root(FromJsonAll(items), version)
  {
    RootJsonShape(items, version);
    var d := [("type", JStr("doc")), ("content", JArr(items)), ("version", version)];
    assert d[1].0 != "attrs";
    assert FromJson(JObj(d)) == Root(FromJsonAll(items), version);
  }

  /** Reading back a row dictionary gives a row. */
  lemma FromRowJson(items: seq<Json>)
    ensures FromJson(RowJson(items)) == Row(FromJsonAll(items))
  {
  }

  /** Reading back a text dictionary gives the text, when its marks type is
      either absent or truthy. */
  lemma FromTextJson(text: string, marksType: Json)
    requires marksType == JNull || Truthy(marksType)
    ensures FromJson(TextJson(text, marksType)) == Text(text, marksType)
  {
  }

  /** Reading back a serialised canonical tree gives the tree. */
  lemma {:induction false} FromToJson(e: Elem)
    requires Canonical(e)
    ensures FromJson(ToJson(e)) == e
    decreases e
  {
    match e
    case Node(kind, attrs, content) =>
      FromNodeJson(kind, attrs, ContentJson(e));
      ChildrenRoundTrip(e);
    case Root(content, version) =>
      FromRootJson(ContentJson(e), version);
      ChildrenRoundTrip(e);
    case Row(content) =>
      FromRowJson(ContentJson(e));
      ChildrenRoundTrip(e);
    case Text(text, marksType) =>
      FromTextJson(text, marksType);
    case Raw(_) =>
  }

  lemma {:induction false} ChildrenRoundTrip(e: Elem)
    requires e.Node? || e.Root? || e.Row?
    requires Canonical(e)
    ensures FromJsonAll(ContentJson(e)) == e.content
    decreases e, 0
  {
    forall i | 0 <= i < |e.content| ensures FromJson(ContentJson(e)[i]) == e.content[i] {
      FromToJson(e.content[i]);
    }
    FromJsonAllPointwise(ContentJson(e), e.content);
  }

  /** `Node(node_type, attrs, content)`: absent attrs and content default to
      empty ones. */
  function NewNode(nodeType: Json, attrs: Option<Dict>, content: Option<seq<Elem>>): (r: Elem)
    ensures r.Node?
    ensures ToJson(r) == NodeJson(nodeType, attrs.GetOr([]), ContentJson(r))
    ensures content.None? ==> ContentJson(r) == []
    ensures content.Some? ==> r.content == content.value
  {
    Node(nodeType, attrs.GetOr([]), content.GetOr([]))
  }

  const DefaultVersion := JNum("1")

  /** `RootNode(content, version)`: an omitted (`None`) argument takes its
      default, empty content or version 1. */
  function NewRoot(content: Option<seq<Elem>>, version: Option<Json>): (r: Elem)
    ensures r.Root?
    ensures Get(ToJson(r).entries, "type") == Some(JStr("doc"))
    ensures version.Some? ==> Get(ToJson(r).entries, "version") == Some(version.value)
    ensures version.None? ==> Get(ToJson(r).entries, "version") == Some(DefaultVersion)
    ensures !HasKey(ToJson(r).entries, "attrs")
    ensures content.None? ==> ContentJson(r) == []
    ensures content.Some? ==> r.content == content.value
  {
    var r := Root(content.GetOr([]), version.GetOr(DefaultVersion));
    RootSerialised(r.content, r.version);
    r
  }

  /** `TextContent(text, marksType)`. */
  function NewText(text: string, marksType: Json): (r: Elem)
    ensures ToJson(r).JObj?
    ensures Get(ToJson(r).entries, "text") == Some(JStr(text))
    ensures Get(ToJson(r).entries, "type") == Some(JStr("text"))
    ensures Get(ToJson(r).entries, "marks") == Some(JArr([])) <==> !Truthy(marksType)
  {
    var d := TextJson(text, marksType).entries;
    GetFirst(d, "text", 0);
    GetFirst(d, "type", 1);
    GetFirst(d, "marks", 2);
    Text(text, marksType)
  }

  /** `TextContent.create_space()`: a single space, unmarked. */
  function CreateSpace(): (r: Elem)
    ensures ToJson(r).JObj?
    ensures Get(ToJson(r).entries, "text") == Some(JStr(" "))
    ensures Get(ToJson(r).entries, "marks") == Some(JArr([]))
  {
    NewText(" ", JNull)
  }

  /** `TextContent.create_empty()`: empty text, unmarked. */
  function CreateEmpty(): (r: Elem)
    ensures ToJson(r).JObj?
    ensures Get(ToJson(r).entries, "text") == Some(JStr(""))
    ensures Get(ToJson(r).entries, "marks") == Some(JArr([]))
  {
    NewText("", JNull)
  }

  /** `ParagraphNode(content)`: a missing content is an empty paragraph. */
  function NewParagraph(content: Option<seq<Elem>>): (r: Elem)
    ensures r.Node? && r.kind == JStr("paragraph") && r.attrs == []
    ensures content.None? ==> ContentJson(r) == []
    ensures content.Some? ==> r.content == content.value
  {
    NewNode(JStr("paragraph"), Some([]), content)
  }

  /** `TableRowNode(content)`: a missing or empty content is an empty row. */
  function NewRow(content: Option<seq<Elem>>): (r: Elem)
    ensures r.Row?
    ensures content.None? ==> ContentJson(r) == []
    ensures Get(ToJson(r).entries, "type") == Some(JStr("tableRow"))
    ensures !HasKey(ToJson(r).entries, "attrs")
  {
    Row(content.GetOr([]))
  }

  /** `TableRowNode.add_cell`: appends the cell and keeps the others. */
  function AddCell(row: Elem, cell: Elem): (r: Elem)
    requires row.Row?
    ensures r.Row?
    ensures ContentJson(r) == ContentJson(row) + [ToJson(cell)]
  {
    var r := Row(row.content + [cell]);
    assert r.content[..|row.content|] == row.content;
    r
  }

  const DefaultColWidth := JNum("568.0")

  /** The attributes of a table cell or header: spans of one and the width
      as a one-element list. */
  function CellAttrs(colwidth: Option<Json>): Dict {
    [("colspan", JNum("1")), ("rowspan", JNum("1")), ("colwidth", JArr([colwidth.GetOr(DefaultColWidth)]))]
  }

  /** The cell attributes, with the background added for a truthy colour. */
  function ColouredAttrs(colwidth: Option<Json>, color: Json): (r: Dict)
    ensures Get(r, "colspan") == Some(JNum("1")) && Get(r, "rowspan") == Some(JNum("1"))
    ensures Get(r, "colwidth") == Some(JArr([colwidth.GetOr(DefaultColWidth)]))
    ensures HasKey(r, "background") <==> Truthy(color)
    ensures Truthy(color) ==> Get(r, "background") == Some(color)
  {
    CellAttrsFacts(colwidth);
    if Truthy(color) then Set(CellAttrs(colwidth), "background", color) else CellAttrs(colwidth)
  }

  lemma CellAttrsFacts(colwidth: Option<Json>)
    ensures var attrs := CellAttrs(colwidth);
      && Get(attrs, "colspan") == Some(JNum("1")) && Get(attrs, "rowspan") == Some(JNum("1"))
      && Get(attrs, "colwidth") == Some(JArr([colwidth.GetOr(DefaultColWidth)]))
      && !HasKey(attrs, "background")
  {
    var attrs := CellAttrs(colwidth);
    GetFirst(attrs, "colspan", 0);
    GetFirst(attrs, "rowspan", 1);
    GetFirst(attrs, "colwidth", 2);
    NotAmongThree(attrs, "background");
  }

  /** `TableCellNode(content, colwidth, color)`: a background only for a
      truthy colour. */
  function NewCell(content: Option<seq<Elem>>, colwidth: Option<Json>, color: Json): (r: Elem)
    ensures r.Node? && r.kind == JStr("tableCell")
    ensures Get(r.attrs, "colspan") == Some(JNum("1")) && Get(r.attrs, "rowspan") == Some(JNum("1"))
    ensures Get(r.attrs, "colwidth") == Some(JArr([colwidth.GetOr(DefaultColWidth)]))
    ensures HasKey(r.attrs, "background") <==> Truthy(color)
    ensures Truthy(color) ==> Get(r.attrs, "background") == Some(color)
    ensures content.None? ==> r.content == []
    ensures content.Some? ==> r.content == content.value
  {
    NewNode(JStr("tableCell"), Some(ColouredAttrs(colwidth, color)), content)
  }

  /** `TableHeaderNode(content, colwidth)`: like a cell, never coloured. */
  function NewHeader(content: Option<seq<Elem>>, colwidth: Option<Json>): (r: Elem)
    ensures r.Node? && r.kind == JStr("tableHeader")
    ensures Get(r.attrs, "colwidth") == Some(JArr([colwidth.GetOr(DefaultColWidth)]))
    ensures !HasKey(r.attrs, "background")
    ensures content.Some? ==> r.content == content.value
  {
    NewNode(JStr("tableHeader"), Some(ColouredAttrs(colwidth, JNull)), content)
  }
}

=== FILE: FileAdjuster.dfy ===
/** `adjust_file`: reads the story-point properties of a note from its
    front matter (the block between the leading `---` lines), looking the
    total up at the issue tracker when the note does not state it. The file
    system, the issue-key extraction from a link and the tracker's answer
    for a key are parameters; the answer is decoded as `get_jira_issue`
    does. */
module FileAdjuster {
  import opened Wrappers
  import opened Strings
  import opened Json
  import opened IndexStore
  import opened Utilities
  import JiraInterface

  /** What the path names: nothing, a directory, or a file with its raw
      text. */
  datatype Entry = Absent | Folder | Document(raw: string)

  /** What `adjust_file` returns: one of its messages, the message of an
      exception it caught (the exception only; its text is not modelled),
      or the property dict with keys Total-SP, SP-done and jira-link. */
  datatype Adjusted =
    | Message(text: string)
    | Failed(error: Raised)
    | Properties(totalSp: Json, spDone: string, jiraLink: string)

  const NotJiraStory := "Not a jira story"
  const MissingPrefix := "File does not exist: "

  const TotalSpKey := "Total-SP:"
  const SpDoneKey := "SP-done:"
  const JiraLinkKey := "jira-link:"

  /** The line closing the front matter. */
  const Fence := "\n---"

  /** Front matter can open with `L` white-space characters after the first
      `---`, the last of them a newline: the `^---\s*\n` part of the pattern. */
  predicate Opens(content: string, L: nat) {
    && StartsWith(content, "---")
    && 3 + L < |content|
    && (forall i | 3 <= i < 3 + L :: IsSpace(content[i]))
    && content[3 + L] == '\n'
  }

  /** A closing fence follows that opening. */
  predicate Closes(content: string, L: nat) {
    exists j | 4 + L <= j <= |content| :: OccursAt(content, Fence, j)
  }

  predicate Matches(content: string, L: nat) {
    Opens(content, L) && Closes(content, L)
  }

  /** `g` is what the lazy group captures after the opening of length `L`:
      the text up to the first closing fence. */
  predicate GroupAt(content: string, L: nat, g: string) {
    && 4 + L + |g| <= |content|
    && content[4 + L..4 + L + |g|] == g
    && OccursAt(content, Fence, 4 + L + |g|)
    && (forall j | 4 + L <= j < 4 + L + |g| :: !OccursAt(content, Fence, j))
  }

  /** The backtracking of the greedy `\s*`: openings are tried from the
      longest down, and the first one followed by a fence wins. */
  function OpeningFrom(content: string, L: nat): (r: Option<nat>)
    ensures r.None? <==> forall k: nat | k <= L :: !Matches(content, k)
    ensures r.Some? ==> r.value <= L && Matches(content, r.value)
    ensures r.Some? ==> forall m: nat | r.value < m <= L :: !Matches(content, m)
  {
    if Matches(content, L) then Some(L)
    else if L == 0 then None
    else OpeningFrom(content, L - 1)
  }

  /** The opening the pattern settles on: the longest one followed by a
      fence. */
  function Opening(content: string): (r: Option<nat>)
    ensures r.None? <==> forall k: nat :: !Matches(content, k)
    ensures r.Some? ==> Matches(content, r.value)
    ensures r.Some? ==> forall m: nat | r.value < m :: !Matches(content, m)
  {
    OpeningFrom(content, |content|)
  }

  /** What the lazy `(.*?)` captures after an opening. */
  function Group(content: string, L: nat): (g: string)
    requires Matches(content, L)
    ensures GroupAt(content, L, g)
  {
    var at := IndexFrom(content, Fence, 4 + L);
    content[4 + L..at.value]
  }

  /** `re.search(r'^---\s*\n(.*?)\n---', content, re.DOTALL).group(1)`, or
      `None` when the pattern does not match. */
  function FrontMatter(content: string): (r: Option<string>)
    ensures r.Some? <==> Opening(content).Some?
    ensures r.Some? ==> GroupAt(content, Opening(content).value, r.value)
  {
    match Opening(content)
    case Some(L) => Some(Group(content, L))
    case None => None
  }

  /** The stripped line starts with `key`. */
  predicate IsKeyLine(line: string, key: string) {
    StartsWith(Strip(line), key)
  }

  /** `line.split(key, 1)[1].strip()`. */
  function FieldValue(line: string, key: string): (v: string)
    requires key != "" && IsKeyLine(line, key)
    ensures IsStripped(v)
  {
    StrippedPrefixOccurs(line, key);
    Strip(AfterFirst(line, key))
  }

  /** The three variables of the scanning loop. */
  datatype Fields = Fields(totalSp: Option<string>, spDone: string, jiraLink: Option<string>)

  const NoFields := Fields(None, "", None)

  /** One turn of the loop over the front-matter lines. */
  function ScanLine(f: Fields, line: string): Fields {
    if IsKeyLine(line, TotalSpKey) then
      var v := FieldValue(line, TotalSpKey);
      f.(totalSp := if v != "" then Some(v) else None)
    else if IsKeyLine(line, SpDoneKey) then f.(spDone := FieldValue(line, SpDoneKey))
    else if IsKeyLine(line, JiraLinkKey) then f.(jiraLink := Some(FieldValue(line, JiraLinkKey)))
    else f
  }

  /** The loop over the front-matter lines, in order. */
  function Scan(lines: seq<string>, f: Fields): Fields
    decreases |lines|
  {
    if lines == [] then f else Scan(lines[1..], ScanLine(f, lines[0]))
  }

  /** The value on the last line that starts with `key`, if any. */
  function LastValue(lines: seq<string>, key: string): Option<string>
    requires key != ""
  {
    if lines == [] then None
    else
      var last := lines[|lines| - 1];
      if IsKeyLine(last, key) then Some(FieldValue(last, key))
      else LastValue(lines[..|lines| - 1], key)
  }

  /** A line whose stripped text starts with another character is not a
      line of `key`. */
  lemma NotKeyLine(line: string, key: string)
    requires Strip(line) != [] && key != [] && Strip(line)[0] != key[0]
    ensures !IsKeyLine(line, key)
  {
    var s := Strip(line);
    if |key| <= |s| {
      assert s[..|key|][0] == s[0] != key[0];
    }
  }

  /** A line of `key` starts, once stripped, with the key's first
      character. */
  lemma KeyLineFirst(line: string, key: string)
    requires key != [] && IsKeyLine(line, key)
    ensures Strip(line) != [] && Strip(line)[0] == key[0]
  {
    assert Strip(line)[..|key|][0] == key[0];
  }

  /** No line is a line of two of the keys: their first characters differ. */
  lemma KeysExclusive(line: string)
    ensures IsKeyLine(line, TotalSpKey) ==> !IsKeyLine(line, SpDoneKey) && !IsKeyLine(line, JiraLinkKey)
    ensures IsKeyLine(line, SpDoneKey) ==> !IsKeyLine(line, JiraLinkKey)
  {
    if IsKeyLine(line, TotalSpKey) {
      KeyLineFirst(line, TotalSpKey);
      NotKeyLine(line, SpDoneKey);
      NotKeyLine(line, JiraLinkKey);
    }
    if IsKeyLine(line, SpDoneKey) {
      KeyLineFirst(line, SpDoneKey);
      NotKeyLine(line, JiraLinkKey);
    }
  }

  lemma {:induction false} ScanSnoc(lines: seq<string>, line: string, f: Fields)
    ensures Scan(lines + [line], f) == ScanLine(Scan(lines, f), line)
    decreases |lines|
  {
    if lines == [] {
      assert [line][1..] == [];
    } else {
      assert (lines + [line])[1..] == lines[1..] + [line];
      ScanSnoc(lines[1..], line, ScanLine(f, lines[0]));
    }
  }

  /** A Total-SP value as the loop keeps it: an empty one counts as none. */
  function NonEmpty(v: Option<string>): Option<string> {
    if v.Some? && v.value != "" then v else None
  }

  /** The loop leaves in each variable the value of the last line of its key:
      keys are matched on the stripped line and later lines override earlier
      ones. */
  lemma {:induction false} ScanFindsLast(lines: seq<string>)
    ensures var f := Scan(lines, NoFields);
      && f.totalSp == NonEmpty(LastValue(lines, TotalSpKey))
      && f.spDone == LastValue(lines, SpDoneKey).GetOr("")
      && f.jiraLink == LastValue(lines, JiraLinkKey)
    decreases |lines|
  {
    if lines != [] {
      var init := lines[..|lines| - 1];
      var last := lines[|lines| - 1];
      assert lines == init + [last];
      ScanFindsLast(init);
      ScanSnoc(init, last, NoFields);
      ScanLineFields(Scan(init, NoFields), last);
      LastValueSnoc(init, last, TotalSpKey);
      LastValueSnoc(init, last, SpDoneKey);
      LastValueSnoc(init, last, JiraLinkKey);
    }
  }

  /** A line of one key sets that key's variable and leaves the others. */
  lemma ScanLineFields(f: Fields, line: string)
    ensures var g := ScanLine(f, line);
      && g.totalSp == (if IsKeyLine(line, TotalSpKey) then NonEmpty(Some(FieldValue(line, TotalSpKey))) else f.totalSp)
      && g.spDone == (if IsKeyLine(line, SpDoneKey) then FieldValue(line, SpDoneKey) else f.spDone)
      && g.jiraLink == (if IsKeyLine(line, JiraLinkKey) then Some(FieldValue(line, JiraLinkKey)) else f.jiraLink)
  {
    KeysExclusive(line);
  }

  lemma LastValueSnoc(lines: seq<string>, line: string, key: string)
    requires key != ""
    ensures LastValue(lines + [line], key) ==
      if IsKeyLine(line, key) then Some(FieldValue(line, key)) else LastValue(lines, key)
  {
    var all := lines + [line];
    assert all[|all| - 1] == line;
    assert all[..|all| - 1] == lines;
  }

  /** The front-matter lines of a document, when it has front matter. */
  function FrontLines(raw: string): Option<seq<string>> {
    match FrontMatter(TranslateNewlines(raw))
    case Some(fm) => Some(SplitOn(fm, '\n'))
    case None => None
  }

  /** The Total-SP value asks for a lookup: it is missing, empty, or a pair
      of quotes. */
  predicate NeedsLookup(total: Option<string>) {
    total.None? || Strip(total.value) == "\"\"" || Strip(total.value) == "''"
  }

  /** The story points `get_jira_issue` gives for the link's issue, or
      `total` when there is no issue key or no issue. `fetch` stands for the
      tracker's answer for a key, as `json.loads` parsed it; decoding it can
      raise. */
  function LookedUp(total: Json, link: string, issueKeyOf: string -> Option<string>,
                    fetch: string -> Option<Json>): (r: Result<Json, Raised>)
    ensures r.Err? ==> r.error == AttributeError
  {
    match issueKeyOf(link)
    case Some(k) =>
      if k == "" then Ok(total)
      else (match JiraInterface.DecodeIssue(fetch(k))
            case Err(e) => Err(e)
            case Ok(Some(issue)) => Ok(issue.storyPoints)
            case Ok(None) => Ok(total))
    case None => Ok(total)
  }

  /** `adjust_file`. */
  function AdjustFile(path: string, entry: Entry, issueKeyOf: string -> Option<string>,
                      fetch: string -> Option<Json>): (r: Adjusted)
    ensures entry.Absent? <==> r == Message(MissingPrefix + path)
    ensures entry.Folder? ==> r == Failed(IsADirectoryError)
    ensures entry.Document? && FrontLines(entry.raw).None? ==> r == Message(NotJiraStory)
    ensures r.Properties? ==> r.jiraLink != ""
  {
    match entry
    case Absent => Message(MissingPrefix + path)
    case Folder => Failed(IsADirectoryError)
    case Document(raw) =>
      match FrontLines(raw)
      case None => Message(NotJiraStory)
      case Some(lines) => Finish(Scan(lines, NoFields), issueKeyOf, fetch)
  }

  /** What `adjust_file` does with the scanned values: the jira-link test,
      the lookup of a missing total and the removal of quotes. */
  function Finish(f: Fields, issueKeyOf: string -> Option<string>,
                  fetch: string -> Option<Json>): (r: Adjusted)
    ensures f.jiraLink.None? || f.jiraLink.value == "" <==> r == Message(NotJiraStory)
    ensures r.Message? ==> r.text == NotJiraStory
    ensures r.Properties? ==> Some(r.jiraLink) == f.jiraLink
    ensures r.Failed? ==> r.error == AttributeError
  {
    if f.jiraLink.None? || f.jiraLink.value == "" then Message(NotJiraStory)
    else
      var link := f.jiraLink.value;
      var spDone := if f.spDone != "" then StripQuotes(f.spDone) else f.spDone;
      Report(Total(f.totalSp, link, issueKeyOf, fetch), spDone, link)
  }

  /** The total after the lookup a missing or empty one asks for. */
  function Total(totalSp: Option<string>, link: string, issueKeyOf: string -> Option<string>,
                 fetch: string -> Option<Json>): (r: Result<Json, Raised>)
    ensures r.Err? ==> r.error == AttributeError
    ensures !NeedsLookup(totalSp) ==> r == Ok(JStr(totalSp.value))
  {
    var stated := if totalSp.Some? then JStr(totalSp.value) else JNull;
    if NeedsLookup(totalSp) then LookedUp(stated, link, issueKeyOf, fetch) else Ok(stated)
  }

  /** The end of `adjust_file`: the total with its quotes removed (which
      raises on a truthy value that is not text), or the exception raised
      while looking it up. */
  function Report(total: Result<Json, Raised>, spDone: string, link: string): (r: Adjusted)
    ensures total.Err? ==> r == Failed(total.error)
    ensures r.Failed? && total.Ok? ==> r.error == AttributeError
    ensures r.Properties? ==> r.jiraLink == link && r.spDone == spDone
  {
    match total
    case Err(e) => Failed(e)
    case Ok(t) =>
      if !Truthy(t) then Properties(t, spDone, link)
      else if t.JStr? then Properties(JStr(StripQuotes(t.s)), spDone, link)
      else Failed(AttributeError)
  }

  /** The result is "Not a jira story" exactly when the file exists but has
      no front matter, or its last jira-link line is missing or empty. */
  lemma NotJiraExactly(path: string, entry: Entry, issueKeyOf: string -> Option<string>,
                       fetch: string -> Option<Json>)
    ensures AdjustFile(path, entry, issueKeyOf, fetch) == Message(NotJiraStory) <==>
      && entry.Document?
      && (FrontLines(entry.raw).None? ||
          var link := LastValue(FrontLines(entry.raw).value, JiraLinkKey);
          link.None? || link.value == "")
  {
    assert MissingPrefix + path != NotJiraStory by {
      assert (MissingPrefix + path)[0] != NotJiraStory[0];
    }
    if entry.Document? && FrontLines(entry.raw).Some? {
      ScanFindsLast(FrontLines(entry.raw).value);
    }
  }

  /** A document with front matter goes through the scan and `Finish`. */
  lemma AdjustDocument(path: string, raw: string, lines: seq<string>, issueKeyOf: string -> Option<string>,
                       fetch: string -> Option<Json>)
    requires FrontLines(raw) == Some(lines)
    ensures AdjustFile(path, Document(raw), issueKeyOf, fetch) == Finish(Scan(lines, NoFields), issueKeyOf, fetch)
  {
  }

  lemma FinishFields(f: Fields, issueKeyOf: string -> Option<string>,
                     fetch: string -> Option<Json>)
    requires Finish(f, issueKeyOf, fetch).Properties?
    ensures var r := Finish(f, issueKeyOf, fetch);
      r.spDone == (if f.spDone != "" then StripQuotes(f.spDone) else "")
  {
  }

  /** A found note's properties are the values of the last lines of their
      keys, with the surrounding quotes removed. */
  lemma PropertiesFromLastLines(path: string, raw: string, lines: seq<string>, issueKeyOf: string -> Option<string>,
                                fetch: string -> Option<Json>)
    requires FrontLines(raw) == Some(lines)
    requires AdjustFile(path, Document(raw), issueKeyOf, fetch).Properties?
    ensures var r := AdjustFile(path, Document(raw), issueKeyOf, fetch);
      && LastValue(lines, JiraLinkKey) == Some(r.jiraLink)
      && var done := LastValue(lines, SpDoneKey).GetOr("");
      r.spDone == (if done != "" then StripQuotes(done) else "")
  {
    AdjustDocument(path, raw, lines, issueKeyOf, fetch);
    FinishFields(Scan(lines, NoFields), issueKeyOf, fetch);
    ScanFindsLast(lines);
  }

  /** `Finish` with a stated total that needs no lookup. */
  lemma FinishStated(f: Fields, issueKeyOf: string -> Option<string>,
                     fetch: string -> Option<Json>,
                     issueKeyOf': string -> Option<string>,
                     fetch': string -> Option<Json>)
    requires f.jiraLink.Some? && f.jiraLink.value != ""
    requires f.totalSp.Some? && f.totalSp.value != "" && !NeedsLookup(f.totalSp)
    ensures var r := Finish(f, issueKeyOf, fetch);
      && r == Finish(f, issueKeyOf', fetch')
      && r.Properties? && r.totalSp == JStr(StripQuotes(f.totalSp.value))
  {
    FinishStatedValue(f, issueKeyOf, fetch);
    FinishStatedValue(f, issueKeyOf', fetch');
  }

  lemma FinishStatedValue(f: Fields, issueKeyOf: string -> Option<string>,
                          fetch: string -> Option<Json>)
    requires f.jiraLink.Some? && f.jiraLink.value != ""
    requires f.totalSp.Some? && f.totalSp.value != "" && !NeedsLookup(f.totalSp)
    ensures Finish(f, issueKeyOf, fetch) ==
      Properties(JStr(StripQuotes(f.totalSp.value)), if f.spDone != "" then StripQuotes(f.spDone) else f.spDone, f.jiraLink.value)
  {
    FinishUnfold(f, issueKeyOf, fetch);
    ReportText(f.totalSp.value, if f.spDone != "" then StripQuotes(f.spDone) else f.spDone, f.jiraLink.value);
  }

  /** `Finish` past the jira-link test is the report of the total. */
  lemma FinishUnfold(f: Fields, issueKeyOf: string -> Option<string>, fetch: string -> Option<Json>)
    requires f.jiraLink.Some? && f.jiraLink.value != ""
    ensures Finish(f, issueKeyOf, fetch) ==
      Report(Total(f.totalSp, f.jiraLink.value, issueKeyOf, fetch),
             if f.spDone != "" then StripQuotes(f.spDone) else f.spDone, f.jiraLink.value)
  {
  }

  lemma ReportText(v: string, spDone: string, link: string)
    requires v != ""
    ensures Report(Ok(JStr(v)), spDone, link) == Properties(JStr(StripQuotes(v)), spDone, link)
  {
    assert Truthy(JStr(v));
  }

  /** The lookup of a link with an issue key follows the decoded answer. */
  lemma LookedUpDecoded(total: Json, link: string, issueKeyOf: string -> Option<string>,
                        fetch: string -> Option<Json>)
    requires issueKeyOf(link).Some? && issueKeyOf(link).value != ""
    ensures var got := JiraInterface.DecodeIssue(fetch(issueKeyOf(link).value));
      LookedUp(total, link, issueKeyOf, fetch) ==
        (if got.Err? then Err(got.error)
         else if got.value.Some? then Ok(got.value.value.storyPoints)
         else Ok(total))
  {
  }

  /** A stated Total-SP that is neither empty nor a pair of quotes is
      reported with its quotes removed, and the issue tracker is not
      consulted. */
  lemma StatedTotalIsKept(path: string, raw: string, lines: seq<string>,
                          issueKeyOf: string -> Option<string>,
                          fetch: string -> Option<Json>,
                          issueKeyOf': string -> Option<string>,
                          fetch': string -> Option<Json>)
    requires FrontLines(raw) == Some(lines)
    requires LastValue(lines, JiraLinkKey).Some? && LastValue(lines, JiraLinkKey).value != ""
    requires NonEmpty(LastValue(lines, TotalSpKey)).Some? && !NeedsLookup(LastValue(lines, TotalSpKey))
    ensures var r := AdjustFile(path, Document(raw), issueKeyOf, fetch);
      && r == AdjustFile(path, Document(raw), issueKeyOf', fetch')
      && r.Properties?
      && r.totalSp == JStr(StripQuotes(LastValue(lines, TotalSpKey).value))
  {
    AdjustDocument(path, raw, lines, issueKeyOf, fetch);
    AdjustDocument(path, raw, lines, issueKeyOf', fetch');
    var f := Scan(lines, NoFields);
    ScanFindsLast(lines);
    assert f.totalSp == LastValue(lines, TotalSpKey);
    assert f.jiraLink == LastValue(lines, JiraLinkKey);
    FinishStated(f, issueKeyOf, fetch, issueKeyOf', fetch');
  }

  /** `Finish` with no total stated: the answer for the link's issue is
      decoded as `get_jira_issue` does. A decoding that raises fails the
      call, no issue leaves the total unset, and an issue's story points are
      reported: as they are when falsy, quote-stripped when text, and a
      failure of the quote removal otherwise. */
  lemma FinishLooksUp(f: Fields, issueKeyOf: string -> Option<string>,
                      fetch: string -> Option<Json>)
    requires f.jiraLink.Some? && f.jiraLink.value != "" && f.totalSp.None?
    requires issueKeyOf(f.jiraLink.value).Some? && issueKeyOf(f.jiraLink.value).value != ""
    ensures var got := JiraInterface.DecodeIssue(fetch(issueKeyOf(f.jiraLink.value).value));
      var r := Finish(f, issueKeyOf, fetch);
      && (got.Err? ==> r == Failed(got.error))
      && (got == Ok(None) ==> r.Properties? && r.totalSp == JNull)
      && (got.Ok? && got.value.Some? ==>
            var sp := got.value.value.storyPoints;
            && (!Truthy(sp) ==> r.Properties? && r.totalSp == sp)
            && (Truthy(sp) && sp.JStr? ==> r.Properties? && r.totalSp == JStr(StripQuotes(sp.s)))
            && (Truthy(sp) && !sp.JStr? ==> r == Failed(AttributeError)))
  {
    FinishUnfold(f, issueKeyOf, fetch);
    LookedUpDecoded(JNull, f.jiraLink.value, issueKeyOf, fetch);
  }

  /** Story points whose printed form holds a '.', such as a float 3.0,
      reach `adjust_file` as the text before the '.', so the quote removal
      does not fail on them. */
  lemma FractionalPointsAreText(f: Fields, issueKeyOf: string -> Option<string>,
                                fetch: string -> Option<Json>,
                                key: Json, summary: Json, status: Json, raw: Json, description: string)
    requires f.jiraLink.Some? && f.jiraLink.value != "" && f.totalSp.None?
    requires issueKeyOf(f.jiraLink.value).Some? && issueKeyOf(f.jiraLink.value).value != ""
    requires JiraInterface.DecodeIssue(fetch(issueKeyOf(f.jiraLink.value).value))
      == Ok(Some(JiraInterface.NewJiraIssue(key, summary, status, raw, description)))
    requires '.' in Render(raw)
    ensures Finish(f, issueKeyOf, fetch).Properties?
    ensures Finish(f, issueKeyOf, fetch).totalSp.JStr?
    ensures raw == JNum("3.0") ==> Finish(f, issueKeyOf, fetch).totalSp == JStr("3")
  {
    var issue := JiraInterface.NewJiraIssue(key, summary, status, raw, description);
    FinishFoundIssue(f, issueKeyOf, fetch, issue);
    var spDone := if f.spDone != "" then StripQuotes(f.spDone) else f.spDone;
    ReportOfText(issue.storyPoints.s, spDone, f.jiraLink.value);
    if raw == JNum("3.0") {
      JiraInterface.FloatPointsCut();
    }
  }

  /** With no total stated and an issue found, the report is that of its
      story points. */
  lemma FinishFoundIssue(f: Fields, issueKeyOf: string -> Option<string>,
                         fetch: string -> Option<Json>, issue: JiraInterface.JiraIssue)
    requires f.jiraLink.Some? && f.jiraLink.value != "" && f.totalSp.None?
    requires issueKeyOf(f.jiraLink.value).Some? && issueKeyOf(f.jiraLink.value).value != ""
    requires JiraInterface.DecodeIssue(fetch(issueKeyOf(f.jiraLink.value).value)) == Ok(Some(issue))
    ensures Finish(f, issueKeyOf, fetch) ==
      Report(Ok(issue.storyPoints), if f.spDone != "" then StripQuotes(f.spDone) else f.spDone, f.jiraLink.value)
  {
    FinishUnfold(f, issueKeyOf, fetch);
    LookedUpDecoded(JNull, f.jiraLink.value, issueKeyOf, fetch);
  }

  /** A text total is always reported; "3" is reported as it is. */
  lemma ReportOfText(c: string, spDone: string, link: string)
    ensures Report(Ok(JStr(c)), spDone, link).Properties?
    ensures Report(Ok(JStr(c)), spDone, link).totalSp.JStr?
    ensures c == "3" ==> Report(Ok(JStr(c)), spDone, link).totalSp == JStr("3")
  {
    if c == "3" {
      assert c[0] == '3' && !IsQuote(c[0]);
      StripQuotesUnquoted(c);
    }
  }

  /** A missing Total-SP is taken from the issue the link names: decoding
      the tracker's answer may raise, and story points that are neither
      falsy nor text make the quote removal raise. */
  lemma MissingTotalIsLookedUp(path: string, raw: string, lines: seq<string>,
                               issueKeyOf: string -> Option<string>,
                               fetch: string -> Option<Json>)
    requires FrontLines(raw) == Some(lines)
    requires LastValue(lines, JiraLinkKey).Some? && LastValue(lines, JiraLinkKey).value != ""
    requires NonEmpty(LastValue(lines, TotalSpKey)).None?
    requires var link := LastValue(lines, JiraLinkKey).value;
      issueKeyOf(link).Some? && issueKeyOf(link).value != ""
    ensures var link := LastValue(lines, JiraLinkKey).value;
      var got := JiraInterface.DecodeIssue(fetch(issueKeyOf(link).value));
      var r := AdjustFile(path, Document(raw), issueKeyOf, fetch);
      && (got.Err? ==> r == Failed(got.error))
      && (got == Ok(None) ==> r.Properties? && r.totalSp == JNull)
      && (got.Ok? && got.value.Some? ==>
            var sp := got.value.value.storyPoints;
            && (!Truthy(sp) ==> r.Properties? && r.totalSp == sp)
            && (Truthy(sp) && sp.JStr? ==> r.Properties? && r.totalSp == JStr(StripQuotes(sp.s)))
            && (Truthy(sp) && !sp.JStr? ==> r == Failed(AttributeError)))
  {
    AdjustDocument(path, raw, lines, issueKeyOf, fetch);
    ScanFindsLast(lines);
    FinishLooksUp(Scan(lines, NoFields), issueKeyOf, fetch);
  }

  /** Content whose fifth character is neither white space nor a newline
      can only open with the bare `---` line. */
  lemma OnlyBareOpening(c: string)
    requires StartsWith(c, "---\n") && |c| > 4 && !IsSpace(c[4])
    ensures forall k: nat | 0 < k :: !Opens(c, k)
  {
    forall k: nat | 0 < k ensures !Opens(c, k) {
      if 3 + k < |c| && k == 1 {
        assert c[4] != '\n';
      }
    }
  }

  /** A single line between a bare opening and a closing fence is what the
      group captures. */
  lemma FencedGroup(c: string, g: string)
    requires StartsWith(c, "---\n") && EndsWith(c, Fence) && |c| == |g| + 8
    requires c[4..|c| - 4] == g && '\n' !in g
    ensures GroupAt(c, 0, g) && Matches(c, 0)
  {
    forall j | 4 <= j < 4 + |g| ensures !OccursAt(c, Fence, j) {
      assert c[j] == g[j - 4];
      if j + 4 <= |c| {
        assert c[j..j + 4][0] == c[j];
      }
    }
    assert OccursAt(c, Fence, 4 + |g|) by {
      assert c[4 + |g|..] == c[|c| - 4..];
    }
  }

  /** The front matter of a note the engine creates without a template is
      its `link:` line. */
  lemma HeaderFrontMatter(url: string)
    requires '\n' !in url && '\r' !in url
    ensures FrontLines(GetHeaderWithLink(url)) == Some(["link: " + url])
  {
    var c := GetHeaderWithLink(url);
    var g := "link: " + url;
    assert '\n' !in g && '\r' !in c;
    TranslateKeepsPlain(c);
    assert c[4] == g[0];
    OnlyBareOpening(c);
    FencedGroup(c, g);
    assert Opening(c) == Some(0);
    GroupUnique(c, 0, FrontMatter(c).value, g);
    SplitOnAbsent(g, '\n');
  }

  /** The lazy group after a given opening is unique. */
  lemma GroupUnique(c: string, L: nat, g: string, h: string)
    requires GroupAt(c, L, g) && GroupAt(c, L, h)
    ensures g == h
  {
    if |g| == |h| {
      assert g == c[4 + L..4 + L + |g|] == h;
    }
  }

  /** The `link:` line sets none of the fields. */
  lemma LinkLineIgnored(url: string)
    ensures ScanLine(NoFields, "link: " + url) == NoFields
  {
    var line := "link: " + url;
    StripKeepsFirst(line);
    NotKeyLine(line, TotalSpKey);
    NotKeyLine(line, SpDoneKey);
    NotKeyLine(line, JiraLinkKey);
  }

  lemma ScanSingle(line: string, f: Fields)
    ensures Scan([line], f) == ScanLine(f, line)
  {
    assert [line][1..] == [];
  }

  lemma NoFieldsNoStory(issueKeyOf: string -> Option<string>, fetch: string -> Option<Json>)
    ensures Finish(NoFields, issueKeyOf, fetch) == Message(NotJiraStory)
  {
  }

  /** A note the engine created without a template is not a jira story. */
  lemma PlainNoteIsNoStory(path: string, url: string, issueKeyOf: string -> Option<string>,
                           fetch: string -> Option<Json>)
    requires '\n' !in url && '\r' !in url
    ensures AdjustFile(path, Document(GetHeaderWithLink(url)), issueKeyOf, fetch) == Message(NotJiraStory)
  {
    var line := "link: " + url;
    HeaderFrontMatter(url);
    AdjustDocument(path, GetHeaderWithLink(url), [line], issueKeyOf, fetch);
    ScanSingle(line, NoFields);
    LinkLineIgnored(url);
    NoFieldsNoStory(issueKeyOf, fetch);
  }
}

=== FILE: IndexStore.dfy ===
/** The page index: a text file with one record per line, each record the
    page address and the note path separated by a rare delimiter character.
    Loading it keeps the last record of each address; saving writes one
    record per entry in insertion order. */
module IndexStore {
  import opened Wrappers
  import opened Strings
  import Utilities

  const Delimiter: string := [Utilities.DelimiterChar]

  /** The loaded index: addresses and note paths, in the insertion order of
      the dictionary the tool keeps them in. */
  type Index = seq<(string, string)>

  predicate DistinctKeys(idx: Index) {
    forall i, j :: 0 <= i < j < |idx| ==> idx[i].0 != idx[j].0
  }

  predicate HasKey(idx: Index, k: string) {
    exists i | 0 <= i < |idx| :: idx[i].0 == k
  }

  /** The position of key `k`. */
  function KeyIndex(idx: Index, k: string): (i: nat)
    requires HasKey(idx, k)
    ensures i < |idx| && idx[i].0 == k
    ensures forall j :: 0 <= j < i ==> idx[j].0 != k
  {
    if idx[0].0 == k then 0
    else
      assert HasKey(idx[1..], k) by {
        var i :| 0 <= i < |idx| && idx[i].0 == k;
        assert idx[1..][i - 1] == idx[i];
      }
      1 + KeyIndex(idx[1..], k)
  }

  /** `index[k]`, or `None` when `k not in index`. */
  function Get(idx: Index, k: string): (r: Option<string>)
    ensures r.Some? <==> HasKey(idx, k)
    ensures r.Some? ==> (k, r.value) in idx
    ensures DistinctKeys(idx) ==> forall i | 0 <= i < |idx| && idx[i].0 == k :: r == Some(idx[i].1)
  {
    if HasKey(idx, k) then Some(idx[KeyIndex(idx, k)].1) else None
  }

  /** `index[k] = v`: an existing key keeps its place and takes the new
      value, a new key goes at the end. */
  function Put(idx: Index, k: string, v: string): (r: Index)
    ensures forall e | e in r :: e == (k, v) || e in idx
    ensures DistinctKeys(idx) ==> DistinctKeys(r)
    ensures HasKey(idx, k) ==> |r| == |idx| && forall i | 0 <= i < |idx| :: r[i].0 == idx[i].0
    ensures HasKey(idx, k) ==> forall i | 0 <= i < |idx| && idx[i].0 != k :: r[i] == idx[i]
    ensures !HasKey(idx, k) ==> r == idx + [(k, v)]
  {
    if HasKey(idx, k) then idx[KeyIndex(idx, k) := (k, v)] else idx + [(k, v)]
  }

  /** Reading back after `index[k] = v` gives `v` at `k` and what was there
      before everywhere else. */
  lemma GetPut(idx: Index, k: string, v: string, k': string)
    ensures Get(Put(idx, k, v), k') == if k' == k then Some(v) else Get(idx, k')
  {
    var r := Put(idx, k, v);
    if HasKey(idx, k) {
      var i := KeyIndex(idx, k);
      assert r[i] == (k, v);
      if k' == k {
        assert HasKey(r, k);
        assert KeyIndex(r, k) == i;
      } else {
        assert HasKey(r, k') <==> HasKey(idx, k') by {
          assert forall j | 0 <= j < |idx| :: r[j].0 == idx[j].0;
        }
        if HasKey(idx, k') {
          var j := KeyIndex(idx, k');
          var m := KeyIndex(r, k');
          assert r[j] == idx[j];
          assert r[m].0 == idx[m].0;
        }
      }
    } else {
      assert r[|idx|] == (k, v);
      if k' == k {
        assert HasKey(r, k);
        assert KeyIndex(r, k) == |idx|;
      } else {
        assert HasKey(r, k') <==> HasKey(idx, k') by {
          assert forall j | 0 <= j < |idx| :: r[j] == idx[j];
        }
        if HasKey(idx, k') {
          var j := KeyIndex(idx, k');
          var m := KeyIndex(r, k');
          assert r[j] == idx[j];
          assert m < |idx| ==> r[m] == idx[m];
        }
      }
    }
  }

  /** Setting a key to the value it already has changes nothing. */
  lemma PutSame(idx: Index, k: string, v: string)
    requires DistinctKeys(idx) && Get(idx, k) == Some(v)
    ensures Put(idx, k, v) == idx
  {
    var i := KeyIndex(idx, k);
    assert idx[i] == (k, v);
  }

  /** Putting a clean entry into a clean index gives a clean index. */
  lemma PutClean(idx: Index, k: string, v: string)
    requires IsClean(idx) && CleanKey(k) && CleanValue(v)
    ensures IsClean(Put(idx, k, v))
  {
    var r := Put(idx, k, v);
    forall i | 0 <= i < |r| ensures CleanKey(r[i].0) && CleanValue(r[i].1) {
      assert r[i] in r;
      if r[i] != (k, v) {
        var j :| 0 <= j < |idx| && idx[j] == r[i];
      }
    }
  }

  /** Reading a file in text mode: "\r\n" and a lone "\r" become "\n". */
  function TranslateNewlines(s: string): string {
    if s == [] then []
    else if s[0] == '\r' then
      "\n" + TranslateNewlines(if |s| > 1 && s[1] == '\n' then s[2..] else s[1..])
    else [s[0]] + TranslateNewlines(s[1..])
  }

  /** No "\r" survives the translation. */
  lemma {:induction false} TranslateRemovesCr(s: string)
    ensures '\r' !in TranslateNewlines(s)
    decreases |s|
  {
    if s != [] {
      var k := if s[0] == '\r' && |s| > 1 && s[1] == '\n' then 2 else 1;
      TranslateUnfold(s, k, if s[0] == '\r' then "\n" else [s[0]]);
      TranslateRemovesCr(s[k..]);
    }
  }

  /** A text without "\r" is left as it is. */
  lemma {:induction false} TranslateKeepsPlain(s: string)
    requires '\r' !in s
    ensures TranslateNewlines(s) == s
    decreases |s|
  {
    if s != [] {
      assert s[0] != '\r' && '\r' !in s[1..];
      TranslateKeepsPlain(s[1..]);
    }
  }

  /** Translation works piecewise when the cut does not split a "\r\n". */
  lemma {:induction false} TranslateConcat(a: string, b: string)
    requires a == [] || a[|a| - 1] != '\r'
    ensures TranslateNewlines(a + b) == TranslateNewlines(a) + TranslateNewlines(b)
    decreases |a|
  {
    if a == [] {
      assert a + b == b;
    } else {
      var k := if a[0] == '\r' && a[1] == '\n' then 2 else 1;
      TranslateConcat(a[k..], b);
      TranslateConcatStep(a, b, k, if a[0] == '\r' then "\n" else [a[0]]);
    }
  }

  lemma TranslateConcatStep(a: string, b: string, k: nat, h: string)
    requires |a| > 0 && (|a| > 1 || a[0] != '\r')
    requires k == if a[0] == '\r' && a[1] == '\n' then 2 else 1
    requires h == if a[0] == '\r' then "\n" else [a[0]]
    requires TranslateNewlines(a[k..] + b) == TranslateNewlines(a[k..]) + TranslateNewlines(b)
    ensures TranslateNewlines(a + b) == TranslateNewlines(a) + TranslateNewlines(b)
  {
    TranslateUnfold(a, k, h);
    assert (a + b)[0] == a[0] && (a[0] == '\r' ==> (a + b)[1] == a[1]);
    TranslateUnfold(a + b, k, h);
    var rest := (a + b)[k..];
    assert rest == a[k..] + b;
    ConcatAssoc(h, TranslateNewlines(a[k..]), TranslateNewlines(b));
  }

  /** One step of the translation: the first character, or the first
      "\r\n", gives `h`. */
  lemma TranslateUnfold(s: string, k: nat, h: string)
    requires |s| > 0
    requires k == if s[0] == '\r' && |s| > 1 && s[1] == '\n' then 2 else 1
    requires h == if s[0] == '\r' then "\n" else [s[0]]
    ensures TranslateNewlines(s) == h + TranslateNewlines(s[k..])
  {
  }

  /** "\r\n" becomes one "\n". */
  lemma TranslateCrLf(a: string, b: string)
    requires a == [] || a[|a| - 1] != '\r'
    ensures TranslateNewlines(a + "\r\n" + b) == TranslateNewlines(a) + "\n" + TranslateNewlines(b)
  {
    var t := "\r\n" + b;
    assert |t| > 1 && t[0] == '\r' && t[1] == '\n' && t[2..] == b;
    TranslateAtCr(t, b, "\n");
    TranslateJoin(a, t, b, "\n");
    assert a + "\r\n" + b == a + t;
  }

  /** A lone "\r" becomes one "\n". */
  lemma TranslateLoneCr(a: string, b: string)
    requires a == [] || a[|a| - 1] != '\r'
    requires b == [] || b[0] != '\n'
    ensures TranslateNewlines(a + "\r" + b) == TranslateNewlines(a) + "\n" + TranslateNewlines(b)
  {
    var t := "\r" + b;
    assert |t| > 0 && t[0] == '\r' && t[1..] == b;
    TranslateAtCr(t, b, "\n");
    TranslateJoin(a, t, b, "\n");
    assert a + "\r" + b == a + t;
  }

  lemma TranslateAtCr(t: string, b: string, nl: string)
    requires nl == "\n" && |t| > 0 && t[0] == '\r'
    requires b == (if |t| > 1 && t[1] == '\n' then t[2..] else t[1..])
    ensures TranslateNewlines(t) == nl + TranslateNewlines(b)
  {
  }

  lemma TranslateJoin(a: string, t: string, b: string, u: string)
    requires a == [] || a[|a| - 1] != '\r'
    requires TranslateNewlines(t) == u + TranslateNewlines(b)
    ensures TranslateNewlines(a + t) == TranslateNewlines(a) + u + TranslateNewlines(b)
  {
    TranslateConcat(a, t);
  }

  /** One line as `readlines()` returns it: a newline, if any, only at the
      end. */
  predicate IsLine(l: string) {
    |l| > 0 && forall i :: 0 <= i < |l| - 1 ==> l[i] != '\n'
  }

  /** The length of the first line of `s`, its newline included. */
  function FirstLineLength(s: string): (n: nat)
    requires |s| > 0
    ensures 0 < n <= |s|
    ensures forall i :: 0 <= i < n - 1 ==> s[i] != '\n'
    ensures n == |s| || s[n - 1] == '\n'
  {
    if s[0] == '\n' || |s| == 1 then 1 else 1 + FirstLineLength(s[1..])
  }

  /** `readlines()`: `s` cut after every newline. */
  function ReadLines(s: string): (r: seq<string>)
    ensures Concat(r) == s
    ensures forall i | 0 <= i < |r| :: IsLine(r[i])
    ensures forall i | 0 <= i < |r| - 1 :: |r[i]| > 0 && r[i][|r[i]| - 1] == '\n'
    ensures forall i, c | 0 <= i < |r| && c in r[i] :: c in s
    decreases |s|
  {
    if s == [] then []
    else
      var n := FirstLineLength(s);
      var rest := ReadLines(s[n..]);
      LinesCons(s, n, rest);
      [s[..n]] + rest
  }

  /** The first line in front of the lines of the rest are the lines of
      `s`. */
  lemma LinesCons(s: string, n: nat, rest: seq<string>)
    requires 0 < n <= |s|
    requires forall i :: 0 <= i < n - 1 ==> s[i] != '\n'
    requires n == |s| || s[n - 1] == '\n'
    requires Concat(rest) == s[n..]
    requires forall i | 0 <= i < |rest| :: IsLine(rest[i])
    requires forall i | 0 <= i < |rest| - 1 :: |rest[i]| > 0 && rest[i][|rest[i]| - 1] == '\n'
    requires forall i, c | 0 <= i < |rest| && c in rest[i] :: c in s[n..]
    requires n == |s| ==> rest == []
    ensures var r := [s[..n]] + rest;
      && Concat(r) == s
      && (forall i | 0 <= i < |r| :: IsLine(r[i]))
      && (forall i | 0 <= i < |r| - 1 :: |r[i]| > 0 && r[i][|r[i]| - 1] == '\n')
      && (forall i, c | 0 <= i < |r| && c in r[i] :: c in s)
  {
    var r := [s[..n]] + rest;
    ConcatCons(s[..n], rest);
    assert s[..n] + s[n..] == s;
    forall i | 0 <= i < |r| ensures IsLine(r[i]) {
      if i > 0 {
        assert r[i] == rest[i - 1];
      }
    }
    forall i | 0 <= i < |r| - 1 ensures |r[i]| > 0 && r[i][|r[i]| - 1] == '\n' {
      if i > 0 {
        assert r[i] == rest[i - 1];
      }
    }
    forall i, c | 0 <= i < |r| && c in r[i] ensures c in s {
      if i > 0 {
        assert r[i] == rest[i - 1];
        assert c in s[n..];
      } else {
        assert c in s[..n];
      }
    }
  }

  /** A complete first line comes off by itself. */
  lemma ReadLinesCons(line: string, rest: string)
    requires IsLine(line) && line[|line| - 1] == '\n'
    ensures ReadLines(line + rest) == [line] + ReadLines(rest)
  {
    var s := line + rest;
    assert FirstLineLength(s) == |line| by {
      var n := FirstLineLength(s);
      if n < |line| {
        assert s[n - 1] == line[n - 1];
      }
    }
    assert s[..|line|] == line && s[|line|..] == rest;
  }

  /** The address of a line: the text before its first '?' of the text
      before the delimiter. */
  predicate CleanKey(k: string) {
    '?' !in k && Utilities.DelimiterChar !in k && '\n' !in k && '\r' !in k
  }

  /** A note path that survives a save and reload unchanged. */
  predicate CleanValue(v: string) {
    && Utilities.DelimiterChar !in v && '\n' !in v && '\r' !in v
    && RStrip(v) == v && v != "None" && !EndsWith(v, ".md.md")
  }

  predicate IsClean(idx: Index) {
    forall i | 0 <= i < |idx| :: CleanKey(idx[i].0) && CleanValue(idx[i].1)
  }

  /** The second delimiter-separated field of a line, right-stripped. */
  function Title(line: string): string
    requires Contains(line, Delimiter)
  {
    RStrip(BeforeFirst(AfterFirst(line, Delimiter), Delimiter))
  }

  /** A title that doubled its extension is cut after its first ".md". */
  function FixExtension(title: string): (r: string)
    ensures StartsWith(title, r)
    ensures r == title <==> !EndsWith(title, ".md.md")
    ensures r != title ==> EndsWith(r, ".md") && !EndsWith(r, ".md.md")
  {
    if EndsWith(title, ".md.md") then
      var b := BeforeFirst(title, ".md");
      FirstExtensionCut(title, b);
      b + ".md"
    else title
  }

  lemma FirstExtensionCut(title: string, b: string)
    requires EndsWith(title, ".md.md") && b == BeforeFirst(title, ".md")
    ensures StartsWith(title, b + ".md") && |b| + 3 < |title|
    ensures !EndsWith(b + ".md", ".md.md")
  {
    assert OccursAt(title, ".md", |title| - 3);
    assert OccursAt(title, ".md", |title| - 6);
    assert title[|b|..|b| + 3] == ".md";
    var r := b + ".md";
    if |b| >= 3 {
      assert !OccursAt(title, ".md", |b| - 3);
      assert r[|r| - 6..][..3] == r[|b| - 3..|b|] == title[|b| - 3..|b|] != ".md";
    }
  }

  /** One iteration of `parse_index`: the (address, path) pair a line
      contributes, or `None` when it has no delimiter or its path is
      "None". */
  function ParseLine(line: string): (r: Option<(string, string)>)
    ensures r.None? <==> !Contains(line, Delimiter) || Title(line) == "None"
    ensures r.Some? ==> StartsWith(line, r.value.0) && '?' !in r.value.0
    ensures r.Some? ==> StartsWith(Title(line), r.value.1)
    ensures r.Some? ==> (r.value.1 == Title(line) <==> !EndsWith(Title(line), ".md.md"))
  {
    if !Contains(line, Delimiter) then None
    else
      var link := BeforeFirst(BeforeFirst(line, Delimiter), "?");
      var title := Title(line);
      if title == "None" then None
      else
        NoCharBeforeFirst(BeforeFirst(line, Delimiter), '?');
        Some((link, FixExtension(title)))
  }

  lemma NoCharBeforeFirst(s: string, c: char)
    ensures c !in BeforeFirst(s, [c])
  {
    var b := BeforeFirst(s, [c]);
    forall j | 0 <= j < |b| ensures b[j] != c {
      OccursAtChar(s, c, j);
    }
  }

  /** The address of a line holds none of the characters a record
      separates on. */
  lemma KeyClean(line: string)
    requires IsLine(line) && '\r' !in line && Contains(line, Delimiter)
    ensures CleanKey(BeforeFirst(BeforeFirst(line, Delimiter), "?"))
  {
    var f0 := BeforeFirst(line, Delimiter);
    var key := BeforeFirst(f0, "?");
    NoCharBeforeFirst(line, Utilities.DelimiterChar);
    NoCharBeforeFirst(f0, '?');
    PrefixChars(f0, key);
    PrefixChars(line, f0);
    assert '\n' !in f0 by {
      assert OccursAt(line, Delimiter, |f0|);
      forall j | 0 <= j < |f0| ensures f0[j] != '\n' {
        assert line[j] == f0[j];
      }
    }
  }

  /** A field inside a line that is right-stripped holds no newline: the
      only newline a line can hold is its last character, which `rstrip`
      drops. */
  lemma StrippedFieldNoNewline(line: string, pre: string, rest: string, f: string)
    requires IsLine(line) && line == pre + rest && StartsWith(rest, f)
    ensures '\n' !in RStrip(f)
  {
    var t := RStrip(f);
    forall j | 0 <= j < |t| ensures t[j] != '\n' {
      assert line[|pre| + j] == t[j];
      if |pre| + j == |line| - 1 {
        assert j == |t| - 1;
      }
    }
  }

  /** The second field of a line holds none of the characters a record
      separates on. */
  lemma TitleClean(line: string)
    requires IsLine(line) && '\r' !in line && Contains(line, Delimiter)
    ensures Utilities.DelimiterChar !in Title(line)
    ensures '\n' !in Title(line) && '\r' !in Title(line)
    ensures RStrip(Title(line)) == Title(line)
  {
    var f0 := BeforeFirst(line, Delimiter);
    var rest := AfterFirst(line, Delimiter);
    var f1 := BeforeFirst(rest, Delimiter);
    NoCharBeforeFirst(rest, Utilities.DelimiterChar);
    PrefixChars(f1, RStrip(f1));
    PrefixChars(rest, f1);
    RStripIdempotent(f1);
    StrippedFieldNoNewline(line, f0 + Delimiter, rest, f1);
    assert forall c | c in rest :: c in line by {
      assert line == f0 + Delimiter + rest;
    }
  }

  /** Every line of a loaded file yields a clean entry. */
  lemma ParseLineClean(line: string)
    requires IsLine(line) && '\r' !in line
    requires ParseLine(line).Some?
    ensures CleanKey(ParseLine(line).value.0) && CleanValue(ParseLine(line).value.1)
  {
    KeyClean(line);
    TitleClean(line);
    var title := Title(line);
    var v := FixExtension(title);
    PrefixChars(title, v);
    if v != title {
      assert v[|v| - 1] == 'd';
      assert v != "None" by { assert "None"[3] == 'e'; }
    }
  }

  /** The text of one saved entry. */
  function Record(k: string, v: string): string {
    k + Delimiter + v + "\n"
  }

  /** `write_index`: the records of all entries, in order. */
  function WriteIndex(idx: Index): string {
    if idx == [] then "" else Record(idx[0].0, idx[0].1) + WriteIndex(idx[1..])
  }

  lemma RecordIsLine(k: string, v: string)
    requires CleanKey(k) && CleanValue(v)
    ensures IsLine(Record(k, v)) && Record(k, v)[|Record(k, v)| - 1] == '\n'
  {
    var line := Record(k, v);
    forall i | 0 <= i < |line| - 1 ensures line[i] != '\n' {
      if i < |k| {
        assert line[i] == k[i];
      } else if i > |k| {
        assert line[i] == v[i - |k| - 1];
      }
    }
  }

  /** The fields of a clean record are its address and its note path. */
  lemma RecordFields(k: string, v: string)
    requires CleanKey(k) && CleanValue(v)
    ensures Contains(Record(k, v), Delimiter)
    ensures BeforeFirst(BeforeFirst(Record(k, v), Delimiter), "?") == k
    ensures Title(Record(k, v)) == v
  {
    var line := Record(k, v);
    assert line == k + [Utilities.DelimiterChar] + (v + "\n");
    SplitAtChar(k, Utilities.DelimiterChar, v + "\n");
    NotContainsChar(k, '?');
    NotContainsChar(v + "\n", Utilities.DelimiterChar);
    RStripSpaceSuffix(v, '\n');
  }

  /** The record of a clean entry parses back to that entry. */
  lemma ParseRecord(k: string, v: string)
    requires CleanKey(k) && CleanValue(v)
    ensures IsLine(Record(k, v))
    ensures ParseLine(Record(k, v)) == Some((k, v))
  {
    RecordIsLine(k, v);
    RecordFields(k, v);
  }

  /** `result_dict[link] = title` for each parseable line, in order. */
  function Step(acc: Index, line: string): Index {
    match ParseLine(line)
    case None => acc
    case Some((k, v)) => Put(acc, k, v)
  }

  lemma StepClean(acc: Index, line: string)
    ensures (IsClean(acc) && IsLine(line) && '\r' !in line) ==> IsClean(Step(acc, line))
  {
    if IsClean(acc) && IsLine(line) && '\r' !in line && ParseLine(line).Some? {
      ParseLineClean(line);
      var r := Step(acc, line);
      assert forall i | 0 <= i < |r| :: r[i] in r;
    }
  }

  /** The loop of `parse_index`, starting from the entries in `acc`. */
  function ParseLines(lines: seq<string>, acc: Index): (r: Index)
    ensures DistinctKeys(acc) ==> DistinctKeys(r)
    ensures (IsClean(acc) && forall l | l in lines :: IsLine(l) && '\r' !in l) ==> IsClean(r)
  {
    if lines == [] then acc
    else
      StepClean(acc, lines[0]);
      assert forall l | l in lines[1..] :: l in lines;
      ParseLines(lines[1..], Step(acc, lines[0]))
  }

  /** `parse_index`: loading the index file. */
  function ParseIndex(text: string): (r: Index)
    ensures DistinctKeys(r)
    ensures IsClean(r)
  {
    TranslateRemovesCr(text);
    var lines := ReadLines(TranslateNewlines(text));
    ParseLines(lines, [])
  }

  /** Puts the entries of `idx` into `acc`, in order. */
  function PutAll(acc: Index, idx: Index): Index
    decreases |idx|
  {
    if idx == [] then acc else PutAll(Put(acc, idx[0].0, idx[0].1), idx[1..])
  }

  /** Loading saved records replays their entries in order, so a later
      record of an address overrides an earlier one. */
  lemma {:induction false} ParseWritten(idx: Index, acc: Index)
    requires IsClean(idx)
    ensures ParseLines(ReadLines(WriteIndex(idx)), acc) == PutAll(acc, idx)
    decreases |idx|
  {
    if idx != [] {
      var (k, v) := idx[0];
      ParseRecord(k, v);
      ReadLinesCons(Record(k, v), WriteIndex(idx[1..]));
      var lines := ReadLines(WriteIndex(idx));
      assert lines[1..] == ReadLines(WriteIndex(idx[1..]));
      ParseWritten(idx[1..], Put(acc, k, v));
    }
  }

  /** Putting new distinct keys appends them. */
  lemma {:induction false} PutAllFresh(acc: Index, idx: Index)
    requires DistinctKeys(acc + idx)
    ensures PutAll(acc, idx) == acc + idx
    decreases |idx|
  {
    if idx != [] {
      assert !HasKey(acc, idx[0].0) by {
        forall i | 0 <= i < |acc| ensures acc[i].0 != idx[0].0 {
          assert (acc + idx)[i] == acc[i] && (acc + idx)[|acc|] == idx[0];
        }
      }
      var acc' := acc + [idx[0]];
      assert acc' + idx[1..] == acc + idx;
      PutAllFresh(acc', idx[1..]);
    }
  }

  lemma {:induction false} WriteIndexNoReturn(idx: Index)
    requires IsClean(idx)
    ensures '\r' !in WriteIndex(idx)
    decreases |idx|
  {
    if idx != [] {
      WriteIndexNoReturn(idx[1..]);
    }
  }

  /** Saving a clean index and loading it again gives the same index, order
      included. */
  lemma RoundTrip(idx: Index)
    requires IsClean(idx) && DistinctKeys(idx)
    ensures ParseIndex(WriteIndex(idx)) == idx
  {
    ParseWrittenIndex(idx);
    assert [] + idx == idx;
    PutAllFresh([], idx);
  }

  /** Loading a saved clean index puts its records, in order, into an
      empty index. */
  lemma ParseWrittenIndex(idx: Index)
    requires IsClean(idx)
    ensures ParseIndex(WriteIndex(idx)) == PutAll([], idx)
  {
    WriteIndexNoReturn(idx);
    TranslateKeepsPlain(WriteIndex(idx));
    ParseWritten(idx, []);
  }

  /** Whatever a file held, what loading it gives is saved and reloaded
      without change. */
  lemma ReloadIsStable(text: string)
    ensures ParseIndex(WriteIndex(ParseIndex(text))) == ParseIndex(text)
  {
    RoundTrip(ParseIndex(text));
  }

  lemma {:induction false} WriteIndexAppend(idx: Index, k: string, v: string)
    ensures WriteIndex(idx + [(k, v)]) == WriteIndex(idx) + Record(k, v)
    decreases |idx|
  {
    if idx == [] {
      assert [(k, v)][1..] == [];
    } else {
      assert (idx + [(k, v)])[1..] == idx[1..] + [(k, v)];
      WriteIndexAppend(idx[1..], k, v);
    }
  }

  lemma {:induction false} PutAllSnoc(acc: Index, idx: Index, k: string, v: string)
    ensures PutAll(acc, idx + [(k, v)]) == Put(PutAll(acc, idx), k, v)
    decreases |idx|
  {
    if idx == [] {
      assert [(k, v)][1..] == [];
    } else {
      assert (idx + [(k, v)])[1..] == idx[1..] + [(k, v)];
      PutAllSnoc(Put(acc, idx[0].0, idx[0].1), idx[1..], k, v);
    }
  }

  /** A record appended to a saved index overrides the entry of its address
      (or adds one) and leaves the rest of the index as it was. */
  lemma LaterRecordWins(idx: Index, k: string, v: string)
    requires IsClean(idx) && DistinctKeys(idx)
    requires CleanKey(k) && CleanValue(v)
    ensures ParseIndex(WriteIndex(idx) + Record(k, v)) == Put(idx, k, v)
  {
    var both := idx + [(k, v)];
    assert IsClean(both) by {
      assert forall i | 0 <= i < |idx| :: both[i] == idx[i];
      assert both[|idx|] == (k, v);
    }
    WriteIndexAppend(idx, k, v);
    ParseWrittenIndex(both);
    PutAllSnoc([], idx, k, v);
    PutAllFresh([], idx);
    assert [] + idx == idx;
  }
}

=== FILE: JiraInterface.dfy ===
/** The pure part of the issue-tracker client: story-point normalisation,
    the issue record, decoding of a fetched issue document and extraction of
    issue keys from a search result. The HTTP requests themselves are not
    modelled: decoding starts from the value `json.loads` produced. */
module JiraInterface {
  import opened Wrappers
  import opened Strings
  import opened Json

  /** An issue as the client keeps it. */
  datatype JiraIssue = JiraIssue(key: Json, summary: Json, status: Json, storyPoints: Json, description: string)

  /** The fallback `dict.get` uses for a missing field. */
  const NotAvailable: Json := JStr("N/A")

  const DescriptionUnavailable := "Description not available in simple text format"
  const DescriptionWithoutText := "Description exists but couldn't extract plain text"
  const DescriptionError := "Error extracting description text: "

  /** `get_story_points`: a value whose printed form contains a '.' is cut to
      the text before the first '.'; any other value is kept as it is. */
  function GetStoryPoints(sp: Json): (r: Json)
    ensures '.' !in Render(r)
    ensures '.' in Render(sp) ==>
      (r.JStr? && StartsWith(Render(sp), r.s) && |r.s| < |Render(sp)| && Render(sp)[|r.s|] == '.')
    ensures '.' !in Render(sp) ==> r == sp
  {
    var text := Render(sp);
    if '.' in text then
      var cut := BeforeFirst(text, ".");
      assert '.' !in cut by {
        forall j | 0 <= j < |cut| ensures cut[j] != '.' {
          assert !OccursAt(text, ".", j);
          assert text[j..j + 1] == [cut[j]];
        }
      }
      assert cut != text by {
        var k :| 0 <= k < |text| && text[k] == '.';
        assert text[k..k + 1] == ".";
        assert OccursAt(text, ".", k);
      }
      assert text[|cut|..|cut| + 1] == ".";
      JStr(cut)
    else sp
  }

  /** Normalising twice is normalising once. */
  lemma GetStoryPointsIdempotent(sp: Json)
    ensures GetStoryPoints(GetStoryPoints(sp)) == GetStoryPoints(sp)
  {
  }

  /** The float 3.0 the tracker sends becomes the text "3". */
  lemma FloatPointsCut()
    ensures GetStoryPoints(JNum("3.0")) == JStr("3")
  {
    var text := "3.0";
    assert Render(JNum(text)) == text;
    assert text[1..2] == ".";
    assert OccursAt(text, ".", 1);
    var cut := BeforeFirst(text, ".");
    assert |cut| == 1 by {
      assert text[0] == '3' && text[2] == '0';
      assert !OccursAt(text, ".", 0) by { assert text[0..1] == [text[0]]; }
      assert !OccursAt(text, ".", 2) by { assert text[2..3] == [text[2]]; }
    }
    assert cut == text[..1] == "3";
  }

  /** `JiraIssue.__init__`: the record always holds normalised story points. */
  function NewJiraIssue(key: Json, summary: Json, status: Json, storyPoints: Json, description: string): (r: JiraIssue)
    ensures '.' !in Render(r.storyPoints)
    ensures '.' !in Render(storyPoints) ==> r.storyPoints == storyPoints
    ensures (r.key, r.summary, r.status, r.description) == (key, summary, status, description)
  {
    JiraIssue(key, summary, status, GetStoryPoints(storyPoints), description)
  }

  /** What Python's `for x in v` yields, or `None` when `v` is not iterable:
      the items of a list, the one-character strings of a string, the keys
      of a dict. */
  function Iterate(v: Json): (r: Option<seq<Json>>)
    ensures r.None? <==> (v.JNull? || v.JBool? || v.JNum?)
  {
    match v
    case JArr(items) => Some(items)
    case JStr(s) => Some(seq(|s|, i requires 0 <= i < |s| => JStr([s[i]])))
    case JObj(entries) => Some(seq(|entries|, i requires 0 <= i < |entries| => JStr(entries[i].0)))
    case _ => None
  }

  /** Python's `'text' in node`, or `None` when the test raises. */
  function HasText(node: Json): Option<bool> {
    match node
    case JObj(entries) => Some(HasKey(entries, "text"))
    case JStr(s) => Some(Contains(s, "text"))
    case JArr(items) => Some(JStr("text") in items)
    case _ => None
  }

  /** The text one inner node contributes to the join, or `None` when
      evaluating it raises. */
  function NodeText(node: Json): Option<string> {
    var has :- HasText(node);
    if !has then Some("")
    else if !node.JObj? then None
    else
      var t := GetOr(node.entries, "text", JStr(""));
      if t.JStr? then Some(t.s) else None
  }

  /** The joined texts of a sequence of inner nodes. */
  function NodesText(nodes: seq<Json>): Option<string> {
    if nodes == [] then Some("")
    else
      var head :- NodeText(nodes[0]);
      var rest :- NodesText(nodes[1..]);
      Some(head + rest)
  }

  /** The joined texts of every inner node of every outer content node. */
  function ContentsText(contents: seq<Json>): Option<string> {
    if contents == [] then Some("")
    else if !contents[0].JObj? then None
    else
      var nodes :- Iterate(GetOr(contents[0].entries, "content", JArr([])));
      var head :- NodesText(nodes);
      var rest :- ContentsText(contents[1..]);
      Some(head + rest)
  }

  /** The joined texts of the content of a description, or `None` when
      the extraction raises (the exception is caught and reported). */
  function DescriptionContentText(content: Json): Option<string> {
    var outer :- Iterate(content);
    ContentsText(outer)
  }

  /** The description text the decoder stores: the joined 'text' fields of
      the second-level content nodes, or one of three fixed messages. */
  function DescriptionText(description: Json): (r: string)
    ensures r != ""
    ensures !(description.JObj? && HasKey(description.entries, "content")) ==> r == DescriptionUnavailable
  {
    if description.JObj? && HasKey(description.entries, "content") then
      match DescriptionContentText(GetOr(description.entries, "content", JArr([])))
      case None => DescriptionError
      case Some(t) => if t == "" then DescriptionWithoutText else t
    else DescriptionUnavailable
  }

  /** The inner nodes of an outer content node, as a well-formed document
      has them. */
  function InnerNodes(c: Json): seq<Json> {
    if c.JObj? then
      match GetOr(c.entries, "content", JArr([]))
      case JArr(items) => items
      case _ => []
    else []
  }

  /** The text field of an inner node of a well-formed document. */
  function TextField(n: Json): string {
    if n.JObj? then
      match GetOr(n.entries, "text", JStr(""))
      case JStr(t) => t
      case _ => ""
    else ""
  }

  /** A node as the tracker's document format has it: a dict whose 'text',
      if present, is a string. */
  predicate IsTextNode(n: Json) {
    n.JObj? && GetOr(n.entries, "text", JStr("")).JStr?
  }

  /** An outer content node as the document format has it: a dict whose
      'content', if present, is a list of text nodes. */
  predicate IsBlock(c: Json) {
    && c.JObj?
    && GetOr(c.entries, "content", JArr([])).JArr?
    && forall n | n in InnerNodes(c) :: IsTextNode(n)
  }

  /** The joined text fields of one block of a well-formed document. */
  function BlockText(c: Json): string {
    Concat(TextFields(InnerNodes(c)))
  }

  /** The text field of each node. */
  function TextFields(nodes: seq<Json>): (r: seq<string>)
    ensures |r| == |nodes|
    ensures forall j :: 0 <= j < |nodes| ==> r[j] == TextField(nodes[j])
  {
    seq(|nodes|, j requires 0 <= j < |nodes| => TextField(nodes[j]))
  }

  /** The description text of a well-formed document, defined directly as the
      concatenation over blocks and nodes. */
  function DocumentText(blocks: seq<Json>): string {
    Concat(BlockTexts(blocks))
  }

  /** The joined text of each block. */
  function BlockTexts(blocks: seq<Json>): (r: seq<string>)
    ensures |r| == |blocks|
    ensures forall i :: 0 <= i < |blocks| ==> r[i] == BlockText(blocks[i])
  {
    seq(|blocks|, i requires 0 <= i < |blocks| => BlockText(blocks[i]))
  }

  lemma {:induction false} NodesTextOfTextNodes(nodes: seq<Json>)
    requires forall n | n in nodes :: IsTextNode(n)
    ensures NodesText(nodes) == Some(Concat(TextFields(nodes)))
    decreases |nodes|
  {
    if nodes != [] {
      NodesTextOfTextNodes(nodes[1..]);
      assert nodes[0] in nodes;
      TextNodeText(nodes[0]);
      TextFieldsCons(nodes);
      ConcatCons(TextField(nodes[0]), TextFields(nodes[1..]));
    }
  }

  /** A text node contributes its text field. */
  lemma TextNodeText(n: Json)
    requires IsTextNode(n)
    ensures NodeText(n) == Some(TextField(n))
  {
    assert HasText(n) == Some(HasKey(n.entries, "text"));
  }

  lemma TextFieldsCons(nodes: seq<Json>)
    requires nodes != []
    ensures TextFields(nodes) == [TextField(nodes[0])] + TextFields(nodes[1..])
  {
  }

  /** On a well-formed document the extraction never raises and yields the
      concatenation of the text fields, block by block, node by node. */
  lemma BlockTextOfBlock(c: Json)
    requires IsBlock(c)
    ensures c.JObj?
    ensures Iterate(GetOr(c.entries, "content", JArr([]))) == Some(InnerNodes(c))
    ensures NodesText(InnerNodes(c)) == Some(BlockText(c))
  {
    NodesTextOfTextNodes(InnerNodes(c));
  }

  lemma {:induction false} ContentsTextOfBlocks(blocks: seq<Json>)
    requires forall c | c in blocks :: IsBlock(c)
    ensures ContentsText(blocks) == Some(DocumentText(blocks))
    decreases |blocks|
  {
    if blocks != [] {
      assert blocks[0] in blocks;
      ContentsTextOfBlocks(blocks[1..]);
      ContentsTextCons(blocks, DocumentText(blocks[1..]));
      DocumentTextCons(blocks);
    }
  }

  /** One well-formed block in front of contents that extract to `rest`. */
  lemma ContentsTextCons(blocks: seq<Json>, rest: string)
    requires blocks != [] && IsBlock(blocks[0]) && ContentsText(blocks[1..]) == Some(rest)
    ensures ContentsText(blocks) == Some(BlockText(blocks[0]) + rest)
  {
    BlockTextOfBlock(blocks[0]);
  }

  lemma DocumentTextCons(blocks: seq<Json>)
    requires blocks != []
    ensures DocumentText(blocks) == BlockText(blocks[0]) + DocumentText(blocks[1..])
  {
    assert BlockTexts(blocks) == [BlockText(blocks[0])] + BlockTexts(blocks[1..]);
    ConcatCons(BlockText(blocks[0]), BlockTexts(blocks[1..]));
  }

  /** For a description whose content is a list of well-formed blocks the
      stored text is their joined text, or the fixed message when that is
      empty. */
  lemma DescriptionOfDocument(description: Json, blocks: seq<Json>)
    requires description.JObj? && Get(description.entries, "content") == Some(JArr(blocks))
    requires forall c | c in blocks :: IsBlock(c)
    ensures DescriptionText(description) ==
      (if DocumentText(blocks) == "" then DescriptionWithoutText else DocumentText(blocks))
  {
    ContentsTextOfBlocks(blocks);
  }

  /** Lines 48-86 of `get_jira_issue`: the decoding of a fetched issue
      document. `data` is what `json.loads` produced, `None` when the body is
      not JSON. A missing key, summary, status name or story-point field (or
      one whose value is literally "N/A") yields no issue; a document or
      'fields' or 'status' value that is not a dict raises. */
  function DecodeIssue(data: Option<Json>): (r: Result<Option<JiraIssue>, Raised>)
    ensures data.None? ==> r == Ok(None)
    ensures r.Err? ==> r.error == AttributeError
    ensures r.Ok? && r.value.Some? ==>
      && data.Some? && data.value.JObj?
      && Get(data.value.entries, "key") == Some(r.value.value.key)
      && r.value.value.key != NotAvailable
      && r.value.value.summary != NotAvailable
      && r.value.value.status != NotAvailable
      && '.' !in Render(r.value.value.storyPoints)
    ensures data.Some? && !data.value.JObj? ==> r == Err(AttributeError)
    ensures (&& data.Some? && data.value.JObj? && GetOr(data.value.entries, "fields", JObj([])).JObj?
             && GetOr(GetOr(data.value.entries, "fields", JObj([])).entries, "status", JObj([])).JObj?) ==>
      var fields := GetOr(data.value.entries, "fields", JObj([])).entries;
      var key := GetOr(data.value.entries, "key", NotAvailable);
      var summary := GetOr(fields, "summary", NotAvailable);
      var status := GetOr(GetOr(fields, "status", JObj([])).entries, "name", NotAvailable);
      var storyPoints := GetOr(fields, "customfield_10013", NotAvailable);
      && (r == Ok(None) <==>
            key == NotAvailable || summary == NotAvailable || status == NotAvailable || storyPoints == NotAvailable)
      && (r != Ok(None) ==>
            r == Ok(Some(NewJiraIssue(key, summary, status, storyPoints,
                                      DescriptionText(GetOr(fields, "description", JObj([])))))))
  {
    match data
    case None => Ok(None)
    case Some(d) =>
      if !d.JObj? then Err(AttributeError)
      else
        var key := GetOr(d.entries, "key", NotAvailable);
        var fields := GetOr(d.entries, "fields", JObj([]));
        if !fields.JObj? then Err(AttributeError)
        else
          var summary := GetOr(fields.entries, "summary", NotAvailable);
          var storyPoints := GetOr(fields.entries, "customfield_10013", NotAvailable);
          var statusValue := GetOr(fields.entries, "status", JObj([]));
          if !statusValue.JObj? then Err(AttributeError)
          else
            var status := GetOr(statusValue.entries, "name", NotAvailable);
            var description := GetOr(fields.entries, "description", JObj([]));
            var text := DescriptionText(description);
            if key == NotAvailable || summary == NotAvailable || status == NotAvailable || storyPoints == NotAvailable then
              Ok(None)
            else
              Ok(Some(NewJiraIssue(key, summary, status, storyPoints, text)))
  }

  /** A document without a story-point field never yields an issue. */
  lemma MissingStoryPointsGiveNoIssue(d: seq<(string, Json)>, fields: seq<(string, Json)>)
    requires Get(d, "fields") == Some(JObj(fields))
    requires !HasKey(fields, "customfield_10013")
    ensures DecodeIssue(Some(JObj(d))).Ok? ==> DecodeIssue(Some(JObj(d))) == Ok(None)
  {
  }

  /** A summary that is literally "N/A" is taken for a missing one. */
  lemma LiteralNotAvailableGivesNoIssue(d: seq<(string, Json)>, fields: seq<(string, Json)>)
    requires Get(d, "fields") == Some(JObj(fields))
    requires Get(fields, "summary") == Some(NotAvailable)
    ensures DecodeIssue(Some(JObj(d))).Ok? ==> DecodeIssue(Some(JObj(d))) == Ok(None)
  {
  }

  /** `extract_issues_numbers`: the 'key' of every item that has one, in input
      order; an item on which `'key' in item` or `item['key']` raises makes
      the whole call raise. */
  function ExtractIssuesNumbers(items: seq<Json>): (r: Result<seq<Json>, Raised>)
    ensures r.Ok? ==> |r.value| <= |items|
  {
    if items == [] then Ok([])
    else
      var head :- KeyOf(items[0]);
      var rest :- ExtractIssuesNumbers(items[1..]);
      Ok((if head.Some? then [head.value] else []) + rest)
  }

  /** What one item contributes: its 'key' if it is a dict holding one,
      nothing if `'key' in item` is false, an exception otherwise. */
  function KeyOf(item: Json): (r: Result<Option<Json>, Raised>)
    ensures item.JObj? ==> r == Ok(Get(item.entries, "key"))
    ensures r.Ok? && r.value.Some? ==> item.JObj?
  {
    match item
    case JObj(entries) => Ok(Get(entries, "key"))
    case JStr(s) => if Contains(s, "key") then Err(TypeError) else Ok(None)
    case JArr(xs) => if JStr("key") in xs then Err(TypeError) else Ok(None)
    case _ => Err(TypeError)
  }

  /** A list of dicts never raises, and keeps exactly the present keys in order:
      extraction distributes over concatenation. */
  lemma {:induction false} ExtractIssuesNumbersAppend(xs: seq<Json>, ys: seq<Json>)
    ensures ExtractIssuesNumbers(xs + ys) ==
      (match (ExtractIssuesNumbers(xs), ExtractIssuesNumbers(ys))
       case (Ok(a), Ok(b)) => Ok(a + b)
       case (Err(e), _) => Err(e)
       case (Ok(_), Err(e)) => Err(e))
    decreases |xs|
  {
    if xs != [] {
      assert (xs + ys)[1..] == xs[1..] + ys;
      assert (xs + ys)[0] == xs[0];
      ExtractIssuesNumbersAppend(xs[1..], ys);
      var head := KeyOf(xs[0]);
      var a := ExtractIssuesNumbers(xs[1..]);
      var b := ExtractIssuesNumbers(ys);
      if head.Ok? && a.Ok? && b.Ok? {
        var h := if head.value.Some? then [head.value.value] else [];
        assert h + (a.value + b.value) == (h + a.value) + b.value;
      }
    } else {
      assert xs + ys == ys;
      if ExtractIssuesNumbers(ys).Ok? {
        assert [] + ExtractIssuesNumbers(ys).value == ExtractIssuesNumbers(ys).value;
      }
    }
  }

  /** On a list of dicts the result holds exactly the present keys; their
      order is that of the items, by `ExtractIssuesNumbersAppend`. */
  lemma {:induction false} ExtractIssuesNumbersOfDicts(items: seq<Json>)
    requires forall i | 0 <= i < |items| :: items[i].JObj?
    ensures ExtractIssuesNumbers(items).Ok?
    ensures forall i | 0 <= i < |items| && HasKey(items[i].entries, "key") ::
      Get(items[i].entries, "key").value in ExtractIssuesNumbers(items).value
    ensures forall x | x in ExtractIssuesNumbers(items).value ::
      exists i | 0 <= i < |items| :: Get(items[i].entries, "key") == Some(x)
    decreases |items|
  {
    if items != [] {
      ExtractIssuesNumbersOfDicts(items[1..]);
      var rest := ExtractIssuesNumbers(items[1..]).value;
      forall x | x in ExtractIssuesNumbers(items).value
        ensures exists i | 0 <= i < |items| :: Get(items[i].entries, "key") == Some(x)
      {
        if x !in rest {
          assert Get(items[0].entries, "key") == Some(x);
        } else {
          var i :| 0 <= i < |items[1..]| && Get(items[1..][i].entries, "key") == Some(x);
          assert items[i + 1] == items[1..][i];
        }
      }
      forall i | 0 <= i < |items| && HasKey(items[i].entries, "key")
        ensures Get(items[i].entries, "key").value in ExtractIssuesNumbers(items).value
      {
        if i > 0 {
          assert items[i] == items[1..][i - 1];
        }
      }
    }
  }
}

=== FILE: Json.dfy ===
/** JSON-like values, standing for the Python objects the modelled code
    builds (`dict`, `list`, `str`, numbers, `None`) and the values
    `json.loads` decodes. A dict is the sequence of its entries in insertion
    order, so `to_json` key order is observable. */
module Json {
  import opened Wrappers
  import opened Strings

  /** `JNum` carries the number as Python's `str()` prints it (`3`, `2.0`);
      floating point arithmetic is not modelled. */
  datatype Json =
    | JNull
    | JBool(b: bool)
    | JNum(repr: string)
    | JStr(s: string)
    | JArr(items: seq<Json>)
    | JObj(entries: seq<(string, Json)>)

  /** Python truthiness: `None`, `False`, zero, `""`, `[]` and `{}` are false. */
  predicate Truthy(j: Json) {
    match j
    case JNull => false
    case JBool(b) => b
    case JNum(repr) => repr != "0" && repr != "0.0" && repr != "-0.0"
    case JStr(s) => s != ""
    case JArr(items) => items != []
    case JObj(entries) => entries != []
  }

  /** Python's `key in d` for a dict. */
  predicate HasKey(entries: seq<(string, Json)>, key: string) {
    exists i | 0 <= i < |entries| :: entries[i].0 == key
  }

  /** Python's `d[key]` for a dict, `None` when the key is absent. */
  function Get(entries: seq<(string, Json)>, key: string): (r: Option<Json>)
    ensures r.Some? <==> HasKey(entries, key)
    ensures r.Some? ==> (key, r.value) in entries
  {
    if entries == [] then None
    else if entries[0].0 == key then Some(entries[0].1)
    else
      assert forall i :: 1 <= i < |entries| ==> entries[i] == entries[1..][i - 1];
      Get(entries[1..], key)
  }

  /** The value of the first entry with the key is what `d[key]` gives. */
  lemma GetFirst(entries: seq<(string, Json)>, key: string, i: nat)
    requires i < |entries| && entries[i].0 == key
    requires forall j | 0 <= j < i :: entries[j].0 != key
    ensures Get(entries, key) == Some(entries[i].1)
  {
    if i > 0 {
      GetFirst(entries[1..], key, i - 1);
    }
  }

  /** Looking a key up in a dict with one more entry in front. */
  lemma GetCons(e: (string, Json), rest: seq<(string, Json)>)
    ensures forall k :: Get([e] + rest, k) == if e.0 == k then Some(e.1) else Get(rest, k)
  {
    assert ([e] + rest)[1..] == rest;
  }

  /** Python's `d.get(key, default)`. */
  function GetOr(entries: seq<(string, Json)>, key: string, default: Json): Json {
    Get(entries, key).GetOr(default)
  }

  /** The keys of a dict, in insertion order. */
  function Keys(entries: seq<(string, Json)>): (ks: seq<string>)
    ensures |ks| == |entries|
    ensures forall i :: 0 <= i < |entries| ==> ks[i] == entries[i].0
  {
    seq(|entries|, i requires 0 <= i < |entries| => entries[i].0)
  }

  /** Python's `str(v)`. Inside containers strings are quoted; the escaping
      `repr` applies to quotes and control characters is not modelled. */
  function Render(j: Json): string
    decreases j, 1
  {
    match j
    case JNull => "None"
    case JBool(b) => if b then "True" else "False"
    case JNum(repr) => repr
    case JStr(s) => s
    case JArr(items) =>
      "[" + JoinWith(", ", seq(|items|, i requires 0 <= i < |items| => Repr(items[i]))) + "]"
    case JObj(entries) =>
      "{" + JoinWith(", ", seq(|entries|, i requires 0 <= i < |entries| =>
        "'" + entries[i].0 + "': " + Repr(entries[i].1))) + "}"
  }

  /** Python's `repr(v)` as used inside a container's `str()`. */
  function Repr(j: Json): string
    decreases j, 2
  {
    match j
    case JStr(s) => "'" + s + "'"
    case _ => Render(j)
  }
}

=== FILE: Locator.dfy ===
/** Finding a note that moved: `find` looks for any of a list of names,
    `find_jira` for a file whose name starts with an issue number. Both walk
    the directories in order and compare right-stripped file names. */
module Locator {
  import opened Wrappers
  import opened Strings
  import opened NotesTree

  /** Some file of `d`, right-stripped, equals `name` right-stripped. */
  predicate Matches(d: Dir, name: string) {
    exists k | 0 <= k < |d.files| :: RStrip(d.files[k].name) == RStrip(name)
  }

  /** The first of `names[j..]` that matches a file of `d`. */
  function FirstMatch(d: Dir, names: seq<string>, j: nat): (r: Option<nat>)
    requires j <= |names|
    ensures r.Some? ==> j <= r.value < |names| && Matches(d, names[r.value])
    ensures r.Some? ==> forall j' | j <= j' < r.value :: !Matches(d, names[j'])
    ensures r.None? ==> forall j' | j <= j' < |names| :: !Matches(d, names[j'])
    decreases |names| - j
  {
    if j == |names| then None
    else if Matches(d, names[j]) then Some(j)
    else FirstMatch(d, names, j + 1)
  }

  /** The first directory from `i` on holding a match, and the first name
      matching there. */
  function FindFrom(t: Tree, names: seq<string>, i: nat): (r: Option<(nat, nat)>)
    requires i <= |t|
    ensures r.Some? ==> i <= r.value.0 < |t| && r.value.1 < |names| && Matches(t[r.value.0], names[r.value.1])
    ensures r.Some? ==> forall a, j | i <= a < r.value.0 && 0 <= j < |names| :: !Matches(t[a], names[j])
    ensures r.Some? ==> forall j | 0 <= j < r.value.1 :: !Matches(t[r.value.0], names[j])
    ensures r.None? ==> forall a, j | i <= a < |t| && 0 <= j < |names| :: !Matches(t[a], names[j])
    decreases |t| - i
  {
    if i == |t| then None
    else match FirstMatch(t[i], names, 0)
      case Some(j) => Some((i, j))
      case None => FindFrom(t, names, i + 1)
  }

  /** `find(names, path)`: in walk order, the first directory holding a
      file that one of `names` matches after right-stripping both, and there
      the first such name; the result joins the directory and the stripped
      name. */
  function Find(t: Tree, names: seq<string>): (r: Option<string>)
    ensures r.None? <==> forall a, j | 0 <= a < |t| && 0 <= j < |names| :: !Matches(t[a], names[j])
    ensures r.Some? ==> exists a, j | 0 <= a < |t| && 0 <= j < |names| ::
      && r.value == PathJoin(t[a].path, RStrip(names[j]))
      && Matches(t[a], names[j])
      && (forall a' | 0 <= a' < a :: forall j' | 0 <= j' < |names| :: !Matches(t[a'], names[j']))
      && (forall j' | 0 <= j' < j :: !Matches(t[a], names[j']))
  {
    match FindFrom(t, names, 0)
    case None => None
    case Some((a, j)) => Some(PathJoin(t[a].path, RStrip(names[j])))
  }

  /** In a tree with distinct directory paths, the files under a
      directory's path are that directory's. */
  lemma FileAtDir(t: Tree, a: nat, n: string)
    requires a < |t| && forall i, j | 0 <= i < j < |t| :: t[i].path != t[j].path
    ensures FileAt(t, t[a].path, n) == FileIn(t[a].files, n)
  {
    if a > 0 {
      FileAtDir(t[1..], a - 1, n);
    }
  }

  /** When no file name ends in white space, what `find` returns is a file
      of the tree. */
  lemma FindGivesFile(t: Tree, names: seq<string>)
    requires WellFormed(t)
    requires forall a, k | 0 <= a < |t| && 0 <= k < |t[a].files| :: RStrip(t[a].files[k].name) == t[a].files[k].name
    requires Find(t, names).Some?
    ensures IsFile(t, Find(t, names).value)
  {
    var (a, j) := FindFrom(t, names, 0).value;
    var k :| 0 <= k < |t[a].files| && RStrip(t[a].files[k].name) == RStrip(names[j]);
    var n := t[a].files[k].name;
    SplitJoin(t[a].path, n);
    FileAtDir(t, a, n);
  }

  /** `find` on a tree whose only file name ends in a space returns a path
      under which nothing exists: the name is compared stripped, but the
      stripped name is what is returned. */
  lemma FindPaddedName()
    ensures var t := [Dir("", [File("note.md ", "x")])];
      Find(t, ["note.md"]) == Some("note.md") && !PathExists(t, "note.md")
  {
    PaddedNameFound([Dir("", [File("note.md ", "x")])], "note.md");
    PaddedNameMissing([Dir("", [File("note.md ", "x")])], "note.md");
  }

  lemma PaddedNameFound(t: Tree, name: string)
    requires t == [Dir("", [File("note.md ", "x")])] && name == "note.md"
    ensures Find(t, [name]) == Some(name)
  {
    PaddedNameStrips();
    assert Matches(t[0], name) by {
      assert RStrip(t[0].files[0].name) == RStrip(name);
    }
    assert FirstMatch(t[0], [name], 0) == Some(0);
    assert FindFrom(t, [name], 0) == Some((0, 0));
    SplitJoin("", name);
  }

  lemma PaddedNameMissing(t: Tree, name: string)
    requires t == [Dir("", [File("note.md ", "x")])] && name == "note.md"
    ensures !PathExists(t, name)
  {
    SplitJoin("", name);
    assert !IsDir(t, name) by {
      assert Paths(t) == [""];
    }
    assert Lookup(t, name) == FileAt(t, "", name) == FileIn(t[0].files, name);
    assert FileIn(t[0].files, name) == FileIn(t[0].files[1..], name) by {
      assert |t[0].files[0].name| != |name|;
    }
  }

  lemma PaddedNameStrips()
    ensures RStrip("note.md ") == "note.md" && RStrip("note.md") == "note.md"
  {
    var padded := "note.md ";
    assert IsSpace(padded[7]) && padded[..7] == "note.md";
    assert !IsSpace("note.md"[6]);
  }

  /** The file's right-stripped name starts with `key`. */
  predicate NameStartsWith(f: File, key: string) {
    StartsWith(RStrip(f.name), key)
  }

  /** The first file of `files[k..]` whose stripped name starts with `key`. */
  function FirstPrefixed(files: seq<File>, key: string, k: nat): (r: Option<nat>)
    requires k <= |files|
    ensures r.Some? ==> k <= r.value < |files| && NameStartsWith(files[r.value], key)
    ensures r.Some? ==> forall k' | k <= k' < r.value :: !NameStartsWith(files[k'], key)
    ensures r.None? ==> forall k' | k <= k' < |files| :: !NameStartsWith(files[k'], key)
    decreases |files| - k
  {
    if k == |files| then None
    else if NameStartsWith(files[k], key) then Some(k)
    else FirstPrefixed(files, key, k + 1)
  }

  function FindJiraFrom(t: Tree, key: string, i: nat): (r: Option<(nat, nat)>)
    requires i <= |t|
    ensures r.Some? ==> (i <= r.value.0 < |t| && r.value.1 < |t[r.value.0].files|
      && NameStartsWith(t[r.value.0].files[r.value.1], key))
    ensures r.Some? ==> forall a, k | i <= a < r.value.0 && 0 <= k < |t[a].files| ::
      !NameStartsWith(t[a].files[k], key)
    ensures r.Some? ==> forall k | 0 <= k < r.value.1 :: !NameStartsWith(t[r.value.0].files[k], key)
    ensures r.None? ==> forall a, k | i <= a < |t| && 0 <= k < |t[a].files| ::
      !NameStartsWith(t[a].files[k], key)
    decreases |t| - i
  {
    if i == |t| then None
    else match FirstPrefixed(t[i].files, key, 0)
      case Some(k) => Some((i, k))
      case None => FindJiraFrom(t, key, i + 1)
  }

  /** `find_jira(issue_number, path, filename)`: nothing for a missing or
      empty issue number; otherwise, in walk order, the first file whose
      right-stripped name starts with it, as the directory joined with the
      stripped name. */
  function FindJira(t: Tree, issue: Option<string>): (r: Option<string>)
    ensures issue.None? || issue.value == "" ==> r.None?
    ensures issue.Some? && issue.value != "" ==>
      (r.None? <==> forall a, k | 0 <= a < |t| && 0 <= k < |t[a].files| ::
        !NameStartsWith(t[a].files[k], issue.value))
    ensures r.Some? ==> exists a, k | 0 <= a < |t| && 0 <= k < |t[a].files| ::
      && r.value == PathJoin(t[a].path, RStrip(t[a].files[k].name))
      && NameStartsWith(t[a].files[k], issue.value)
      && (forall a', k' | 0 <= a' < a && 0 <= k' < |t[a'].files| :: !NameStartsWith(t[a'].files[k'], issue.value))
      && (forall k' | 0 <= k' < k :: !NameStartsWith(t[a].files[k'], issue.value))
  {
    if issue.None? || issue.value == "" then None
    else match FindJiraFrom(t, issue.value, 0)
      case None => None
      case Some((a, k)) => Some(PathJoin(t[a].path, RStrip(t[a].files[k].name)))
  }

  /** In a well-formed tree the file `find_jira` names starts with the issue
      number and sits in a directory of the tree. */
  lemma FindJiraNamesIssue(t: Tree, issue: Option<string>)
    requires WellFormed(t) && FindJira(t, issue).Some?
    ensures StartsWith(BaseName(FindJira(t, issue).value), issue.value)
    ensures IsDir(t, DirName(FindJira(t, issue).value))
  {
    var (a, k) := FindJiraFrom(t, issue.value, 0).value;
    var n := RStrip(t[a].files[k].name);
    PrefixChars(t[a].files[k].name, n);
    SplitJoin(t[a].path, n);
    assert Paths(t)[a] == t[a].path;
  }
}

=== FILE: NotesInterface.dfy ===
/** The note-index reconciliation engine: for a page (address and title) it
    finds the note file that belongs to it, following the note when it was
    renamed or moved, creating it from a template or a plain header when it
    is new or gone, and records the result in the index. */
module NotesInterface {
  import opened Wrappers
  import opened Strings
  import opened NotesTree
  import opened Locator
  import opened IndexStore
  import opened Utilities
  import JiraInterface

  /** The configured options the engine reads. Template files live outside
      the notes tree; `templates` maps a template path to the file's text. */
  datatype Config = Config(
    jiraTemplatePath: string, jiraFolder: string,
    supTemplatePath: string, supFolder: string,
    prTemplatePath: string, prFolder: string,
    templates: map<string, string>)

  /** Why the engine stops: a filesystem call raised, or the supply of
      random draws ran out before a free collision name came up. */
  datatype EngineError = Fs(error: FsError) | OracleExhausted

  function Lift<T>(r: Result<T, FsError>): Result<T, EngineError> {
    match r
    case Ok(v) => Ok(v)
    case Err(e) => Err(Fs(e))
  }

  /** `is_jira`. */
  predicate IsJira(cfg: Config, filename: string) {
    && cfg.jiraTemplatePath != "SAMPLE/JIRA/TEMPLATE/PATH"
    && cfg.jiraFolder != "SAMPLE_JIRA_FOLDER_NAME"
    && EndsWith(Strip(filename), "- Jira" + FileExtension)
  }

  /** `is_jira_sup`: consults the issue template path, as the source does. */
  predicate IsJiraSup(cfg: Config, filename: string) {
    && cfg.jiraTemplatePath != "SAMPLE/JIRA/TEMPLATE/PATH"
    && cfg.supFolder != "SAMPLE_JIRA_FOLDER_NAME"
    && StartsWith(Strip(filename), "SUP")
  }

  /** `is_jira_pr`: consults the issue template path and issue folder, as
      the source does, and tests the unstripped name. */
  predicate IsJiraPr(cfg: Config, filename: string) {
    && cfg.jiraTemplatePath != "SAMPLE/JIRA/PR/TEMPLATE/PATH"
    && cfg.jiraFolder != "SAMPLE_JIRA_PR_FOLDER_NAME"
    && StartsWith(filename, "Pull request")
  }

  /** `is_template`: support notes first, then issue notes, then pull
      requests, else no template. */
  function Classify(cfg: Config, filename: string): (r: Template)
    ensures r == JiraSup <==> IsJiraSup(cfg, filename)
    ensures r == Jira <==> !IsJiraSup(cfg, filename) && IsJira(cfg, filename)
    ensures r == JiraPr <==> !IsJiraSup(cfg, filename) && !IsJira(cfg, filename) && IsJiraPr(cfg, filename)
  {
    if IsJiraSup(cfg, filename) then JiraSup
    else if IsJira(cfg, filename) then Jira
    else if IsJiraPr(cfg, filename) then JiraPr
    else NoTemplate
  }

  /** With the sample values for the issue template path and folder left
      in place, issue and support notes are never templated, yet a
      pull-request note still is. */
  lemma SampleConfigStillTemplatesPr(cfg: Config, filename: string)
    requires cfg.jiraTemplatePath == "SAMPLE/JIRA/TEMPLATE/PATH"
    requires cfg.jiraFolder == "SAMPLE_JIRA_FOLDER_NAME"
    ensures Classify(cfg, filename) != Jira && Classify(cfg, filename) != JiraSup
    ensures StartsWith(filename, "Pull request") ==> Classify(cfg, filename) == JiraPr
  {
    assert cfg.jiraTemplatePath[7] == 'J' && "SAMPLE/JIRA/PR/TEMPLATE/PATH"[12] == 'P';
    assert cfg.jiraTemplatePath[12] == 'T';
    assert cfg.jiraFolder != "SAMPLE_JIRA_PR_FOLDER_NAME" by {
      assert |cfg.jiraFolder| != |"SAMPLE_JIRA_PR_FOLDER_NAME"|;
    }
  }

  /** The folder a template category's notes go to. */
  function Folder(cfg: Config, template: Template): string {
    match template
    case Jira => cfg.jiraFolder
    case JiraSup => cfg.supFolder
    case JiraPr => cfg.prFolder
    case NoTemplate => ""
  }

  /** `get_prefixed_filename`: where a note of this name is expected. */
  function GetPrefixedFilename(cfg: Config, filename: string): (r: string)
    ensures Classify(cfg, filename) == NoTemplate ==> r == filename
    ensures '/' !in filename && filename != "" ==>
      DirName(r) == Folder(cfg, Classify(cfg, filename)) && BaseName(r) == filename
  {
    SplitJoinFolder(Folder(cfg, Classify(cfg, filename)), filename);
    PathJoin(Folder(cfg, Classify(cfg, filename)), filename)
  }

  lemma SplitJoinFolder(d: string, n: string)
    ensures '/' !in n ==> DirName(PathJoin(d, n)) == d && BaseName(PathJoin(d, n)) == n
  {
    if '/' !in n {
      SplitJoin(d, n);
    }
  }

  /** The name `create_new_file` tries after a collision. */
  function Candidate(title: string, draw: nat): string {
    title + NatToString(draw) + FileExtension
  }

  /** Draws of `randint(0, 100)`. */
  predicate ValidDraws(draws: seq<nat>) {
    forall i | 0 <= i < |draws| :: draws[i] <= 100
  }

  /** The loop of `create_new_file`: the first of `filename` and then the
      candidates of the successive draws that does not exist at the root, or
      `None` when the draws run out first. */
  function PickName(t: Tree, filename: string, title: string, draws: seq<nat>): (r: Option<string>)
    ensures !PathExists(t, filename) ==> r == Some(filename)
    ensures r.Some? ==> !PathExists(t, r.value)
    ensures r.Some? ==> r.value == filename || exists i | 0 <= i < |draws| :: r.value == Candidate(title, draws[i])
    ensures r.None? ==> PathExists(t, filename) && forall i | 0 <= i < |draws| :: PathExists(t, Candidate(title, draws[i]))
    decreases |draws|
  {
    if !PathExists(t, filename) then Some(filename)
    else if draws == [] then None
    else
      var r := PickName(t, Candidate(title, draws[0]), title, draws[1..]);
      assert forall i | 1 <= i < |draws| :: draws[1..][i - 1] == draws[i];
      r
  }

  /** The `(placeholder, value)` replacements of an issue template, all
      applied in order. */
  function SubstituteAll(data: string, values: seq<(string, string)>): (r: string)
    ensures (forall i | 0 <= i < |values| :: |values[i].0| > 0 && !Contains(data, values[i].0)) ==> r == data
    decreases |values|
  {
    if values == [] then data
    else
      var next := Replace(data, values[0].0, values[0].1);
      assert forall i | 1 <= i < |values| :: values[1..][i - 1] == values[i];
      SubstituteAll(next, values[1..])
  }

  /** A truthy value: present and not empty. */
  predicate Truthy(v: Option<string>) {
    v.Some? && v.value != ""
  }

  /** The replacements of a pull-request template: only truthy values are
      applied. */
  function SubstituteTruthy(data: string, values: seq<(string, Option<string>)>): (r: string)
    ensures (forall i | 0 <= i < |values| :: !Truthy(values[i].1)) ==> r == data
    decreases |values|
  {
    if values == [] then data
    else
      var next := if Truthy(values[0].1) then Replace(data, values[0].0, values[0].1.value) else data;
      assert forall i | 1 <= i < |values| :: values[1..][i - 1] == values[i];
      SubstituteTruthy(next, values[1..])
  }

  /** The text a templated note starts with: the template as read in text
      mode, with its placeholders filled in. */
  function TemplateText(template: Template, raw: string, path: string, url: string): string {
    var data := TranslateNewlines(raw);
    if template == JiraPr then
      SubstituteTruthy(data, JiraPrTemplateValues(url, GetJiraIssueLinkFromPrTitle(path)))
    else SubstituteAll(data, JiraTemplateValues(url))
  }

  /** A single replacement is one `Replace`. */
  lemma SubstituteAllOne(data: string, placeholder: string, value: string)
    ensures SubstituteAll(data, [(placeholder, value)]) == Replace(data, placeholder, value)
  {
    assert [(placeholder, value)][1..] == [];
  }

  /** Truthy values are replaced in order and the others skipped. */
  lemma SubstituteTruthyTwo(data: string, a: (string, Option<string>), b: (string, Option<string>))
    ensures var first := if Truthy(a.1) then Replace(data, a.0, a.1.value) else data;
      SubstituteTruthy(data, [a, b]) == if Truthy(b.1) then Replace(first, b.0, b.1.value) else first
  {
    assert [a, b][1..] == [b];
    assert [b][1..] == [];
  }

  /** An issue template holding the link placeholder comes out holding the
      page address and, when the address cannot form part of a placeholder,
      no placeholder at all. */
  lemma IssueTemplateFilled(template: Template, raw: string, path: string, url: string)
    requires template == Jira || template == JiraSup
    requires Contains(TranslateNewlines(raw), JiraLinkPlaceholder)
    ensures Contains(TemplateText(template, raw, path, url), url)
    ensures DelimiterChar !in url && !Contains(JiraLinkPlaceholder, url) ==>
      !Contains(TemplateText(template, raw, path, url), JiraLinkPlaceholder)
  {
    var data := TranslateNewlines(raw);
    SubstituteAllOne(data, JiraLinkPlaceholder, url);
    ReplaceInserts(data, JiraLinkPlaceholder, url);
    if DelimiterChar !in url && !Contains(JiraLinkPlaceholder, url) {
      ReplaceRemoves(data, JiraLinkPlaceholder, url);
    }
  }

  /** A pull-request template: the issue link placeholder is filled only when
      the title names an issue; without one it stays, and only the
      pull-request placeholder is filled. */
  lemma PrTemplateFilled(raw: string, path: string, url: string)
    ensures var link := GetJiraIssueLinkFromPrTitle(path);
      link.None? ==> (TemplateText(JiraPr, raw, path, url)
        == if url != "" then Replace(TranslateNewlines(raw), JiraPrLinkPlaceholder, url) else TranslateNewlines(raw))
    ensures var link := GetJiraIssueLinkFromPrTitle(path);
      link.Some? && DelimiterChar !in link.value && !Contains(JiraLinkPlaceholder, link.value) ==>
        !Contains(TemplateText(JiraPr, raw, path, url), JiraLinkPlaceholder)
  {
    var data := TranslateNewlines(raw);
    var link := GetJiraIssueLinkFromPrTitle(path);
    SubstituteTruthyTwo(data, (JiraPrLinkPlaceholder, Some(url)), (JiraLinkPlaceholder, link));
    var first := if url != "" then Replace(data, JiraPrLinkPlaceholder, url) else data;
    if link.Some? && DelimiterChar !in link.value && !Contains(JiraLinkPlaceholder, link.value) {
      ReplaceRemoves(first, JiraLinkPlaceholder, link.value);
    }
  }

  function TemplatePath(cfg: Config, template: Template): string {
    match template
    case Jira => cfg.jiraTemplatePath
    case JiraSup => cfg.supTemplatePath
    case JiraPr => cfg.prTemplatePath
    case NoTemplate => ""
  }

  /** `create_jira_template`, `create_jira_sup_template` and
      `create_jira_pr_template`: copy the template into the category folder
      under `filename`, fill it in, and return the folder-prefixed name. A
      missing template raises. */
  function CreateFromTemplate(cfg: Config, t: Tree, template: Template, filename: string, url: string)
    : (r: Result<(Tree, string), EngineError>)
    requires template != NoTemplate
    ensures TemplatePath(cfg, template) !in cfg.templates ==> r == Err(Fs(FileNotFound))
    ensures r.Ok? ==> r.value.1 == PathJoin(Folder(cfg, template), filename)
    ensures r.Ok? ==> (TemplatePath(cfg, template) in cfg.templates
      && Lookup(r.value.0, r.value.1) == Some(TemplateText(template, cfg.templates[TemplatePath(cfg, template)], r.value.1, url)))
    ensures r.Ok? ==> forall d, n | d != DirName(r.value.1) || n != BaseName(r.value.1) ::
      FileAt(r.value.0, d, n) == FileAt(t, d, n)
    ensures r.Ok? ==> Paths(r.value.0) == Paths(t)
  {
    var path := PathJoin(Folder(cfg, template), filename);
    if TemplatePath(cfg, template) !in cfg.templates then Err(Fs(FileNotFound))
    else
      var text := TemplateText(template, cfg.templates[TemplatePath(cfg, template)], path, url);
      match WriteFile(t, path, text)
      case Ok(t') => Ok((t', path))
      case Err(e) => Err(Fs(e))
  }

  /** The plain branch of `create_new_file`: a note holding only the
      front-matter header with the address. */
  function CreatePlain(t: Tree, name: string, url: string): (r: Result<(Tree, string), EngineError>)
    ensures r.Ok? ==> r.value.1 == name && Lookup(r.value.0, name) == Some(GetHeaderWithLink(url))
    ensures r.Ok? ==> forall d, n | d != DirName(name) || n != BaseName(name) ::
      FileAt(r.value.0, d, n) == FileAt(t, d, n)
    ensures r.Err? ==> r.error.Fs?
    ensures r.Ok? ==> Paths(r.value.0) == Paths(t)
  {
    match WriteFile(t, name, GetHeaderWithLink(url))
    case Ok(t') => Ok((t', name))
    case Err(e) => Err(Fs(e))
  }

  /** `create_new_file`: pick a free name at the root, then create the note
      from the template of its category, or as a plain file holding the
      front-matter header with the address. */
  function CreateNewFile(cfg: Config, t: Tree, filename: string, title: string, url: string, draws: seq<nat>)
    : (r: Result<(Tree, string), EngineError>)
    requires ValidDraws(draws)
    ensures PickName(t, filename, title, draws).None? <==> r == Err(OracleExhausted)
    ensures r.Ok? && Classify(cfg, PickName(t, filename, title, draws).value) == NoTemplate ==>
      var name := PickName(t, filename, title, draws).value;
      r.value.1 == name && !PathExists(t, name) && Lookup(r.value.0, name) == Some(GetHeaderWithLink(url))
    ensures r.Ok? ==> IsFile(r.value.0, r.value.1)
    ensures r.Ok? ==> forall d, n | d != DirName(r.value.1) || n != BaseName(r.value.1) ::
      FileAt(r.value.0, d, n) == FileAt(t, d, n)
    ensures r.Ok? ==> Paths(r.value.0) == Paths(t)
  {
    var picked := PickName(t, filename, title, draws);
    if picked.None? then Err(OracleExhausted)
    else
      var name := picked.value;
      var template := Classify(cfg, name);
      if template == NoTemplate then CreatePlain(t, name, url)
      else CreateFromTemplate(cfg, t, template, name, url)
  }

  /** What the engine hands back: the tree, the updated index and the note's
      path relative to the notes root. */
  datatype Outcome = Outcome(tree: Tree, index: Index, name: string)

  /** The index key of a page: its address after the special issue-tracker
      rewriting, without the query string. */
  function PageKey(url: string, title: string, lookup: string -> Option<JiraInterface.JiraIssue>): (k: string)
    ensures '?' !in k
    ensures var u := HandleSpecialJiraCases(url, title, lookup).0;
      StartsWith(u, k) && (k == u || u[|k|] == '?')
  {
    var u := HandleSpecialJiraCases(url, title, lookup).0;
    var k := BeforeFirst(u, "?");
    NoCharBeforeFirst(u, '?');
    OccursAtChar(u, '?', |k|);
    k
  }

  /** The note filename of a page, from its (possibly rewritten) title. */
  function PageFilename(url: string, title: string, lookup: string -> Option<JiraInterface.JiraIssue>): (f: string)
    ensures '/' !in f && f != "" && HasToken(f)
  {
    var f := GetFilename(HandleSpecialJiraCases(url, title, lookup).1);
    GetFilenameIsComponent(HandleSpecialJiraCases(url, title, lookup).1);
    GetFilenameHasToken(HandleSpecialJiraCases(url, title, lookup).1);
    f
  }

  /** Renames the file at `src` to `filename` in its own directory and
      returns the new path. */
  function RenameNote(t: Tree, src: string, filename: string): (r: Result<(Tree, string), EngineError>)
    requires '/' !in filename && filename != ""
    ensures r.Ok? ==> r.value.1 == PathJoin(DirName(src), filename)
    ensures r.Ok? ==> Lookup(r.value.0, r.value.1) == Lookup(t, src) && IsFile(t, src)
    ensures r.Ok? <==> Rename(t, src, filename).Ok?
    ensures r.Ok? ==> r.value.0 == Rename(t, src, filename).value
    ensures r.Err? ==> r.error == Fs(Rename(t, src, filename).error)
  {
    var t' :- Lift(Rename(t, src, filename));
    Ok((t', PathJoin(DirName(src), filename)))
  }

  /** A successful `RenameNote` keeps the tree well formed and every other
      file as it was, and the old name is gone unless it is the new one. */
  lemma RenameNoteFrame(t: Tree, src: string, filename: string)
    requires '/' !in filename && filename != "" && WellFormed(t)
    requires RenameNote(t, src, filename).Ok?
    ensures var t' := RenameNote(t, src, filename).value.0;
      && WellFormed(t')
      && (BaseName(src) != filename ==> !IsFile(t', src))
      && Paths(t') == Paths(t)
      && forall d, n | d != DirName(src) || (n != filename && n != BaseName(src)) ::
           FileAt(t', d, n) == FileAt(t, d, n)
  {
    RenameWellFormed(t, src, filename);
  }

  /** The branch taken for an indexed page whose note is not where it is
      expected: rename the file at the indexed path in place; else adopt
      what `find` locates by the indexed name or the filename; else rename
      in place the first file starting with the filename's issue number;
      else create the note anew. */
  function Relocate(cfg: Config, t: Tree, previous: string, filename: string, title: string, url: string, draws: seq<nat>)
    : (r: Result<(Tree, string), EngineError>)
    requires '/' !in filename && filename != "" && HasToken(filename) && ValidDraws(draws)
    ensures PathExists(t, previous) ==> r == RenameNote(t, previous, filename)
    ensures PathExists(t, previous) && r.Ok? ==>
      && IsFile(t, previous)
      && r.value.1 == PathJoin(DirName(previous), filename)
      && Lookup(r.value.0, r.value.1) == Lookup(t, previous)
    ensures !PathExists(t, previous) && Find(t, [previous, filename]).Some? ==>
      r == Ok((t, Find(t, [previous, filename]).value))
    ensures (!PathExists(t, previous) && Find(t, [previous, filename]).None?
             && FindJira(t, GetIssueNumber(filename)).Some?) ==>
      r == RenameNote(t, FindJira(t, GetIssueNumber(filename)).value, filename)
    ensures (!PathExists(t, previous) && Find(t, [previous, filename]).None?
             && FindJira(t, GetIssueNumber(filename)).Some? && r.Ok?) ==>
      var jira := FindJira(t, GetIssueNumber(filename)).value;
      && IsFile(t, jira)
      && r.value.1 == PathJoin(DirName(jira), filename)
      && Lookup(r.value.0, r.value.1) == Lookup(t, jira)
    ensures (!PathExists(t, previous) && Find(t, [previous, filename]).None?
             && FindJira(t, GetIssueNumber(filename)).None?) ==>
      r == CreateNewFile(cfg, t, filename, title, url, draws)
  {
    if PathExists(t, previous) then RenameNote(t, previous, filename)
    else match Find(t, [previous, filename])
      case Some(found) => Ok((t, found))
      case None =>
        match FindJira(t, GetIssueNumber(filename))
        case Some(jira) => RenameNote(t, jira, filename)
        case None => CreateNewFile(cfg, t, filename, title, url, draws)
  }

  /** When the indexed path still exists, the relocation is a rename in
      place: the tree stays well formed, the old name is gone unless it is
      the new one, the same paths exist, and every other file is kept. */
  lemma RelocateRenamesInPlace(cfg: Config, t: Tree, previous: string, filename: string, title: string,
                               url: string, draws: seq<nat>)
    requires '/' !in filename && filename != "" && HasToken(filename) && ValidDraws(draws)
    requires WellFormed(t) && PathExists(t, previous)
    requires Relocate(cfg, t, previous, filename, title, url, draws).Ok?
    ensures var t' := Relocate(cfg, t, previous, filename, title, url, draws).value.0;
      && WellFormed(t')
      && (BaseName(previous) != filename ==> !IsFile(t', previous))
      && Paths(t') == Paths(t)
      && forall d, n | d != DirName(previous) || (n != filename && n != BaseName(previous)) ::
           FileAt(t', d, n) == FileAt(t, d, n)
  {
    RenameNoteFrame(t, previous, filename);
  }

  /** `get_or_create_file` on a loaded index: returns where the page's note
      is, after creating or renaming it as needed, with the index updated to
      point there. */
  function Resolve(cfg: Config, t: Tree, idx: Index, url: string, title: string,
                   lookup: string -> Option<JiraInterface.JiraIssue>, draws: seq<nat>)
    : (r: Result<Outcome, EngineError>)
    requires ValidDraws(draws)
    ensures r.Ok? ==> r.value.index == Put(idx, PageKey(url, title, lookup), r.value.name)
  {
    var key := PageKey(url, title, lookup);
    var filename := PageFilename(url, title, lookup);
    var title' := HandleSpecialJiraCases(url, title, lookup).1;
    RecordOutcome(idx, key, FindOrCreate(cfg, t, idx, key, filename, title', draws))
  }

  /** The outcome of a call: the note's tree and path, with the index
      pointing the key at the path. */
  function RecordOutcome(idx: Index, key: string, found: Result<(Tree, string), EngineError>): (r: Result<Outcome, EngineError>)
    ensures r.Ok? <==> found.Ok?
    ensures r.Ok? ==> r.value.tree == found.value.0 && r.value.name == found.value.1
    ensures r.Ok? ==> r.value.index == Put(idx, key, r.value.name)
    ensures r.Err? ==> r.error == found.error
  {
    var f :- found;
    Ok(Outcome(f.0, Put(idx, key, f.1), f.1))
  }

  /** The branch of `get_or_create_file` that yields the note's tree and
      path: create the note for a new key, keep it where it is expected, or
      move it there. */
  function FindOrCreate(cfg: Config, t: Tree, idx: Index, key: string, filename: string, title: string,
                        draws: seq<nat>): (r: Result<(Tree, string), EngineError>)
    requires '/' !in filename && filename != "" && HasToken(filename) && ValidDraws(draws)
    ensures HasKey(idx, key) && PathExists(t, GetPrefixedFilename(cfg, filename)) ==>
      r == Ok((t, GetPrefixedFilename(cfg, filename)))
  {
    if !HasKey(idx, key) then CreateNewFile(cfg, t, filename, title, key, draws)
    else
      var prefixed := GetPrefixedFilename(cfg, filename);
      if PathExists(t, prefixed) then Ok((t, prefixed))
      else Relocate(cfg, t, Get(idx, key).value, filename, title, key, draws)
  }

  /** `get_or_create_file` end to end: load the index text, resolve, and
      save the index text. */
  function GetOrCreateFile(cfg: Config, t: Tree, indexText: string, url: string, title: string,
                           lookup: string -> Option<JiraInterface.JiraIssue>, draws: seq<nat>)
    : (r: Result<(Tree, string, string), EngineError>)
    requires ValidDraws(draws)
  {
    var out :- Resolve(cfg, t, ParseIndex(indexText), url, title, lookup, draws);
    Ok((out.tree, WriteIndex(out.index), out.name))
  }

  /** An indexed page whose note is where it is expected: the tree is left
      alone and the index points at the expected path. */
  lemma ResolveConfirmed(cfg: Config, t: Tree, idx: Index, url: string, title: string,
                         lookup: string -> Option<JiraInterface.JiraIssue>, draws: seq<nat>)
    requires ValidDraws(draws)
    requires HasKey(idx, PageKey(url, title, lookup))
    requires PathExists(t, GetPrefixedFilename(cfg, PageFilename(url, title, lookup)))
    ensures var p := GetPrefixedFilename(cfg, PageFilename(url, title, lookup));
      Resolve(cfg, t, idx, url, title, lookup, draws) == Ok(Outcome(t, Put(idx, PageKey(url, title, lookup), p), p))
  {
  }

  /** Once a page's note is where it is expected, resolving the page again
      changes nothing and gives the same answer. */
  lemma ConfirmIsStable(cfg: Config, t: Tree, idx: Index, url: string, title: string,
                        lookup: string -> Option<JiraInterface.JiraIssue>, draws: seq<nat>, draws': seq<nat>)
    requires ValidDraws(draws) && ValidDraws(draws') && DistinctKeys(idx)
    requires Resolve(cfg, t, idx, url, title, lookup, draws).Ok?
    requires var o := Resolve(cfg, t, idx, url, title, lookup, draws).value;
      o.name == GetPrefixedFilename(cfg, PageFilename(url, title, lookup)) && PathExists(o.tree, o.name)
    ensures var o := Resolve(cfg, t, idx, url, title, lookup, draws).value;
      Resolve(cfg, o.tree, o.index, url, title, lookup, draws') == Ok(o)
  {
    var o := Resolve(cfg, t, idx, url, title, lookup, draws).value;
    var key := PageKey(url, title, lookup);
    GetPut(idx, key, o.name, key);
    ResolveConfirmed(cfg, o.tree, o.index, url, title, lookup, draws');
    PutSame(o.index, key, o.name);
  }

  /** A new page whose filename is free: the note is created under that
      name, in its category folder when it has a template, which is where
      the next call expects it. */
  lemma CreateLandsWhereExpected(cfg: Config, t: Tree, idx: Index, url: string, title: string,
                                 lookup: string -> Option<JiraInterface.JiraIssue>, draws: seq<nat>)
    requires ValidDraws(draws)
    requires !HasKey(idx, PageKey(url, title, lookup))
    requires !PathExists(t, PageFilename(url, title, lookup))
    requires Resolve(cfg, t, idx, url, title, lookup, draws).Ok?
    ensures var o := Resolve(cfg, t, idx, url, title, lookup, draws).value;
      o.name == GetPrefixedFilename(cfg, PageFilename(url, title, lookup)) && PathExists(o.tree, o.name)
  {
    var filename := PageFilename(url, title, lookup);
    var title' := HandleSpecialJiraCases(url, title, lookup).1;
    var key := PageKey(url, title, lookup);
    assert FindOrCreate(cfg, t, idx, key, filename, title', draws) == CreateNewFile(cfg, t, filename, title', key, draws);
    NewNoteLands(cfg, t, filename, title', key, draws);
  }

  /** A note created under a free name lands at that name, in the folder of
      its category. */
  lemma NewNoteLands(cfg: Config, t: Tree, filename: string, title: string, url: string, draws: seq<nat>)
    requires ValidDraws(draws) && !PathExists(t, filename)
    requires CreateNewFile(cfg, t, filename, title, url, draws).Ok?
    ensures var c := CreateNewFile(cfg, t, filename, title, url, draws).value;
      c.1 == GetPrefixedFilename(cfg, filename) && PathExists(c.0, c.1)
  {
    assert PickName(t, filename, title, draws) == Some(filename);
  }

  /** Creating the note of a new page and resolving the page again: the
      second call finds the note where the first put it and changes
      nothing. */
  lemma CreateThenConfirm(cfg: Config, t: Tree, idx: Index, url: string, title: string,
                          lookup: string -> Option<JiraInterface.JiraIssue>, draws: seq<nat>, draws': seq<nat>)
    requires ValidDraws(draws) && ValidDraws(draws') && DistinctKeys(idx)
    requires !HasKey(idx, PageKey(url, title, lookup))
    requires !PathExists(t, PageFilename(url, title, lookup))
    requires Resolve(cfg, t, idx, url, title, lookup, draws).Ok?
    ensures var o := Resolve(cfg, t, idx, url, title, lookup, draws).value;
      Resolve(cfg, o.tree, o.index, url, title, lookup, draws') == Ok(o)
  {
    CreateLandsWhereExpected(cfg, t, idx, url, title, lookup, draws);
    ConfirmIsStable(cfg, t, idx, url, title, lookup, draws, draws');
  }

  /** An indexed page whose note is not where it is expected goes through
      `Relocate`, and the index then points at what it returns. */
  lemma ResolveRelocates(cfg: Config, t: Tree, idx: Index, url: string, title: string,
                         lookup: string -> Option<JiraInterface.JiraIssue>, draws: seq<nat>)
    requires ValidDraws(draws)
    requires HasKey(idx, PageKey(url, title, lookup))
    requires !PathExists(t, GetPrefixedFilename(cfg, PageFilename(url, title, lookup)))
    ensures var r := Resolve(cfg, t, idx, url, title, lookup, draws);
      var m := Relocate(cfg, t, Get(idx, PageKey(url, title, lookup)).value, PageFilename(url, title, lookup),
                        HandleSpecialJiraCases(url, title, lookup).1, PageKey(url, title, lookup), draws);
      (r.Ok? <==> m.Ok?) && (r.Ok? ==> r.value.tree == m.value.0 && r.value.name == m.value.1)
  {
    var key := PageKey(url, title, lookup);
    var filename := PageFilename(url, title, lookup);
    var m := Relocate(cfg, t, Get(idx, key).value, filename, HandleSpecialJiraCases(url, title, lookup).1, key, draws);
    var r := Resolve(cfg, t, idx, url, title, lookup, draws);
    if m.Ok? {
      assert r == Ok(Outcome(m.value.0, Put(idx, key, m.value.1), m.value.1));
    } else {
      assert r == Err(m.error);
    }
  }

  /** A new page is created through `create_new_file`, and the index then
      points at what it returns. */
  lemma ResolveCreates(cfg: Config, t: Tree, idx: Index, url: string, title: string,
                       lookup: string -> Option<JiraInterface.JiraIssue>, draws: seq<nat>)
    requires ValidDraws(draws)
    requires !HasKey(idx, PageKey(url, title, lookup))
    ensures var r := Resolve(cfg, t, idx, url, title, lookup, draws);
      var c := CreateNewFile(cfg, t, PageFilename(url, title, lookup),
                             HandleSpecialJiraCases(url, title, lookup).1, PageKey(url, title, lookup), draws);
      (r.Ok? <==> c.Ok?) && (r.Ok? ==> r.value.tree == c.value.0 && r.value.name == c.value.1)
  {
    var key := PageKey(url, title, lookup);
    var c := CreateNewFile(cfg, t, PageFilename(url, title, lookup), HandleSpecialJiraCases(url, title, lookup).1, key, draws);
    var r := Resolve(cfg, t, idx, url, title, lookup, draws);
    if c.Ok? {
      assert r == Ok(Outcome(c.value.0, Put(idx, key, c.value.1), c.value.1));
    } else {
      assert r == Err(c.error);
    }
  }

  /** No file name ends in white space. */
  predicate NamesStripped(t: Tree) {
    forall a, k | 0 <= a < |t| && 0 <= k < |t[a].files| :: RStrip(t[a].files[k].name) == t[a].files[k].name
  }

  /** In a well-formed tree without padded file names, the path the engine
      returns exists afterwards, whichever branch it took. */
  lemma NoteExistsAfter(cfg: Config, t: Tree, idx: Index, url: string, title: string,
                        lookup: string -> Option<JiraInterface.JiraIssue>, draws: seq<nat>)
    requires ValidDraws(draws) && WellFormed(t) && NamesStripped(t)
    requires Resolve(cfg, t, idx, url, title, lookup, draws).Ok?
    ensures var o := Resolve(cfg, t, idx, url, title, lookup, draws).value;
      PathExists(o.tree, o.name)
  {
    var key := PageKey(url, title, lookup);
    var filename := PageFilename(url, title, lookup);
    if !HasKey(idx, key) {
      ResolveCreates(cfg, t, idx, url, title, lookup, draws);
    } else if !PathExists(t, GetPrefixedFilename(cfg, filename)) {
      ResolveRelocates(cfg, t, idx, url, title, lookup, draws);
      RelocateExists(cfg, t, Get(idx, key).value, filename, HandleSpecialJiraCases(url, title, lookup).1, key, draws);
    }
  }

  /** Whichever way `Relocate` succeeds, the path it returns exists, as
      long as no file name is padded. */
  lemma RelocateExists(cfg: Config, t: Tree, previous: string, filename: string, title: string, url: string,
                       draws: seq<nat>)
    requires '/' !in filename && filename != "" && HasToken(filename) && ValidDraws(draws)
    requires WellFormed(t) && NamesStripped(t)
    requires Relocate(cfg, t, previous, filename, title, url, draws).Ok?
    ensures var m := Relocate(cfg, t, previous, filename, title, url, draws).value;
      PathExists(m.0, m.1)
  {
    if !PathExists(t, previous) && Find(t, [previous, filename]).Some? {
      FindGivesFile(t, [previous, filename]);
    }
  }

  /** A name picked by `create_new_file` holds no slash when the filename
      and the title hold none. */
  lemma PickedIsComponent(t: Tree, filename: string, title: string, draws: seq<nat>)
    requires '/' !in filename && '/' !in title
    requires PickName(t, filename, title, draws).Some?
    ensures '/' !in PickName(t, filename, title, draws).value
  {
    var name := PickName(t, filename, title, draws).value;
    if name != filename {
      var i :| 0 <= i < |draws| && name == Candidate(title, draws[i]);
      assert '/' !in NatToString(draws[i]);
    }
  }

  /** Creating a note leaves a file that was already at the notes root in
      place, and the created note is not that file. */
  lemma CreateKeepsRootFile(cfg: Config, t: Tree, filename: string, title: string, url: string,
                            draws: seq<nat>, f: string)
    requires ValidDraws(draws) && '/' !in filename && '/' !in title
    requires '/' !in f && IsFile(t, f)
    requires CreateNewFile(cfg, t, filename, title, url, draws).Ok?
    ensures var r := CreateNewFile(cfg, t, filename, title, url, draws).value;
      r.1 != f && Lookup(r.0, f) == Lookup(t, f)
  {
    var r := CreateNewFile(cfg, t, filename, title, url, draws).value;
    var name := PickName(t, filename, title, draws).value;
    PickedIsComponent(t, filename, title, draws);
    assert name != f;
    SplitJoin("", f);
    SplitJoin("", name);
    SplitJoin(Folder(cfg, Classify(cfg, name)), name);
    assert DirName(r.1) != DirName(f) || BaseName(r.1) != BaseName(f);
  }

  /** A collision when creating a note leaves the index pointing at a fresh
      name, but the next call for the same page finds the colliding file
      where it expects the note and points the index at that file instead. */
  lemma CollisionRepoints(cfg: Config, t: Tree, idx: Index, url: string, title: string,
                          lookup: string -> Option<JiraInterface.JiraIssue>, draws: seq<nat>, draws': seq<nat>)
    requires ValidDraws(draws) && ValidDraws(draws')
    requires !HasKey(idx, PageKey(url, title, lookup))
    requires IsFile(t, PageFilename(url, title, lookup))
    requires Classify(cfg, PageFilename(url, title, lookup)) == NoTemplate
    requires '/' !in HandleSpecialJiraCases(url, title, lookup).1
    requires Resolve(cfg, t, idx, url, title, lookup, draws).Ok?
    ensures var o := Resolve(cfg, t, idx, url, title, lookup, draws).value;
      var filename := PageFilename(url, title, lookup);
      && o.name != filename
      && Resolve(cfg, o.tree, o.index, url, title, lookup, draws') ==
           Ok(Outcome(o.tree, Put(o.index, PageKey(url, title, lookup), filename), filename))
  {
    var key := PageKey(url, title, lookup);
    var filename := PageFilename(url, title, lookup);
    var title' := HandleSpecialJiraCases(url, title, lookup).1;
    ResolveCreates(cfg, t, idx, url, title, lookup, draws);
    CreateKeepsRootFile(cfg, t, filename, title', key, draws, filename);
    var o := Resolve(cfg, t, idx, url, title, lookup, draws).value;
    GetPut(idx, key, o.name, key);
    ResolveConfirmed(cfg, o.tree, o.index, url, title, lookup, draws');
  }

  /** Creating a templated note writes over a file of the same name already
      in the category folder: the free-name test looks only at the notes
      root. */
  lemma TemplatedCreateOverwrites(cfg: Config, t: Tree, filename: string, title: string, url: string, draws: seq<nat>)
    requires ValidDraws(draws) && '/' !in filename && filename != ""
    requires !PathExists(t, filename) && Classify(cfg, filename) != NoTemplate
    requires TemplatePath(cfg, Classify(cfg, filename)) in cfg.templates
    requires var p := PathJoin(Folder(cfg, Classify(cfg, filename)), filename);
      IsFile(t, p) && !IsDir(t, p)
    ensures var p := PathJoin(Folder(cfg, Classify(cfg, filename)), filename);
      var r := CreateNewFile(cfg, t, filename, title, url, draws);
      && r.Ok? && r.value.1 == p
      && Lookup(r.value.0, p) == Some(TemplateText(Classify(cfg, filename),
                                                   cfg.templates[TemplatePath(cfg, Classify(cfg, filename))], p, url))
  {
    var p := PathJoin(Folder(cfg, Classify(cfg, filename)), filename);
    SplitJoin(Folder(cfg, Classify(cfg, filename)), filename);
    assert WriteFile(t, p, TemplateText(Classify(cfg, filename),
                                        cfg.templates[TemplatePath(cfg, Classify(cfg, filename))], p, url)).Ok?;
  }

  /** The index text written after a call loads back as the loaded index
      with the page's entry set, when the address and note path are ones a
      record can hold. */
  lemma SavedIndexReloads(cfg: Config, t: Tree, indexText: string, url: string, title: string,
                          lookup: string -> Option<JiraInterface.JiraIssue>, draws: seq<nat>)
    requires ValidDraws(draws)
    requires GetOrCreateFile(cfg, t, indexText, url, title, lookup, draws).Ok?
    requires CleanKey(PageKey(url, title, lookup))
    requires CleanValue(GetOrCreateFile(cfg, t, indexText, url, title, lookup, draws).value.2)
    ensures var r := GetOrCreateFile(cfg, t, indexText, url, title, lookup, draws).value;
      ParseIndex(r.1) == Put(ParseIndex(indexText), PageKey(url, title, lookup), r.2)
  {
    var idx := ParseIndex(indexText);
    var r := GetOrCreateFile(cfg, t, indexText, url, title, lookup, draws).value;
    var key := PageKey(url, title, lookup);
    PutClean(idx, key, r.2);
    RoundTrip(Put(idx, key, r.2));
  }
}

=== FILE: NotesTree.dfy ===
/** The notes directory as the tool sees it: the directories `os.walk`
    visits, in visiting order, each with its files. Paths are relative to
    the notes root, whose own path is the empty string, and use '/' as
    separator. */
module NotesTree {
  import opened Wrappers
  import opened Strings

  datatype File = File(name: string, content: string)
  datatype Dir = Dir(path: string, files: seq<File>)

  /** The directories in walk order; the first is the notes root. */
  type Tree = seq<Dir>

  /** Why a filesystem call raises. */
  datatype FsError = FileNotFound | IsADirectory | DirectoryRename

  /** `os.path.join(d, n)` for a relative `n`, with the root as "". */
  function PathJoin(d: string, n: string): (p: string)
    ensures d == "" ==> p == n
    ensures d != "" ==> StartsWith(p, d) && |p| == |d| + 1 + |n| && p[|d|] == '/' && p[|d| + 1..] == n
  {
    if d == "" then n else d + "/" + n
  }

  /** The position of the last '/' in `p`. */
  function LastSlash(p: string): (r: Option<nat>)
    ensures r.None? ==> '/' !in p
    ensures r.Some? ==> r.value < |p| && p[r.value] == '/' && '/' !in p[r.value + 1..]
  {
    if p == [] then None
    else if p[|p| - 1] == '/' then Some(|p| - 1)
    else
      var r := LastSlash(p[..|p| - 1]);
      assert r.Some? ==> p[r.value + 1..] == p[..|p| - 1][r.value + 1..] + [p[|p| - 1]];
      r
  }

  /** `os.path.split(p)[0]`, relative to the root. */
  function DirName(p: string): string {
    match LastSlash(p)
    case None => ""
    case Some(i) => p[..i]
  }

  /** `os.path.split(p)[1]`. */
  function BaseName(p: string): (n: string)
    ensures '/' !in n
  {
    match LastSlash(p)
    case None => p
    case Some(i) => p[i + 1..]
  }

  /** Splitting a joined path gives its parts back. */
  lemma SplitJoin(d: string, n: string)
    requires '/' !in n
    ensures DirName(PathJoin(d, n)) == d && BaseName(PathJoin(d, n)) == n
  {
    var p := PathJoin(d, n);
    if d != "" {
      var r := LastSlash(p);
      assert p[|d|] == '/';
      assert r.Some? && r.value == |d|;
      assert p[..|d|] == d;
    }
  }

  /** A path equal to the join of its own split: no leading, trailing or
      doubled '/'. */
  predicate Canonical(p: string) {
    PathJoin(DirName(p), BaseName(p)) == p
  }

  /** The directory paths in walk order. */
  function Paths(t: Tree): (r: seq<string>)
    ensures |r| == |t| && forall i | 0 <= i < |t| :: r[i] == t[i].path
  {
    if t == [] then [] else [t[0].path] + Paths(t[1..])
  }

  predicate IsDir(t: Tree, p: string) {
    p in Paths(t)
  }

  /** The content of the first file named `n` among `files`. */
  function FileIn(files: seq<File>, n: string): (r: Option<string>)
    ensures r.Some? <==> exists k | 0 <= k < |files| :: files[k].name == n
    ensures r.Some? ==> File(n, r.value) in files
  {
    if files == [] then None
    else if files[0].name == n then Some(files[0].content)
    else
      var r := FileIn(files[1..], n);
      assert forall k | 1 <= k < |files| :: files[k] == files[1..][k - 1];
      r
  }

  /** No two files of a directory share a name. */
  predicate DistinctNames(files: seq<File>) {
    forall k, l | 0 <= k < l < |files| :: files[k].name != files[l].name
  }

  /** The content of file `n` in the first directory with path `d`. */
  function FileAt(t: Tree, d: string, n: string): (r: Option<string>)
    ensures r.Some? ==> IsDir(t, d)
  {
    if t == [] then None
    else if t[0].path == d then FileIn(t[0].files, n)
    else FileAt(t[1..], d, n)
  }

  /** The content of the file at path `p`. */
  function Lookup(t: Tree, p: string): Option<string> {
    FileAt(t, DirName(p), BaseName(p))
  }

  predicate IsFile(t: Tree, p: string) {
    Lookup(t, p).Some?
  }

  /** `os.path.exists(p)`: a file or a directory. */
  predicate PathExists(t: Tree, p: string) {
    IsDir(t, p) || IsFile(t, p)
  }

  /** The shape `os.walk` gives: the root first, directory paths distinct,
      file names non-empty, without '/', distinct within their directory,
      and no file at the path of a directory. */
  predicate WellFormed(t: Tree) {
    && |t| > 0 && t[0].path == ""
    && (forall i, j | 0 <= i < j < |t| :: t[i].path != t[j].path)
    && (forall i, k | 0 <= i < |t| && 0 <= k < |t[i].files| ::
          t[i].files[k].name != "" && '/' !in t[i].files[k].name)
    && (forall i | 0 <= i < |t| :: DistinctNames(t[i].files))
    && (forall i, k | 0 <= i < |t| && 0 <= k < |t[i].files| ::
          !IsDir(t, PathJoin(t[i].path, t[i].files[k].name)))
  }

  /** The files of a directory after `open(n, 'w').write(c)`: an existing
      file keeps its place, a new one goes last. */
  function SetFile(files: seq<File>, n: string, c: string): (r: seq<File>)
    ensures FileIn(r, n) == Some(c)
    ensures forall m | m != n :: FileIn(r, m) == FileIn(files, m)
    ensures forall k | 0 <= k < |r| :: r[k].name == n || r[k] in files
  {
    if files == [] then [File(n, c)]
    else if files[0].name == n then [File(n, c)] + files[1..]
    else [files[0]] + SetFile(files[1..], n, c)
  }

  /** Writing a file keeps the names of a directory distinct. */
  lemma {:induction false} SetFileDistinct(files: seq<File>, n: string, c: string)
    requires DistinctNames(files)
    ensures DistinctNames(SetFile(files, n, c))
  {
    if files != [] && files[0].name != n {
      SetFileDistinct(files[1..], n, c);
      var r := SetFile(files, n, c);
      forall k | 1 <= k < |r| ensures r[k].name != files[0].name {
        if r[k].name != n {
          var k' :| 0 <= k' < |files| && files[k'] == r[k];
          assert k' != 0 by { assert r[k] in files[1..]; }
        }
      }
    }
  }

  /** Writes file `n` of directory `d`. */
  function WriteIn(t: Tree, d: string, n: string, c: string): (r: Tree)
    ensures Paths(r) == Paths(t)
    ensures forall i | 0 <= i < |t| ::
      r[i].files == t[i].files || (t[i].path == d && r[i].files == SetFile(t[i].files, n, c))
    ensures forall d', n' ::
              FileAt(r, d', n') == (if d' == d && n' == n && IsDir(t, d) then Some(c) else FileAt(t, d', n'))
  {
    if t == [] then []
    else if t[0].path == d then [Dir(d, SetFile(t[0].files, n, c))] + t[1..]
    else [t[0]] + WriteIn(t[1..], d, n, c)
  }

  /** `open(p, 'w').write(c)`: a directory (or a path ending in '/') and a
      missing parent directory raise; otherwise the file at `p` holds `c`
      afterwards and nothing else changes. */
  function WriteFile(t: Tree, p: string, c: string): (r: Result<Tree, FsError>)
    ensures IsDir(t, p) || BaseName(p) == "" ==> r == Err(IsADirectory)
    ensures !(IsDir(t, p) || BaseName(p) == "") ==> (r.Err? <==> !IsDir(t, DirName(p)))
    ensures r.Err? ==> r.error != DirectoryRename
    ensures r.Ok? ==> Paths(r.value) == Paths(t)
    ensures r.Ok? ==> Lookup(r.value, p) == Some(c)
    ensures r.Ok? ==> forall d, n | d != DirName(p) || n != BaseName(p) :: FileAt(r.value, d, n) == FileAt(t, d, n)
  {
    if IsDir(t, p) || BaseName(p) == "" then Err(IsADirectory)
    else if !IsDir(t, DirName(p)) then Err(FileNotFound)
    else Ok(WriteIn(t, DirName(p), BaseName(p), c))
  }

  /** A tree with the directories of a well-formed tree, whose files were
      there before or are named `n` in directory `d`, is well formed when
      each directory's names stay distinct and `n` names no directory. */
  lemma WellFormedAfterChange(t: Tree, t': Tree, d: string, n: string)
    requires WellFormed(t) && Paths(t') == Paths(t)
    requires n != "" && '/' !in n && !IsDir(t, PathJoin(d, n))
    requires forall i | 0 <= i < |t'| :: DistinctNames(t'[i].files)
    requires forall i, k | 0 <= i < |t'| && 0 <= k < |t'[i].files| ::
      t'[i].files[k] in t[i].files || (t'[i].files[k].name == n && t[i].path == d)
    ensures WellFormed(t')
  {
    assert forall i | 0 <= i < |t'| :: t'[i].path == Paths(t')[i] == t[i].path;
    forall i, k | 0 <= i < |t'| && 0 <= k < |t'[i].files|
      ensures t'[i].files[k].name != "" && '/' !in t'[i].files[k].name
      ensures !IsDir(t', PathJoin(t'[i].path, t'[i].files[k].name))
    {
      var f := t'[i].files[k];
      if f in t[i].files {
        var k' :| 0 <= k' < |t[i].files| && t[i].files[k'] == f;
      }
    }
  }

  lemma WriteInWellFormed(t: Tree, d: string, n: string, c: string)
    requires WellFormed(t) && n != "" && '/' !in n && !IsDir(t, PathJoin(d, n))
    ensures WellFormed(WriteIn(t, d, n, c))
  {
    var t' := WriteIn(t, d, n, c);
    assert |t'| == |Paths(t')| == |t|;
    forall i | 0 <= i < |t'|
      ensures DistinctNames(t'[i].files)
      ensures forall k | 0 <= k < |t'[i].files| ::
        t'[i].files[k] in t[i].files || (t'[i].files[k].name == n && t[i].path == d)
    {
      if t'[i].files != t[i].files {
        SetFileDistinct(t[i].files, n, c);
      }
    }
    WellFormedAfterChange(t, t', d, n);
  }

  /** Writing a file at a canonical path keeps the tree well formed. */
  lemma WriteFileWellFormed(t: Tree, p: string, c: string)
    requires WellFormed(t) && Canonical(p) && WriteFile(t, p, c).Ok?
    ensures WellFormed(WriteFile(t, p, c).value)
  {
    WriteInWellFormed(t, DirName(p), BaseName(p), c);
  }

  /** `files` without the entries named `n`. */
  function Filter(files: seq<File>, n: string): (r: seq<File>)
    ensures FileIn(r, n).None?
    ensures forall m | m != n :: FileIn(r, m) == FileIn(files, m)
    ensures forall k | 0 <= k < |r| :: r[k] in files
    ensures DistinctNames(files) ==> DistinctNames(r)
  {
    if files == [] then []
    else if files[0].name == n then Filter(files[1..], n)
    else
      var rest := Filter(files[1..], n);
      assert forall f | f in rest :: f in files[1..];
      [files[0]] + rest
  }

  /** The first file named `a` takes the name `b`. */
  function Relabel(files: seq<File>, a: string, b: string): (r: seq<File>)
    requires FileIn(files, b).None?
    ensures FileIn(r, b) == FileIn(files, a)
    ensures forall m | m != a && m != b :: FileIn(r, m) == FileIn(files, m)
    ensures DistinctNames(files) && a != b ==> FileIn(r, a).None? && DistinctNames(r)
    ensures forall k | 0 <= k < |r| :: r[k] in files || r[k].name == b
  {
    if files == [] then []
    else if files[0].name == a then
      DistinctTail(files);
      DistinctCons(File(b, files[0].content), files[1..]);
      [File(b, files[0].content)] + files[1..]
    else
      var rest := Relabel(files[1..], a, b);
      DistinctTail(files);
      DistinctCons(files[0], rest);
      [files[0]] + rest
  }

  /** The files after the first of distinct ones are distinct, and none of
      them has the first one's name. */
  lemma DistinctTail(files: seq<File>)
    requires files != []
    ensures DistinctNames(files) ==> DistinctNames(files[1..]) && FileIn(files[1..], files[0].name).None?
  {
    if DistinctNames(files) {
      forall k | 0 <= k < |files[1..]| ensures files[1..][k].name != files[0].name {
        assert files[1..][k] == files[k + 1];
      }
    }
  }

  /** A file put in front of distinct files with other names keeps them
      distinct. */
  lemma DistinctCons(f: File, rest: seq<File>)
    ensures DistinctNames(rest) && FileIn(rest, f.name).None? ==> DistinctNames([f] + rest)
  {
    if DistinctNames(rest) && FileIn(rest, f.name).None? {
      forall k, l | 0 <= k < l < |[f] + rest| ensures ([f] + rest)[k].name != ([f] + rest)[l].name {
        if k > 0 {
          assert ([f] + rest)[k] == rest[k - 1];
        }
        assert ([f] + rest)[l] == rest[l - 1];
      }
    }
  }

  /** The files of a directory after `os.rename(a, b)` inside it: `a` takes
      the name `b`, and a file already named `b` is replaced. */
  function RenameIn(files: seq<File>, a: string, b: string): (r: seq<File>)
    ensures FileIn(r, b) == FileIn(files, a)
    ensures forall m | m != a && m != b :: FileIn(r, m) == FileIn(files, m)
    ensures DistinctNames(files) && a != b ==> FileIn(r, a).None?
    ensures DistinctNames(files) ==> DistinctNames(r)
    ensures forall k | 0 <= k < |r| :: r[k] in files || r[k].name == b
  {
    if a == b then files else Relabel(Filter(files, b), a, b)
  }

  /** Renames file `a` of directory `d` to `b`. */
  function RenameAt(t: Tree, d: string, a: string, b: string): (r: Tree)
    ensures Paths(r) == Paths(t)
    ensures forall i | 0 <= i < |t| ::
      r[i].files == t[i].files || (t[i].path == d && r[i].files == RenameIn(t[i].files, a, b))
    ensures FileAt(r, d, b) == FileAt(t, d, a)
    ensures (forall i | 0 <= i < |t| :: DistinctNames(t[i].files)) && a != b ==> FileAt(r, d, a).None?
    ensures forall d', n' | d' != d || (n' != a && n' != b) :: FileAt(r, d', n') == FileAt(t, d', n')
  {
    if t == [] then []
    else if t[0].path == d then [Dir(d, RenameIn(t[0].files, a, b))] + t[1..]
    else [t[0]] + RenameAt(t[1..], d, a, b)
  }

  /** `os.rename(src, PathJoin(DirName(src), b))`, a file renamed inside its
      own directory: a missing source and a directory as target raise;
      otherwise the file's content sits under the new name and a file of that
      name is replaced. Moving a directory is outside this model: a directory
      source is reported as `DirectoryRename` where `os.rename` would move
      it with everything below it. */
  function Rename(t: Tree, src: string, b: string): (r: Result<Tree, FsError>)
    requires '/' !in b && b != ""
    ensures IsDir(t, src) ==> r == Err(DirectoryRename)
    ensures !IsDir(t, src) && !IsFile(t, src) ==> r == Err(FileNotFound)
    ensures !IsDir(t, src) && IsFile(t, src) ==>
      (r.Err? <==> IsDir(t, PathJoin(DirName(src), b))) && (r.Err? ==> r.error == IsADirectory)
    ensures r.Ok? ==> Paths(r.value) == Paths(t)
    ensures r.Ok? ==> Lookup(r.value, PathJoin(DirName(src), b)) == Lookup(t, src)
    ensures r.Ok? ==> forall d, n | d != DirName(src) || (n != b && n != BaseName(src)) ::
      FileAt(r.value, d, n) == FileAt(t, d, n)
  {
    if IsDir(t, src) then Err(DirectoryRename)
    else if Lookup(t, src).None? then Err(FileNotFound)
    else if IsDir(t, PathJoin(DirName(src), b)) then Err(IsADirectory)
    else
      SplitJoin(DirName(src), b);
      Ok(RenameAt(t, DirName(src), BaseName(src), b))
  }

  /** Renaming a file keeps the tree well formed, and the file is gone from
      its old name. */
  lemma RenameWellFormed(t: Tree, src: string, b: string)
    requires WellFormed(t) && '/' !in b && b != "" && Rename(t, src, b).Ok?
    ensures WellFormed(Rename(t, src, b).value)
    ensures BaseName(src) != b ==> !IsFile(Rename(t, src, b).value, src)
  {
    var d := DirName(src);
    var t' := RenameAt(t, d, BaseName(src), b);
    assert Rename(t, src, b).value == t';
    RenamedFiles(t, d, BaseName(src), b);
    WellFormedAfterChange(t, t', d, b);
  }

  /** Every directory's files after a rename are still distinct, and each
      is an old file of the directory or the renamed one. */
  lemma RenamedFiles(t: Tree, d: string, a: string, b: string)
    requires forall i | 0 <= i < |t| :: DistinctNames(t[i].files)
    ensures var t' := RenameAt(t, d, a, b);
      && |t'| == |t|
      && (forall i | 0 <= i < |t'| :: DistinctNames(t'[i].files))
      && (forall i, k | 0 <= i < |t'| && 0 <= k < |t'[i].files| ::
            t'[i].files[k] in t[i].files || (t'[i].files[k].name == b && t[i].path == d))
  {
    var t' := RenameAt(t, d, a, b);
    assert |t'| == |Paths(t')| == |t|;
    forall i | 0 <= i < |t'|
      ensures DistinctNames(t'[i].files)
      ensures forall k | 0 <= k < |t'[i].files| ::
        t'[i].files[k] in t[i].files || (t'[i].files[k].name == b && t[i].path == d)
    {
    }
  }
}

=== FILE: SprintRefinement.dfy ===
/** The helpers of the sprint-refinement workflow: the date and title of
    the next refinement meeting, the HTML bullet list of the issues to
    discuss, and the collection of the first open issues over the team's
    sprints. The clock, the calendar conversion and the issue tracker are
    parameters. */
module SprintRefinement {
  import opened Wrappers
  import opened Strings

  /** Python's `date.weekday()` of a proleptic Gregorian ordinal
      (`date.toordinal()`, day 1 being Monday 1 January of year 1):
      Monday is 0 and Sunday 6. */
  function Weekday(ordinal: int): (w: int)
    ensures 0 <= w < 7
  {
    (ordinal + 6) % 7
  }

  const Tuesday := 1
  const Thursday := 3

  /** The day of month, month and year of an ordinal, as `date.day`,
      `date.month` and `date.year` give them. */
  datatype Date = Date(day: nat, month: nat, year: nat)

  /** Python's `c.upper()` for the characters whose upper case is one of
      the ASCII capitals: the ASCII small letters, and the dotless small i,
      which `upper()` also maps to `I`. */
  function UpperChar(c: char): char {
    if 'a' <= c <= 'z' then (c as int - 32) as char
    else if c == 'ı' then 'I'
    else c
  }

  /** `s.upper() == t` for a `t` made of ASCII capitals. */
  predicate UpperIs(s: string, t: string) {
    |s| == |t| && forall i | 0 <= i < |s| :: UpperChar(s[i]) == t[i]
  }

  /** The weekdays `get_title` looks for: Tuesday and Thursday by default,
      one of them for the arguments `DI` and `DO` in any case; any other
      argument leaves `days` unbound, and its first use raises. */
  function RefinementDays(day: Option<string>): (r: Result<seq<int>, Raised>)
    ensures day.None? || day.value == "" ==> r == Ok([Tuesday, Thursday])
    ensures r.Ok? ==> Tuesday in r.value || Thursday in r.value
    ensures r.Ok? ==> forall i | 0 <= i < |r.value| :: r.value[i] == Tuesday || r.value[i] == Thursday
    ensures r.Err? <==> day.Some? && day.value != "" && !UpperIs(day.value, "DI") && !UpperIs(day.value, "DO")
    ensures r.Err? ==> r.error == UnboundLocalError
  {
    if day.None? || day.value == "" then Ok([Tuesday, Thursday])
    else if UpperIs(day.value, "DI") then Ok([Tuesday])
    else if UpperIs(day.value, "DO") then Ok([Thursday])
    else Err(UnboundLocalError)
  }

  /** `d` is the first day on or after `today` whose weekday is in `days`. */
  predicate IsFirstDay(today: int, days: seq<int>, d: int) {
    today <= d && Weekday(d) in days && forall e | today <= e < d :: Weekday(e) !in days
  }

  /** Walking forward from `today` reaches weekday `w` after
      `(w - weekday(today)) mod 7` days. */
  lemma WeekdayAhead(today: int, w: int)
    requires 0 <= w < 7
    ensures Weekday(today + (w - Weekday(today)) % 7) == w
  {
    var k := (w - Weekday(today)) % 7;
    var q := (today + 6) / 7;
    assert today + 6 == 7 * q + Weekday(today);
    var q' := (w - Weekday(today)) / 7;
    assert w - Weekday(today) == 7 * q' + k;
    assert today + k + 6 == 7 * (q - q') + w;
  }

  /** The loop of `get_title`: step forward a day at a time until the
      weekday is one of `days`. */
  method NextRefinementDay(today: int, days: seq<int>) returns (d: int)
    requires exists i | 0 <= i < |days| :: 0 <= days[i] < 7
    ensures IsFirstDay(today, days, d)
    ensures d - today <= 6
  {
    var i :| 0 <= i < |days| && 0 <= days[i] < 7;
    var target := today + (days[i] - Weekday(today)) % 7;
    WeekdayAhead(today, days[i]);
    d := today;
    while Weekday(d) !in days
      invariant today <= d <= target
      invariant forall e | today <= e < d :: Weekday(e) !in days
      decreases target - d
    {
      d := d + 1;
    }
  }

  /** Python's `s.title()` for a word of ASCII letters. */
  function TitleWord(s: string): string {
    if s == [] then [] else [UpperChar(s[0])] + AsciiLower(s[1..])
  }

  /** The abbreviated day name: "Di" for Tuesday, "DO" for any other day;
      the title shows it title-cased. */
  function DayName(weekday: int): string {
    if weekday == Tuesday then "Di" else "DO"
  }

  const TitlePrefix := "Programm Refinement, "

  /** A date as `day.month.year`, without padding. */
  function DateText(date: Date): string {
    NatToString(date.day) + "." + NatToString(date.month) + "." + NatToString(date.year)
  }

  /** The title for a meeting on a day with the given weekday and date. */
  function TitleFor(weekday: int, date: Date): (r: string)
    ensures StartsWith(r, TitlePrefix)
  {
    TitlePrefix + TitleWord(DayName(weekday)) + ". " + DateText(date)
  }

  /** The shown day name is "Di" for Tuesday and "Do" otherwise. */
  lemma TitleDayNames()
    ensures TitleWord(DayName(Tuesday)) == "Di"
    ensures forall w | w != Tuesday :: TitleWord(DayName(w)) == "Do"
  {
    assert AsciiLower("i") == "i";
    assert AsciiLower("O") == "o";
  }

  /** Splitting `a + [c] + b` at `c`, for an `a` without `c`, reads `a` and
      `b` back, so equal such strings have equal parts. */
  lemma SplitEqual(a: string, b: string, a': string, b': string, c: char)
    requires c !in a && c !in a'
    requires a + [c] + b == a' + [c] + b'
    ensures a == a' && b == b'
  {
    SplitAtChar(a, c, b);
    SplitAtChar(a', c, b');
  }

  lemma NoDotInNumber(n: nat)
    ensures '.' !in NatToString(n)
  {
    var s := NatToString(n);
    forall i | 0 <= i < |s| ensures s[i] != '.' {
      assert IsDigit(s[i]);
    }
  }

  /** The date text as day, dot, and the rest; day and month hold no dot. */
  lemma DateTextShape(x: Date)
    ensures var d, m, y := NatToString(x.day), NatToString(x.month), NatToString(x.year);
      && DateText(x) == d + ['.'] + (m + ['.'] + y)
      && '.' !in d && '.' !in m
  {
    NoDotInNumber(x.day);
    NoDotInNumber(x.month);
  }

  /** The date text determines the date. */
  lemma DateTextInjective(a: Date, b: Date)
    requires DateText(a) == DateText(b)
    ensures a == b
  {
    var d, m, y := NatToString(a.day), NatToString(a.month), NatToString(a.year);
    var d', m', y' := NatToString(b.day), NatToString(b.month), NatToString(b.year);
    DateTextShape(a);
    DateTextShape(b);
    SplitEqual(d, m + ['.'] + y, d', m' + ['.'] + y', '.');
    SplitEqual(m, y, m', y', '.');
    NatToStringInjective(a.day, b.day);
    NatToStringInjective(a.month, b.month);
    NatToStringInjective(a.year, b.year);
  }

  /** The title determines the date and whether the day is a Tuesday. */
  lemma TitleDeterminesDate(w: int, date: Date, w': int, date': Date)
    requires TitleFor(w, date) == TitleFor(w', date')
    ensures date == date'
    ensures w == Tuesday <==> w' == Tuesday
  {
    TitleDayNames();
    var n, n' := TitleWord(DayName(w)), TitleWord(DayName(w'));
    var t, t' := " " + DateText(date), " " + DateText(date');
    assert '.' !in TitlePrefix + n && '.' !in TitlePrefix + n';
    assert TitleFor(w, date) == (TitlePrefix + n) + ['.'] + t;
    assert TitleFor(w', date') == (TitlePrefix + n') + ['.'] + t';
    SplitEqual(TitlePrefix + n, t, TitlePrefix + n', t', '.');
    assert DateText(date) == t[1..] && DateText(date') == t'[1..];
    DateTextInjective(date, date');
    assert n == (TitlePrefix + n)[|TitlePrefix|..];
    assert n' == (TitlePrefix + n')[|TitlePrefix|..];
  }

  /** `get_title`: the title of the next refinement meeting on or after
      `today`. */
  method GetTitle(day: Option<string>, today: int, calendar: int -> Date) returns (r: Result<string, Raised>)
    ensures r.Err? <==> RefinementDays(day).Err?
    ensures r.Ok? ==> exists d :: (d - today <= 6 && IsFirstDay(today, RefinementDays(day).value, d)
      && r.value == TitleFor(Weekday(d), calendar(d)))
  {
    var days := RefinementDays(day);
    if days.Err? {
      return Err(days.error);
    }
    assert 0 <= days.value[0] < 7;
    var d := NextRefinementDay(today, days.value);
    r := Ok(TitleFor(Weekday(d), calendar(d)));
  }

  const Marker := " (wenn Zeit)"

  /** One list item; the last one carries the marker. */
  function Item(url: string, title: string, last: bool): string {
    "<li><a href=\"" + url + "\"" + " target=\"_blank\">" + title + "</a>" + (if last then Marker else "") + "</li>"
  }

  /** The items of the loop of `make_clickable_bullet_list`, in input
      order. */
  function Items(pairs: seq<(string, string)>): (r: seq<string>)
    ensures |r| == |pairs|
    ensures forall i | 0 <= i < |pairs| :: r[i] == Item(pairs[i].0, pairs[i].1, i == |pairs| - 1)
  {
    seq(|pairs|, i requires 0 <= i < |pairs| => Item(pairs[i].0, pairs[i].1, i == |pairs| - 1))
  }

  /** `make_clickable_bullet_list`. */
  function BulletList(pairs: seq<(string, string)>, title: string): (r: string)
    ensures StartsWith(r, "<strong>" + title + "</strong>\n<ul>\n")
    ensures EndsWith(r, "\n</ul>")
    ensures |"<strong>" + title + "</strong>\n<ul>\n"| + 6 <= |r|
    ensures r[|"<strong>" + title + "</strong>\n<ul>\n"|..|r| - 6] == Concat(Items(pairs))
  {
    var head := "<strong>" + title + "</strong>\n<ul>\n";
    var body := Concat(Items(pairs));
    var r := head + body + "\n</ul>";
    assert r[..|head|] == head;
    assert r[|head|..|r| - 6] == body;
    r
  }

  /** The list's body is empty without pairs; otherwise it closes with the
      marked last item. */
  lemma BulletListMarksLast(pairs: seq<(string, string)>, title: string)
    ensures var r := BulletList(pairs, title);
      var body := r[|"<strong>" + title + "</strong>\n<ul>\n"|..|r| - 6];
      (pairs == [] <==> body == "")
      && (pairs != [] ==> EndsWith(body, Items(pairs)[|pairs| - 1]) && EndsWith(body, Marker + "</li>"))
  {
    var items := Items(pairs);
    if pairs != [] {
      ConcatEndsWithLast(items);
      MarkedIffLast(pairs[|pairs| - 1].0, pairs[|pairs| - 1].1, true);
      EndsWithTrans(Concat(items), items[|items| - 1], Marker + "</li>");
    }
  }

  lemma ConcatEndsWithLast(parts: seq<string>)
    requires parts != []
    ensures EndsWith(Concat(parts), parts[|parts| - 1])
  {
    var last := parts[|parts| - 1];
    var c := Concat(parts);
    assert c == Concat(parts[..|parts| - 1]) + last;
    assert c[|c| - |last|..] == last;
  }

  lemma EndsWithTrans(s: string, t: string, u: string)
    requires EndsWith(s, t) && EndsWith(t, u)
    ensures EndsWith(s, u)
  {
    assert s[|s| - |u|..] == s[|s| - |t|..][|t| - |u|..];
  }

  /** An item ends with the marker exactly when it is the last one,
      whatever its address and title. */
  lemma MarkedIffLast(url: string, title: string, last: bool)
    ensures EndsWith(Item(url, title, last), Marker + "</li>") <==> last
  {
    var it := Item(url, title, last);
    if !last {
      assert it[|it| - 6] == '>';
    }
  }

  /** Adding a pair turns the previous last item into a plain one and
      appends the marked item. */
  lemma ItemsAppend(pairs: seq<(string, string)>, p: (string, string))
    ensures Items(pairs + [p]) ==
      seq(|pairs|, i requires 0 <= i < |pairs| => Item(pairs[i].0, pairs[i].1, false)) + [Item(p.0, p.1, true)]
  {
  }

  lemma AfterPrefix(s: string, p: string)
    requires |p| > 0 && StartsWith(s, p)
    ensures Contains(s, p) && AfterFirst(s, p) == s[|p|..]
  {
    assert OccursAt(s, p, 0);
    assert BeforeFirst(s, p) == [];
  }

  /** A string that starts with `p`, continues with a quote-free `u` and
      then a quote reads back `u` between `p` and the quote. */
  lemma ReadsBackBetween(s: string, p: string, u: string)
    requires |p| > 0 && |p| + |u| < |s| && '"' !in u
    requires s[..|p|] == p && s[|p|..|p| + |u|] == u && s[|p| + |u|] == '"'
    ensures Contains(s, p) && BeforeFirst(AfterFirst(s, p), "\"") == u
  {
    AfterPrefix(s, p);
    var a := s[|p|..];
    assert a == u + ['"'] + a[|u| + 1..];
    SplitAtChar(u, '"', a[|u| + 1..]);
  }

  /** The address of an item reads back from its `href`, when it holds no
      double quote. */
  lemma ItemAddressReadsBack(url: string, title: string, last: bool)
    requires '"' !in url
    ensures var it := Item(url, title, last);
      Contains(it, "<li><a href=\"") && BeforeFirst(AfterFirst(it, "<li><a href=\""), "\"") == url
  {
    var it := Item(url, title, last);
    var open := "<li><a href=\"";
    assert it[..|open|] == open;
    assert it[|open|..|open| + |url|] == url;
    assert it[|open| + |url|] == '"';
    ReadsBackBetween(it, open, url);
  }

  /** A sprint as the tracker lists it. */
  datatype Sprint = Sprint(id: nat, name: string)

  /** The team's sprints: those whose name contains `PHX`. */
  function PhxSprints(sprints: seq<Sprint>): (r: seq<Sprint>)
    ensures forall i | 0 <= i < |r| :: Contains(r[i].name, "PHX")
    ensures multiset(r) <= multiset(sprints)
    ensures forall s | s in sprints && Contains(s.name, "PHX") :: s in r
  {
    if sprints == [] then []
    else
      var init := PhxSprints(sprints[..|sprints| - 1]);
      var last := sprints[|sprints| - 1];
      assert sprints == sprints[..|sprints| - 1] + [last];
      if Contains(last.name, "PHX") then init + [last] else init
  }

  /** The filter keeps input order: it distributes over concatenation. */
  lemma {:induction false} PhxSprintsAppend(a: seq<Sprint>, b: seq<Sprint>)
    ensures PhxSprints(a + b) == PhxSprints(a) + PhxSprints(b)
    decreases |b|
  {
    if b == [] {
      assert a + b == a;
    } else {
      var init := b[..|b| - 1];
      var last := b[|b| - 1];
      var x := a + init;
      PhxSprintsAppend(a, init);
      PhxSprintsSnoc(x, last);
      PhxSprintsSnoc(init, last);
      SnocSplit(a, b);
      SeqAssoc(PhxSprints(a), PhxSprints(init), if Contains(last.name, "PHX") then [last] else []);
    }
  }

  /** Each sprint is kept as often as it occurs when its name contains
      `PHX`, and not at all otherwise. */
  lemma {:induction false} PhxSprintsCount(sprints: seq<Sprint>, s: Sprint)
    ensures multiset(PhxSprints(sprints))[s] == if Contains(s.name, "PHX") then multiset(sprints)[s] else 0
    decreases |sprints|
  {
    if sprints != [] {
      var init := sprints[..|sprints| - 1];
      var last := sprints[|sprints| - 1];
      PhxSprintsCount(init, s);
      PhxSprintsSnoc(init, last);
      SnocSplit([], sprints);
      SnocMultiset(init, last);
    }
  }

  lemma SnocSplit<T>(a: seq<T>, b: seq<T>)
    requires b != []
    ensures a + b == (a + b[..|b| - 1]) + [b[|b| - 1]]
    ensures b == b[..|b| - 1] + [b[|b| - 1]]
    ensures [] + b == b
  {
  }

  lemma SnocMultiset<T>(init: seq<T>, last: T)
    ensures multiset(init + [last]) == multiset(init) + multiset{last}
  {
  }

  lemma SeqAssoc<T>(a: seq<T>, b: seq<T>, c: seq<T>)
    ensures a + b + c == a + (b + c)
  {
  }

  lemma PhxSprintsSnoc(ss: seq<Sprint>, last: Sprint)
    ensures PhxSprints(ss + [last]) == PhxSprints(ss) + (if Contains(last.name, "PHX") then [last] else [])
  {
    var all := ss + [last];
    assert all[..|all| - 1] == ss && all[|all| - 1] == last;
  }

  predicate SortedByName(ss: seq<Sprint>) {
    forall i | 0 < i < |ss| :: LexLe(ss[i - 1].name, ss[i].name)
  }

  /** Inserts `x` after every sprint whose name is not greater. */
  function Insert(x: Sprint, ss: seq<Sprint>): (r: seq<Sprint>)
    requires SortedByName(ss)
    ensures SortedByName(r)
    ensures multiset(r) == multiset(ss) + multiset{x}
    ensures r[|r| - 1] == x || (ss != [] && r[|r| - 1] == ss[|ss| - 1])
  {
    if ss == [] then [x]
    else
      var last := ss[|ss| - 1];
      var init := ss[..|ss| - 1];
      assert ss == init + [last];
      if LexLe(last.name, x.name) then
        SortedSnoc(ss, x);
        ss + [x]
      else
        LexLeTotal(last.name, x.name);
        SortedInit(ss);
        var r := Insert(x, init);
        assert LexLe(r[|r| - 1].name, last.name);
        SortedSnoc(r, last);
        r + [last]
  }

  lemma SortedSnoc(ss: seq<Sprint>, x: Sprint)
    requires SortedByName(ss)
    requires ss != [] ==> LexLe(ss[|ss| - 1].name, x.name)
    ensures SortedByName(ss + [x])
  {
    var r := ss + [x];
    forall i | 0 < i < |r| ensures LexLe(r[i - 1].name, r[i].name) {
      if i < |ss| {
        assert r[i - 1] == ss[i - 1] && r[i] == ss[i];
      }
    }
  }

  lemma SortedInit(ss: seq<Sprint>)
    requires SortedByName(ss) && ss != []
    ensures SortedByName(ss[..|ss| - 1])
    ensures |ss| > 1 ==> LexLe(ss[|ss| - 2].name, ss[|ss| - 1].name)
  {
  }

  /** `sorted(sprints, key=lambda s: s.name)`: insertion sort that keeps
      sprints of equal name in input order. */
  function SortByName(ss: seq<Sprint>): (r: seq<Sprint>)
    ensures SortedByName(r)
    ensures multiset(r) == multiset(ss)
  {
    if ss == [] then []
    else
      assert ss == ss[..|ss| - 1] + [ss[|ss| - 1]];
      Insert(ss[|ss| - 1], SortByName(ss[..|ss| - 1]))
  }

  /** The backlog query for a sprint's open stories. */
  function Query(id: nat): string {
    "Sprint = " + NatToString(id) + " AND status IN (Open, \"To be Discussed\") ORDER BY RANK ASC"
  }

  /** The story keys of the sprints, concatenated in order. */
  function Stories(ss: seq<Sprint>, backlog: string -> seq<string>): seq<string> {
    if ss == [] then [] else Stories(ss[..|ss| - 1], backlog) + backlog(Query(ss[|ss| - 1].id))
  }

  /** The stories of a prefix of the sprints are a prefix of the stories. */
  lemma {:induction false} StoriesPrefix(ss: seq<Sprint>, i: nat, backlog: string -> seq<string>)
    requires i <= |ss|
    ensures Stories(ss[..i], backlog) <= Stories(ss, backlog)
    decreases |ss|
  {
    if i < |ss| {
      StoriesPrefix(ss[..|ss| - 1], i, backlog);
      assert ss[..|ss| - 1][..i] == ss[..i];
    } else {
      assert ss[..i] == ss;
    }
  }

  /** Taking one more sprint appends its stories. */
  lemma StoriesStep(ss: seq<Sprint>, i: nat, backlog: string -> seq<string>)
    requires i < |ss|
    ensures Stories(ss[..i + 1], backlog) == Stories(ss[..i], backlog) + backlog(Query(ss[i].id))
  {
    assert ss[..i + 1][..i] == ss[..i];
  }

  /** Once the stories of the first `i` sprints number at least `n`, their
      first `n` are the first `n` of all the stories. */
  lemma StoriesEnough(ss: seq<Sprint>, i: nat, n: int, backlog: string -> seq<string>)
    requires i <= |ss| && n <= |Stories(ss[..i], backlog)|
    ensures n <= |Stories(ss, backlog)|
    ensures 0 < n ==> Stories(ss[..i], backlog)[..n] == Stories(ss, backlog)[..n]
  {
    StoriesPrefix(ss, i, backlog);
  }

  /** The loop of `get_issue_numbers`: gathers the stories of the sprints
      in order until there are at least `n`, and raises when it runs out of
      sprints first. */
  method CollectStories(n: int, ordered: seq<Sprint>, backlog: string -> seq<string>)
    returns (r: Result<seq<string>, Raised>)
    ensures r.Ok? <==> n <= |Stories(ordered, backlog)|
    ensures r.Ok? ==> r.value == (if n <= 0 then [] else Stories(ordered, backlog)[..n])
    ensures r.Err? ==> r.error == IndexError
  {
    var issues: seq<string> := [];
    var i := 0;
    while |issues| < n
      invariant 0 <= i <= |ordered|
      invariant issues == Stories(ordered[..i], backlog)
      decreases |ordered| - i
    {
      if i >= |ordered| {
        assert ordered[..i] == ordered;
        return Err(IndexError);
      }
      StoriesStep(ordered, i, backlog);
      issues := issues + backlog(Query(ordered[i].id));
      i := i + 1;
    }
    StoriesEnough(ordered, i, n, backlog);
    if n <= 0 {
      r := Ok([]);
    } else {
      r := Ok(issues[..n]);
    }
  }

  /** `get_issue_numbers`: the first `n` story keys of the team's sprints
      in name order; asking for more than there are runs past the last
      sprint and raises. */
  method GetIssueNumbers(n: int, sprints: seq<Sprint>, backlog: string -> seq<string>)
    returns (r: Result<seq<string>, Raised>)
    ensures var all := Stories(SortByName(PhxSprints(sprints)), backlog);
      && (r.Ok? <==> n <= |all|)
      && (r.Ok? ==> r.value == (if n <= 0 then [] else all[..n]))
      && (r.Err? ==> r.error == IndexError)
  {
    r := CollectStories(n, SortByName(PhxSprints(sprints)), backlog);
  }
}

=== FILE: Strings.dfy ===
/** The Python `str` operations the modelled code relies on, over `string`
    (a sequence of Unicode code points): white-space stripping, prefix and
    suffix tests, substring search, `split`-based field extraction,
    `replace` and `str()` of a non-negative integer. */
module Strings {
  import opened Wrappers

  /** Python's `str.isspace()` for one character: the characters that
      `strip()`, `split()` and the regular-expression class `\s` treat as
      white space. */
  predicate IsSpace(c: char) {
    var n := c as int;
    || (0x09 <= n <= 0x0d)
    || (0x1c <= n <= 0x20)
    || n == 0x85 || n == 0xa0 || n == 0x1680
    || (0x2000 <= n <= 0x200a)
    || n == 0x2028 || n == 0x2029 || n == 0x202f || n == 0x205f || n == 0x3000
  }

  /** Python's `s.startswith(prefix)`. */
  predicate StartsWith(s: string, prefix: string) {
    |prefix| <= |s| && s[..|prefix|] == prefix
  }

  /** Python's `s.endswith(suffix)`. */
  predicate EndsWith(s: string, suffix: string) {
    |suffix| <= |s| && s[|s| - |suffix|..] == suffix
  }

  /** `sub` occurs in `s` at position `j`. */
  predicate OccursAt(s: string, sub: string, j: int) {
    0 <= j && j + |sub| <= |s| && s[j..j + |sub|] == sub
  }

  /** Python's `sub in s`. */
  predicate Contains(s: string, sub: string) {
    exists j | 0 <= j <= |s| :: OccursAt(s, sub, j)
  }

  /** Python's `s.lstrip()`: drops the leading white space. */
  function LStrip(s: string): (r: string)
    ensures |r| <= |s| && r == s[|s| - |r|..]
    ensures r == [] || !IsSpace(r[0])
    ensures forall i :: 0 <= i < |s| - |r| ==> IsSpace(s[i])
  {
    if |s| > 0 && IsSpace(s[0]) then LStrip(s[1..]) else s
  }

  /** Python's `s.rstrip()`: drops the trailing white space. */
  function RStrip(s: string): (r: string)
    ensures |r| <= |s| && r == s[..|r|]
    ensures r == [] || !IsSpace(r[|r| - 1])
    ensures forall i :: |r| <= i < |s| ==> IsSpace(s[i])
  {
    if |s| > 0 && IsSpace(s[|s| - 1]) then RStrip(s[..|s| - 1]) else s
  }

  lemma RStripIdempotent(s: string)
    ensures RStrip(RStrip(s)) == RStrip(s)
  {
  }

  /** A prefix holds no character its string does not. */
  lemma PrefixChars(s: string, p: string)
    requires StartsWith(s, p)
    ensures forall c | c in p :: c in s
  {
    forall c | c in p ensures c in s {
      var j :| 0 <= j < |p| && p[j] == c;
      assert s[j] == c;
    }
  }

  /** Python's `s.strip()`. */
  function Strip(s: string): (r: string)
    ensures r == [] || (!IsSpace(r[0]) && !IsSpace(r[|r| - 1]))
  {
    LStrip(RStrip(s))
  }

  /** Neither end of `s` is white space: `strip()` leaves it alone. */
  predicate IsStripped(s: string) {
    s == [] || (!IsSpace(s[0]) && !IsSpace(s[|s| - 1]))
  }

  lemma StripOfStripped(s: string)
    requires IsStripped(s)
    ensures Strip(s) == s && RStrip(s) == s
  {
  }

  /** The first occurrence of `sub` in `s` at or after position `k`. */
  function IndexFrom(s: string, sub: string, k: nat): (r: Option<nat>)
    ensures r.Some? ==> k <= r.value && OccursAt(s, sub, r.value)
    ensures r.Some? ==> forall j :: k <= j < r.value ==> !OccursAt(s, sub, j)
    ensures r.None? ==> forall j :: k <= j ==> !OccursAt(s, sub, j)
    decreases |s| - k
  {
    if k + |sub| > |s| then None
    else if s[k..k + |sub|] == sub then Some(k)
    else IndexFrom(s, sub, k + 1)
  }

  /** A string that does not start with white space keeps its first
      character through `strip()`. */
  lemma StripKeepsFirst(s: string)
    requires s != [] && !IsSpace(s[0])
    ensures Strip(s) != [] && Strip(s)[0] == s[0]
  {
    var r := RStrip(s);
    assert r != [] && r[0] == s[0];
  }

  /** `strip()` cuts a slice out of `s`, so whatever the stripped text
      starts with occurs in `s`. */
  lemma StrippedPrefixOccurs(s: string, p: string)
    requires StartsWith(Strip(s), p)
    ensures Contains(s, p)
  {
    var k := StripSlice(s);
    PrefixOfSlice(s, Strip(s), p, k);
  }

  /** What starts a slice of `s` occurs in `s` where the slice starts. */
  lemma PrefixOfSlice(s: string, t: string, p: string, k: nat)
    requires k + |t| <= |s| && t == s[k..k + |t|] && StartsWith(t, p)
    ensures OccursAt(s, p, k)
  {
    assert s[k..k + |p|] == t[..|p|];
  }

  /** `strip()` is the slice of `s` from position `k`. */
  lemma StripSlice(s: string) returns (k: nat)
    ensures k + |Strip(s)| <= |s| && Strip(s) == s[k..k + |Strip(s)|]
  {
    var r := RStrip(s);
    var t := LStrip(r);
    k := |r| - |t|;
    assert t == r[k..];
    assert r == s[..|r|];
  }

  /** Python's `s.find(sub)`, with `None` for -1. */
  function IndexOf(s: string, sub: string): (r: Option<nat>)
    ensures r.Some? <==> Contains(s, sub)
    ensures r.Some? ==> OccursAt(s, sub, r.value)
    ensures r.Some? ==> forall j :: 0 <= j < r.value ==> !OccursAt(s, sub, j)
  {
    var r := IndexFrom(s, sub, 0);
    assert r.Some? ==> r.value <= |s|;
    r
  }

  /** Python's `s.split(sep)[0]`: the text before the first `sep`. */
  function BeforeFirst(s: string, sep: string): (r: string)
    requires |sep| > 0
    ensures StartsWith(s, r)
    ensures forall j :: 0 <= j < |r| ==> !OccursAt(s, sep, j)
    ensures r == s || OccursAt(s, sep, |r|)
    ensures r == s <==> !Contains(s, sep)
  {
    match IndexOf(s, sep)
    case Some(i) => s[..i]
    case None => s
  }

  /** The text after the first `sep`, so that `s.split(sep)[1]` is
      `BeforeFirst(AfterFirst(s, sep), sep)`. */
  function AfterFirst(s: string, sep: string): (r: string)
    requires |sep| > 0 && Contains(s, sep)
    ensures s == BeforeFirst(s, sep) + sep + r
  {
    var i := |BeforeFirst(s, sep)|;
    s[i + |sep|..]
  }

  /** A one-character separator occurs exactly where that character stands. */
  lemma OccursAtChar(s: string, c: char, j: int)
    ensures OccursAt(s, [c], j) <==> 0 <= j < |s| && s[j] == c
  {
    if 0 <= j < |s| {
      assert s[j..j + 1] == [s[j]];
    }
  }

  lemma NotContainsChar(s: string, c: char)
    requires c !in s
    ensures !Contains(s, [c])
  {
    forall j | 0 <= j <= |s| ensures !OccursAt(s, [c], j) {
      OccursAtChar(s, c, j);
    }
  }

  /** Splitting at the first `c` of `k + [c] + rest`, when `k` holds no `c`,
      gives `k` and `rest`. */
  lemma SplitAtChar(k: string, c: char, rest: string)
    requires c !in k
    ensures Contains(k + [c] + rest, [c])
    ensures BeforeFirst(k + [c] + rest, [c]) == k
    ensures AfterFirst(k + [c] + rest, [c]) == rest
  {
    var s := k + [c] + rest;
    OccursAtChar(s, c, |k|);
    var b := BeforeFirst(s, [c]);
    if |b| < |k| {
      OccursAtChar(s, c, |b|);
    }
    assert b == s[..|k|] == k;
  }

  /** Trailing white space after a right-stripped string is all `rstrip`
      removes. */
  lemma RStripSpaceSuffix(v: string, c: char)
    requires RStrip(v) == v && IsSpace(c)
    ensures RStrip(v + [c]) == v
  {
    assert (v + [c])[..|v|] == v;
  }

  /** Python's `s.replace(pat, rep)`: every occurrence of `pat`, found left
      to right without overlap, becomes `rep`; an empty `pat` puts `rep`
      before every character and at the end. */
  function Replace(s: string, pat: string, rep: string): (r: string)
    decreases |s|
  {
    if |pat| == 0 then
      if |s| == 0 then rep else rep + [s[0]] + Replace(s[1..], pat, rep)
    else
      match IndexOf(s, pat)
      case None => s
      case Some(i) => s[..i] + rep + Replace(s[i + |pat|..], pat, rep)
  }

  lemma ConcatAssoc(a: string, b: string, c: string)
    ensures a + b + c == a + (b + c)
  {
  }

  /** Occurrences in a suffix of `s` are occurrences in `s`, shifted. */
  lemma OccursInSuffix(s: string, k: nat, sub: string, j: nat)
    requires k <= |s|
    ensures OccursAt(s[k..], sub, j) <==> OccursAt(s, sub, k + j)
  {
    if j + |sub| <= |s| - k {
      assert s[k..][j..j + |sub|] == s[k + j..k + j + |sub|];
    }
  }

  /** Text before the first occurrence of `pat` is copied unchanged. */
  lemma ReplaceKeepsPrefix(s: string, pat: string, rep: string, k: nat)
    requires |pat| > 0 && k <= |s|
    requires forall j | 0 <= j < k :: !OccursAt(s, pat, j)
    ensures StartsWith(Replace(s, pat, rep), s[..k])
  {
  }

  /** `Replace` copies the text before the first occurrence, writes `rep`
      for it, and carries on after it. */
  lemma ReplaceStep(s: string, pat: string, rep: string, j: nat)
    requires |pat| > 0 && IndexOf(s, pat) == Some(j)
    ensures j + |pat| <= |s|
    ensures Replace(s, pat, rep) == s[..j] + rep + Replace(s[j + |pat|..], pat, rep)
  {
    assert IndexOf(s, pat).value == j;
    assert s[IndexOf(s, pat).value + |pat|..] == s[j + |pat|..];
  }

  /** A text holding `pat` holds `rep` once `pat` is replaced. */
  lemma ReplaceInserts(s: string, pat: string, rep: string)
    requires |pat| > 0 && Contains(s, pat)
    ensures Contains(Replace(s, pat, rep), rep)
  {
    var j := IndexOf(s, pat).value;
    var r := Replace(s, pat, rep);
    assert r[j..j + |rep|] == rep;
    assert OccursAt(r, rep, j);
  }

  /** No occurrence of `pat` survives the replacement when `rep` can take
      part in none: `rep` holds neither the first nor the last character of
      `pat`, and does not occur inside `pat`. Python's `replace` can create
      new occurrences across the seams otherwise. */
  lemma {:induction false} ReplaceRemoves(s: string, pat: string, rep: string)
    requires |pat| > 0 && pat[0] !in rep && pat[|pat| - 1] !in rep && !Contains(pat, rep)
    ensures !Contains(Replace(s, pat, rep), pat)
    decreases |s|
  {
    var idx := IndexOf(s, pat);
    if idx.Some? {
      var i := idx.value;
      var rest := Replace(s[i + |pat|..], pat, rep);
      ReplaceRemoves(s[i + |pat|..], pat, rep);
      ReplaceStep(s, pat, rep, i);
      NothingBeforeFirst(s, pat, i);
      NoPatternAcross(s[..i], rep, rest, pat);
    } else {
      assert Replace(s, pat, rep) == s;
    }
  }

  /** The text before the first occurrence of `pat` does not hold `pat`. */
  lemma NothingBeforeFirst(s: string, pat: string, i: nat)
    requires |pat| > 0 && i <= |s|
    requires forall j | 0 <= j < i :: !OccursAt(s, pat, j)
    ensures !Contains(s[..i], pat)
  {
    forall w | 0 <= w <= i ensures !OccursAt(s[..i], pat, w) {
      OccursInPrefix(s, i, pat, w);
    }
  }

  /** Joining two texts without `pat` around a `rep` that cannot take part in
      an occurrence gives a text without `pat`. */
  lemma NoPatternAcross(front: string, rep: string, rest: string, pat: string)
    requires |pat| > 0 && pat[0] !in rep && pat[|pat| - 1] !in rep && !Contains(pat, rep)
    requires !Contains(front, pat) && !Contains(rest, pat)
    ensures !Contains(front + rep + rest, pat)
  {
    forall w | 0 <= w <= |front + rep + rest| ensures !OccursAt(front + rep + rest, pat, w) {
      NoPatternAround(front, rep, rest, pat, w);
    }
  }

  /** Occurrences in a prefix of `s` are occurrences in `s`. */
  lemma OccursInPrefix(s: string, k: nat, sub: string, j: nat)
    requires k <= |s|
    ensures OccursAt(s[..k], sub, j) ==> OccursAt(s, sub, j)
  {
    if j + |sub| <= k {
      assert s[..k][j..j + |sub|] == s[j..j + |sub|];
    }
  }

  /** Where the window at `w` can sit in `front + rep + rest`, given that
      neither `front` nor `rest` holds `pat` and `rep` cannot take part in an
      occurrence. */
  lemma NoPatternAround(front: string, rep: string, rest: string, pat: string, w: nat)
    requires |pat| > 0 && pat[0] !in rep && pat[|pat| - 1] !in rep && !Contains(pat, rep)
    requires !Contains(front, pat) && !Contains(rest, pat)
    ensures !OccursAt(front + rep + rest, pat, w)
  {
    var r := front + rep + rest;
    if w >= |front| + |rep| {
      assert r[|front| + |rep|..] == rest;
      OccursInSuffix(r, |front| + |rep|, pat, w - |front| - |rep|);
    } else if w >= |front| {
      CharOfRepStarts(r, rep, pat, w, w - |front|);
    } else if w + |pat| <= |front| {
      assert r[w..w + |pat|] == front[w..w + |pat|];
      assert !OccursAt(front, pat, w);
    } else if w + |pat| < |front| + |rep| {
      CharOfRepEnds(r, rep, pat, w, w + |pat| - 1 - |front|);
    } else {
      RepInsideWindow(r, rep, pat, w, |front|);
    }
  }

  lemma CharOfRepStarts(r: string, rep: string, pat: string, w: nat, k: nat)
    requires |pat| > 0 && pat[0] !in rep && k < |rep| && w < |r| && r[w] == rep[k]
    ensures !OccursAt(r, pat, w)
  {
    assert rep[k] in rep;
    if w + |pat| <= |r| {
      assert r[w..w + |pat|][0] == r[w];
    }
  }

  lemma CharOfRepEnds(r: string, rep: string, pat: string, w: nat, k: nat)
    requires |pat| > 0 && pat[|pat| - 1] !in rep && k < |rep|
    requires w + |pat| <= |r| && r[w + |pat| - 1] == rep[k]
    ensures !OccursAt(r, pat, w)
  {
    assert rep[k] in rep;
    assert r[w..w + |pat|][|pat| - 1] == r[w + |pat| - 1];
  }

  lemma RepInsideWindow(r: string, rep: string, pat: string, w: nat, at: nat)
    requires w <= at && at + |rep| <= w + |pat| && at + |rep| <= |r| && r[at..at + |rep|] == rep
    requires !Contains(pat, rep)
    ensures !OccursAt(r, pat, w)
  {
    if w + |pat| <= |r| {
      var win := r[w..w + |pat|];
      forall k | 0 <= k < |rep| ensures win[at - w + k] == rep[k] {
        assert rep[k] == r[at..at + |rep|][k];
      }
      assert win[at - w..at - w + |rep|] == rep;
      assert OccursAt(r, pat, w) ==> OccursAt(pat, rep, at - w);
    }
  }

  /** Replacing a single character by a single character works pointwise. */
  lemma {:induction false} ReplaceChar(s: string, c: char, d: string)
    requires |d| == 1
    ensures |Replace(s, [c], d)| == |s|
    ensures forall i :: 0 <= i < |s| ==> Replace(s, [c], d)[i] == (if s[i] == c then d[0] else s[i])
    decreases |s|
  {
    match IndexOf(s, [c])
    case None =>
      forall i | 0 <= i < |s| ensures s[i] != c {
        OccursAtChar(s, c, i);
      }
    case Some(j) =>
      var tail := s[j + 1..];
      ReplaceChar(tail, c, d);
      var r := Replace(s, [c], d);
      assert r == s[..j] + d + Replace(tail, [c], d);
      forall i | 0 <= i < |s| ensures r[i] == (if s[i] == c then d[0] else s[i]) {
        if i < j {
          OccursAtChar(s, c, i);
        } else if i == j {
          OccursAtChar(s, c, j);
        } else {
          assert r[i] == Replace(tail, [c], d)[i - j - 1];
          assert tail[i - j - 1] == s[i];
        }
      }
  }

  predicate IsDigit(c: char) {
    '0' <= c <= '9'
  }

  function DigitChar(d: nat): (c: char)
    requires d < 10
    ensures IsDigit(c) && c as int - '0' as int == d
  {
    (d + '0' as int) as char
  }

  /** Python's `str(n)` for a non-negative integer: its decimal digits,
      without leading zeros. */
  function NatToString(n: nat): (r: string)
    ensures |r| > 0
    ensures forall i :: 0 <= i < |r| ==> IsDigit(r[i])
    ensures |r| > 1 ==> r[0] != '0'
    ensures n < 10 <==> |r| == 1
  {
    if n < 10 then [DigitChar(n)] else NatToString(n / 10) + [DigitChar(n % 10)]
  }

  /** The number a string of decimal digits denotes. */
  function DigitsValue(s: string): nat
    requires forall i :: 0 <= i < |s| ==> IsDigit(s[i])
  {
    if s == [] then 0
    else
      assert IsDigit(s[|s| - 1]);
      DigitsValue(s[..|s| - 1]) * 10 + (s[|s| - 1] as int - '0' as int)
  }

  /** Reading back the digits `str(n)` printed gives `n`. */
  lemma {:induction false} NatToStringValue(n: nat)
    ensures DigitsValue(NatToString(n)) == n
  {
    if n >= 10 {
      NatToStringValue(n / 10);
      var r := NatToString(n);
      assert r[..|r| - 1] == NatToString(n / 10);
    }
  }

  /** `str()` is injective on non-negative integers. */
  lemma NatToStringInjective(m: nat, n: nat)
    requires NatToString(m) == NatToString(n)
    ensures m == n
  {
    NatToStringValue(m);
    NatToStringValue(n);
  }

  /** ASCII lower-casing of one character. */
  function LowerChar(c: char): char {
    if 'A' <= c <= 'Z' then (c as int + 32) as char else c
  }

  /** Lower-cases the ASCII letters of `s` and leaves every other character. */
  function AsciiLower(s: string): (r: string)
    ensures |r| == |s|
    ensures forall i :: 0 <= i < |s| ==> r[i] == LowerChar(s[i])
  {
    seq(|s|, i requires 0 <= i < |s| => LowerChar(s[i]))
  }

  /** Concatenation of a sequence of strings (Python's `''.join(parts)`). */
  function Concat(parts: seq<string>): string {
    if parts == [] then "" else Concat(parts[..|parts| - 1]) + parts[|parts| - 1]
  }

  /** Concatenation peels off its first part as well as its last. */
  lemma {:induction false} ConcatCons(head: string, rest: seq<string>)
    ensures Concat([head] + rest) == head + Concat(rest)
    decreases |rest|
  {
    if rest != [] {
      var all := [head] + rest;
      assert all[..|all| - 1] == [head] + rest[..|rest| - 1];
      ConcatCons(head, rest[..|rest| - 1]);
    }
  }

  /** Python's `sep.join(parts)`. */
  function JoinWith(sep: string, parts: seq<string>): string {
    if parts == [] then ""
    else if |parts| == 1 then parts[0]
    else JoinWith(sep, parts[..|parts| - 1]) + sep + parts[|parts| - 1]
  }

  /** Python's `s.split(c)` for a one-character separator: the pieces
      between the occurrences of `c`, so that joining them with `c` gives
      `s` back. */
  function SplitOn(s: string, c: char): (r: seq<string>)
    ensures |r| > 0
    ensures forall i | 0 <= i < |r| :: c !in r[i]
    ensures JoinWith([c], r) == s
  {
    if s == [] then [""]
    else
      var init := SplitOn(s[..|s| - 1], c);
      var x := s[|s| - 1];
      assert s == s[..|s| - 1] + [x];
      if x == c then
        JoinSnoc([c], init, "");
        init + [""]
      else
        JoinExtendLast([c], init, x);
        init[..|init| - 1] + [init[|init| - 1] + [x]]
  }

  /** Joining one more part appends the separator and the part. */
  lemma JoinSnoc(sep: string, parts: seq<string>, p: string)
    requires parts != []
    ensures JoinWith(sep, parts + [p]) == JoinWith(sep, parts) + sep + p
  {
    assert (parts + [p])[..|parts|] == parts;
  }

  /** Extending the last part extends the joined text. */
  lemma JoinExtendLast(sep: string, parts: seq<string>, x: char)
    requires parts != []
    ensures JoinWith(sep, parts[..|parts| - 1] + [parts[|parts| - 1] + [x]]) == JoinWith(sep, parts) + [x]
  {
    var k := |parts| - 1;
    var q := parts[..k] + [parts[k] + [x]];
    if k > 0 {
      assert q[..k] == parts[..k];
      assert JoinWith(sep, q) == JoinWith(sep, parts[..k]) + sep + (parts[k] + [x]);
    }
  }

  /** A string without the separator is one piece. */
  lemma SplitOnAbsent(s: string, c: char)
    requires c !in s
    ensures SplitOn(s, c) == [s]
  {
  }

  predicate IsQuote(ch: char) {
    ch == '"' || ch == '\''
  }

  function LStripQuotes(s: string): (r: string)
    ensures |r| <= |s| && r == s[|s| - |r|..]
    ensures r == [] || !IsQuote(r[0])
    ensures forall i :: 0 <= i < |s| - |r| ==> IsQuote(s[i])
  {
    if |s| > 0 && IsQuote(s[0]) then LStripQuotes(s[1..]) else s
  }

  function RStripQuotes(s: string): (r: string)
    ensures |r| <= |s| && r == s[..|r|]
    ensures r == [] || !IsQuote(r[|r| - 1])
    ensures forall i :: |r| <= i < |s| ==> IsQuote(s[i])
  {
    if |s| > 0 && IsQuote(s[|s| - 1]) then RStripQuotes(s[..|s| - 1]) else s
  }

  /** Python's `s.strip('"\'')`: drops the quote characters at both ends. */
  function StripQuotes(s: string): (r: string)
    ensures r == [] || (!IsQuote(r[0]) && !IsQuote(r[|r| - 1]))
  {
    LStripQuotes(RStripQuotes(s))
  }

  /** Text that neither starts nor ends with a quote is kept whole. */
  lemma StripQuotesUnquoted(s: string)
    requires s != [] && !IsQuote(s[0]) && !IsQuote(s[|s| - 1])
    ensures StripQuotes(s) == s
  {
    assert RStripQuotes(s) == s;
  }

  /** What `strip('"\'')` keeps is a slice of the input with only quote
      characters around it. */
  lemma StripQuotesSlice(s: string)
    ensures var r := StripQuotes(s);
      var k := |RStripQuotes(s)| - |r|;
      && r == s[k..k + |r|]
      && (forall i | 0 <= i < k :: IsQuote(s[i]))
      && (forall i | k + |r| <= i < |s| :: IsQuote(s[i]))
  {
    var m := RStripQuotes(s);
    var r := StripQuotes(s);
    var k := |m| - |r|;
    assert r == m[k..];
    assert m[k..] == s[k..|m|];
    forall i | 0 <= i < k ensures IsQuote(s[i]) {
      assert s[i] == m[i];
    }
  }

  /** Python's `a <= b` on strings: lexicographic order of code points. */
  predicate LexLe(a: string, b: string) {
    a == [] || (b != [] && (a[0] < b[0] || (a[0] == b[0] && LexLe(a[1..], b[1..]))))
  }

  lemma LexLeTotal(a: string, b: string)
    ensures LexLe(a, b) || LexLe(b, a)
  {
  }

  lemma LexLeTransitive(a: string, b: string, c: string)
    requires LexLe(a, b) && LexLe(b, c)
    ensures LexLe(a, c)
  {
  }
}

=== FILE: TableNode.dfy ===
/** A page table: its construction, the three ways of adding a row of
    cells with the arity check, and the colour each parent topic gets. */
module TableNode {
  import opened Wrappers
  import opened Json
  import opened ConfluenceNodes
  import CellColors

  /** The table's state: its attributes, column widths and count, the
      topic colours handed out so far (in insertion order, as a Python dict
      keeps them), the colour iterator, and the rows. */
  datatype Table = Table(
    attrs: Dict,
    columnSizes: seq<Json>,
    numberOfColumns: int,
    cellColors: seq<(string, string)>,
    colorIterator: CellColors.State,
    rows: seq<Elem>)

  /** The table as a document node of type "table". */
  function AsNode(t: Table): (r: Elem)
    ensures r.Node? && r.kind == JStr("table") && r.content == t.rows
  {
    Node(JStr("table"), t.attrs, t.rows)
  }

  /** The colour given to a topic so far, if any. */
  function Lookup(colors: seq<(string, string)>, topic: string): (r: Option<string>)
    ensures r.None? <==> forall i | 0 <= i < |colors| :: colors[i].0 != topic
    ensures r.Some? ==> exists i | 0 <= i < |colors| :: colors[i] == (topic, r.value)
  {
    if colors == [] then None
    else if colors[0].0 == topic then Some(colors[0].1)
    else
      var r := Lookup(colors[1..], topic);
      assert forall i | 1 <= i < |colors| :: colors[i] == colors[1..][i - 1];
      r
  }

  /** What the table keeps true of its colours: the iterator is on its
      palette at the number of topics seen, modulo six; every topic appears
      once; and the `i`-th topic got the `i`-th colour of the cycle. */
  predicate ColorsInvariant(t: Table) {
    && CellColors.Valid(t.colorIterator)
    && t.colorIterator.index == |t.cellColors| % 6
    && (forall i, j | 0 <= i < j < |t.cellColors| :: t.cellColors[i].0 != t.cellColors[j].0)
    && (forall i | 0 <= i < |t.cellColors| :: t.cellColors[i].1 == CellColors.Palette[i % 6])
  }

  function Min(a: int, b: int): int {
    if a <= b then a else b
  }

  const DefaultLayout := JStr("full-width")
  const DefaultWidth := JNum("1800.0")

  /** `TableNode(num_cols, col_sizes, layout, width)`, with an omitted
      (`None`) layout or width taking its default. Without column sizes the
      width is shared equally; `share` stands for the quotient
      `width / num_cols`, whose floating point value is not modelled, and
      `localId` for the random identifier. */
  function NewTable(numCols: int, colSizes: seq<Json>, layout: Option<Json>, width: Option<Json>, localId: string,
                    share: Json)
    : (r: Result<Table, Raised>)
    ensures r.Err? <==> colSizes == [] && numCols == 0
    ensures r.Err? ==> r.error == ZeroDivisionError
    ensures r.Ok? ==> r.value.rows == [] && r.value.cellColors == [] && ColorsInvariant(r.value)
    ensures r.Ok? ==> r.value.numberOfColumns == numCols
    ensures r.Ok? && colSizes != [] ==> r.value.columnSizes == colSizes
    ensures r.Ok? && colSizes == [] ==>
      |r.value.columnSizes| == (if numCols < 0 then 0 else numCols)
      && forall i | 0 <= i < |r.value.columnSizes| :: r.value.columnSizes[i] == share
    ensures r.Ok? ==> (Keys(r.value.attrs) == ["layout", "width", "localId"]
      && Get(r.value.attrs, "localId") == Some(JStr(localId)))
    ensures r.Ok? ==> Get(r.value.attrs, "layout") == Some(layout.GetOr(DefaultLayout))
    ensures r.Ok? ==> Get(r.value.attrs, "width") == Some(width.GetOr(DefaultWidth))
  {
    var attrs := [("layout", layout.GetOr(DefaultLayout)), ("width", width.GetOr(DefaultWidth)), ("localId", JStr(localId))];
    GetFirst(attrs, "layout", 0);
    GetFirst(attrs, "width", 1);
    GetFirst(attrs, "localId", 2);
    if colSizes == [] && numCols == 0 then Err(ZeroDivisionError)
    else
      var sizes := if colSizes != [] then colSizes
        else seq(if numCols < 0 then 0 else numCols, _ => share);
      Ok(Table(attrs, sizes, numCols, [], CellColors.NewCellColors(), []))
  }

  /** `add_row`: appends the row and changes nothing else. */
  function AddRow(t: Table, row: Elem): (r: Table)
    ensures |r.rows| == |t.rows| + 1 && r.rows[..|t.rows|] == t.rows && r.rows[|t.rows|] == row
    ensures r.(rows := t.rows) == t
  {
    var r := t.(rows := t.rows + [row]);
    assert r.rows[..|t.rows|] == t.rows;
    r
  }

  /** A column size as the `colwidth` argument of a cell: a `None` entry
      of the sizes is passed on as `None`, so the cell's default applies. */
  function SizeArgument(size: Json): Option<Json> {
    if size == JNull then None else Some(size)
  }

  /** A cell's content: one paragraph holding one text. */
  function TextParagraph(text: string, marks: Json): (c: seq<Elem>)
    ensures |c| == 1 && c[0].Node? && |c[0].content| == 1
    ensures c[0].content[0].Text? && c[0].content[0].text == text
  {
    [NewParagraph(Some([NewText(text, marks)]))]
  }

  /** A header cell holding a paragraph with one bold text. */
  function TitleCell(title: string, size: Json): (c: Elem)
    ensures c.Node? && c.kind == JStr("tableHeader") && CellText(c) == Some(title)
    ensures CellWidth(c) == Some(if size == JNull then DefaultColWidth else size)
  {
    NewHeader(Some(TextParagraph(title, JStr("strong"))), SizeArgument(size))
  }

  /** A plain cell holding a paragraph with one unmarked text. */
  function ValueCell(value: string, size: Json): (c: Elem)
    ensures c.Node? && c.kind == JStr("tableCell") && CellText(c) == Some(value)
    ensures !HasKey(c.attrs, "background")
    ensures CellWidth(c) == Some(if size == JNull then DefaultColWidth else size)
  {
    NewCell(Some(TextParagraph(value, JNull)), SizeArgument(size), JNull)
  }

  /** The text of a cell built from a single paragraph of text. */
  function CellText(cell: Elem): Option<string> {
    if cell.Node? && |cell.content| == 1 && cell.content[0].Node? && |cell.content[0].content| == 1
      && cell.content[0].content[0].Text?
    then Some(cell.content[0].content[0].text)
    else None
  }

  /** The texts of the cells of a row, `None` for a cell of another shape. */
  function RowTexts(row: Elem): (r: seq<Option<string>>)
    requires row.Row?
    ensures |r| == |row.content|
  {
    seq(|row.content|, i requires 0 <= i < |row.content| => CellText(row.content[i]))
  }

  /** The width a cell of the table's layout declares. */
  function CellWidth(cell: Elem): Option<Json> {
    if cell.Node? then
      match Get(cell.attrs, "colwidth")
      case Some(JArr(ws)) => if |ws| == 1 then Some(ws[0]) else None
      case _ => None
    else None
  }

  /** The cells the `zip` over the values and the column sizes builds: one
      per pair, so as many as the shorter of the two. */
  function ZipCells<A>(values: seq<A>, sizes: seq<Json>, make: (A, Json) -> Elem): (r: seq<Elem>)
    ensures |r| == Min(|values|, |sizes|)
    ensures forall i | 0 <= i < |r| :: r[i] == make(values[i], sizes[i])
  {
    seq(Min(|values|, |sizes|), i requires 0 <= i < Min(|values|, |sizes|) => make(values[i], sizes[i]))
  }

  /** `add_title_row`: a row of bold header cells, one per title. */
  function AddTitleRow(t: Table, titles: seq<string>): (r: Result<Table, Raised>)
    ensures r.Err? <==> |titles| != t.numberOfColumns
    ensures r.Err? ==> r.error == ValueError
    ensures r.Ok? ==> (r.value.(rows := t.rows) == t && |r.value.rows| == |t.rows| + 1
      && r.value.rows[..|t.rows|] == t.rows)
    ensures r.Ok? ==> var row := r.value.rows[|t.rows|];
      && row.Row?
      && RowTexts(row) == seq(Min(|titles|, |t.columnSizes|), i requires 0 <= i < Min(|titles|, |t.columnSizes|) => Some(titles[i]))
      && (forall i | 0 <= i < |row.content| ::
            row.content[i].Node? && row.content[i].kind == JStr("tableHeader")
            && CellWidth(row.content[i])
              == Some(if t.columnSizes[i] == JNull then DefaultColWidth else t.columnSizes[i]))
  {
    if |titles| != t.numberOfColumns then Err(ValueError)
    else Ok(AddRow(t, NewRow(Some(ZipCells(titles, t.columnSizes, TitleCell)))))
  }

  /** `add_formated_table_row`: a row of plain cells, one per value. */
  function AddFormattedRow(t: Table, values: seq<string>): (r: Result<Table, Raised>)
    ensures r.Err? <==> |values| != t.numberOfColumns
    ensures r.Err? ==> r.error == ValueError
    ensures r.Ok? ==> (r.value.(rows := t.rows) == t && |r.value.rows| == |t.rows| + 1
      && r.value.rows[..|t.rows|] == t.rows)
    ensures r.Ok? ==> var row := r.value.rows[|t.rows|];
      && row.Row?
      && RowTexts(row) == seq(Min(|values|, |t.columnSizes|), i requires 0 <= i < Min(|values|, |t.columnSizes|) => Some(values[i]))
      && (forall i | 0 <= i < |row.content| ::
            row.content[i].Node? && row.content[i].kind == JStr("tableCell")
            && !HasKey(row.content[i].attrs, "background")
            && CellWidth(row.content[i])
              == Some(if t.columnSizes[i] == JNull then DefaultColWidth else t.columnSizes[i]))
  {
    if |values| != t.numberOfColumns then Err(ValueError)
    else Ok(AddRow(t, NewRow(Some(ZipCells(values, t.columnSizes, ValueCell)))))
  }

  /** `add_table_row`: a row of plain cells holding the given contents. */
  function AddTableRow(t: Table, contents: seq<seq<Elem>>): (r: Result<Table, Raised>)
    ensures r.Err? <==> |contents| != t.numberOfColumns
    ensures r.Err? ==> r.error == ValueError
    ensures r.Ok? ==> (r.value.(rows := t.rows) == t && |r.value.rows| == |t.rows| + 1
      && r.value.rows[..|t.rows|] == t.rows)
    ensures r.Ok? ==> var row := r.value.rows[|t.rows|];
      && row.Row?
      && |row.content| == Min(|contents|, |t.columnSizes|)
      && (forall i | 0 <= i < |row.content| ::
            row.content[i].Node? && row.content[i].kind == JStr("tableCell")
            && row.content[i].content == contents[i]
            && CellWidth(row.content[i])
              == Some(if t.columnSizes[i] == JNull then DefaultColWidth else t.columnSizes[i]))
  {
    if |contents| != t.numberOfColumns then Err(ValueError)
    else Ok(AddRow(t, NewRow(Some(ZipCells(contents, t.columnSizes, (c, w) => NewCell(Some(c), SizeArgument(w), JNull))))))
  }

  /** A `None` among the column sizes gives the cell the default width of
      568.0, not a null width. */
  lemma NullSizeGetsDefault(t: Table, titles: seq<string>, values: seq<string>)
    requires t.columnSizes == [JNull] && t.numberOfColumns == 1 && |titles| == 1 && |values| == 1
    ensures AddTitleRow(t, titles).Ok?
    ensures CellWidth(AddTitleRow(t, titles).value.rows[|t.rows|].content[0]) == Some(DefaultColWidth)
    ensures AddFormattedRow(t, values).Ok?
    ensures CellWidth(AddFormattedRow(t, values).value.rows[|t.rows|].content[0]) == Some(DefaultColWidth)
  {
  }

  /** A table built with default column sizes has one size per column, so
      every row added to it has exactly `num_cols` cells. */
  lemma DefaultSizesFillRows(numCols: int, layout: Option<Json>, width: Option<Json>, localId: string, share: Json,
                              titles: seq<string>, values: seq<string>, cells: seq<seq<Elem>>)
    requires NewTable(numCols, [], layout, width, localId, share).Ok?
    ensures var t := NewTable(numCols, [], layout, width, localId, share).value;
      var r := AddTitleRow(t, titles);
      r.Ok? ==> |r.value.rows[|t.rows|].content| == numCols == |titles|
    ensures var t := NewTable(numCols, [], layout, width, localId, share).value;
      var r := AddFormattedRow(t, values);
      r.Ok? ==> |r.value.rows[|t.rows|].content| == numCols == |values|
    ensures var t := NewTable(numCols, [], layout, width, localId, share).value;
      var r := AddTableRow(t, cells);
      r.Ok? ==> |r.value.rows[|t.rows|].content| == numCols == |cells|
  {
  }

  /** The optional colour as the value handed to a cell. */
  function ColorJson(c: Option<string>): Json {
    match c
    case None => JNull
    case Some(s) => JStr(s)
  }

  /** `get_cell_color`: no colour for a falsy topic; otherwise the topic's
      colour, drawing the next one from the colorIterator the first time the
      topic is seen. */
  function GetCellColor(t: Table, topic: Option<string>): (r: (Table, Option<string>))
    requires CellColors.Valid(t.colorIterator)
    ensures topic.None? || topic.value == "" ==> r == (t, None)
    ensures topic.Some? && topic.value != "" && Lookup(t.cellColors, topic.value).Some? ==>
      r == (t, Lookup(t.cellColors, topic.value))
    ensures topic.Some? && topic.value != "" && Lookup(t.cellColors, topic.value).None? ==>
      && r.0.rows == t.rows && r.0.columnSizes == t.columnSizes
      && r.0.cellColors == t.cellColors + [(topic.value, CellColors.Palette[t.colorIterator.index])]
      && r.1 == Some(CellColors.Palette[t.colorIterator.index])
      && Lookup(r.0.cellColors, topic.value) == r.1
  {
    if topic.None? || topic.value == "" then (t, None)
    else
      match Lookup(t.cellColors, topic.value)
      case Some(c) => (t, Some(c))
      case None =>
        var (it, c) := CellColors.NextColor(t.colorIterator);
        var colors := t.cellColors + [(topic.value, c)];
        assert Lookup(colors, topic.value) == Some(c) by {
          LookupAppend(t.cellColors, topic.value, c);
        }
        (t.(cellColors := colors, colorIterator := it), Some(c))
  }

  lemma {:induction false} LookupAppend(colors: seq<(string, string)>, topic: string, c: string)
    requires Lookup(colors, topic).None?
    ensures Lookup(colors + [(topic, c)], topic) == Some(c)
    decreases |colors|
  {
    if colors != [] {
      assert (colors + [(topic, c)])[1..] == colors[1..] + [(topic, c)];
      LookupAppend(colors[1..], topic, c);
    }
  }

  /** Handing out colours keeps the colour invariant. */
  lemma GetCellColorKeepsInvariant(t: Table, topic: Option<string>)
    requires ColorsInvariant(t)
    ensures ColorsInvariant(GetCellColor(t, topic).0)
  {
    if topic.Some? && topic.value != "" && Lookup(t.cellColors, topic.value).None? {
      var it := t.colorIterator;
      var c := CellColors.NextColor(it).1;
      var cc := t.cellColors + [(topic.value, c)];
      var r := GetCellColor(t, topic).0;
      assert r.cellColors == cc && r.colorIterator == CellColors.NextColor(it).0;
      AppendKeepsColors(t.cellColors, topic.value, c, it.index);
    }
  }

  /** Appending a new topic with the colour at position `|colors| mod 6`
      keeps the topics distinct and the colours on the cycle. */
  lemma AppendKeepsColors(colors: seq<(string, string)>, topic: string, c: string, index: int)
    requires forall i, j | 0 <= i < j < |colors| :: colors[i].0 != colors[j].0
    requires forall i | 0 <= i < |colors| :: colors[i].1 == CellColors.Palette[i % 6]
    requires Lookup(colors, topic).None?
    requires index == |colors| % 6 && c == CellColors.Palette[index]
    ensures var cc := colors + [(topic, c)];
      && (forall i, j | 0 <= i < j < |cc| :: cc[i].0 != cc[j].0)
      && (forall i | 0 <= i < |cc| :: cc[i].1 == CellColors.Palette[i % 6])
      && (index + 1) % 6 == |cc| % 6
  {
    var cc := colors + [(topic, c)];
    var n := |colors|;
    CellColors.ModStep(n);
    forall i, j | 0 <= i < j < |cc| ensures cc[i].0 != cc[j].0 {
      assert cc[i] == colors[i];
      if j < n {
        assert cc[j] == colors[j];
      }
    }
    forall i | 0 <= i < |cc| ensures cc[i].1 == CellColors.Palette[i % 6] {
      if i < n {
        assert cc[i] == colors[i];
      }
    }
  }

  /** The `k`-th distinct topic gets colour `k mod 6` of the cycle. */
  lemma NewTopicColor(t: Table, topic: string)
    requires ColorsInvariant(t)
    requires topic != "" && Lookup(t.cellColors, topic).None?
    ensures GetCellColor(t, Some(topic)).1 == Some(CellColors.Palette[|t.cellColors| % 6])
  {
  }

  /** Asking again for a topic gives the same colour and changes nothing. */
  lemma RepeatTopicStable(t: Table, topic: Option<string>)
    requires CellColors.Valid(t.colorIterator)
    ensures var (t1, c1) := GetCellColor(t, topic);
      CellColors.Valid(t1.colorIterator) && GetCellColor(t1, topic) == (t1, c1)
  {
  }

  /** The sixth distinct topic (and every sixth after it) gets the empty
      colour, so its cell has no background. */
  lemma SixthTopicUncoloured(t: Table, topic: string, content: Option<seq<Elem>>, size: Option<Json>)
    requires ColorsInvariant(t)
    requires |t.cellColors| % 6 == 5
    requires topic != "" && Lookup(t.cellColors, topic).None?
    ensures GetCellColor(t, Some(topic)).1 == Some("")
    ensures !HasKey(NewCell(content, size, ColorJson(GetCellColor(t, Some(topic)).1)).attrs, "background")
  {
    NewTopicColor(t, topic);
    assert CellColors.Palette[5] == "";
    assert !Truthy(ColorJson(Some("")));
  }
}

=== FILE: Utilities.dfy ===
/** The pure helpers of the notes tool: the title-to-filename sanitiser,
    issue-key extraction, pull-request issue links, issue-tracker URL
    rewriting, the front-matter header and the template placeholder maps. */
module Utilities {
  import opened Wrappers
  import opened Strings
  import opened Json
  import JiraInterface

  /** The extension every note carries. */
  const FileExtension := ".md"

  /** The rare character separating the two fields of an index record. */
  const DelimiterChar: char := '\U{6F22}'

  /** The issue-key markers a leading token is tested for. */
  const Options: seq<string> := ["OPA", "SUP"]

  /** The note categories; the category decides the template and folder. */
  datatype Template = NoTemplate | Jira | JiraPr | JiraSup

  const JiraLinkPlaceholder := [DelimiterChar] + "JIRA_LINK" + [DelimiterChar]
  const JiraPrLinkPlaceholder := [DelimiterChar] + "JIRA_PR_LINK" + [DelimiterChar]

  /** `jira_template_values`: the placeholders of an issue template. */
  function JiraTemplateValues(url: string): seq<(string, string)> {
    [(JiraLinkPlaceholder, url)]
  }

  /** `jira_pr_template_values`: the placeholders of a pull-request template;
      the issue link may be `None`. */
  function JiraPrTemplateValues(url: string, issueUrl: Option<string>): seq<(string, Option<string>)> {
    [(JiraPrLinkPlaceholder, Some(url)), (JiraLinkPlaceholder, issueUrl)]
  }

  /** `get_header_with_link`: the front matter of a plain note. */
  function GetHeaderWithLink(url: string): (r: string)
    ensures |r| == |url| + 14
    ensures StartsWith(r, "---\n") && EndsWith(r, "\n---")
    ensures r[4..|r| - 4] == "link: " + url
  {
    "---\nlink: " + url + "\n---"
  }

  /** `replace_multiple`: replaces each character of `chars`, in turn, by `w`. */
  function ReplaceMultiple(s: string, chars: string, w: string): string
    decreases |chars|
  {
    if chars == [] then s else ReplaceMultiple(Replace(s, [chars[0]], w), chars[1..], w)
  }

  /** With a one-character replacement that is not itself replaced, the
      successive replacements act position by position. */
  lemma {:induction false} ReplaceMultiplePointwise(s: string, chars: string, w: string)
    requires |w| == 1 && w[0] !in chars
    ensures |ReplaceMultiple(s, chars, w)| == |s|
    ensures forall i :: 0 <= i < |s| ==>
      ReplaceMultiple(s, chars, w)[i] == (if s[i] in chars then w[0] else s[i])
    decreases |chars|
  {
    if chars != [] {
      ReplaceChar(s, chars[0], w);
      ReplaceMultiplePointwise(Replace(s, [chars[0]], w), chars[1..], w);
    }
  }

  /** The characters the sanitiser blanks out. */
  const UnsafeChars := "/[]&\""

  /** A title with every unsafe character turned into a space, position by
      position. */
  function Masked(name: string): (r: string)
    ensures |r| == |name|
  {
    seq(|name|, i requires 0 <= i < |name| => if name[i] in UnsafeChars then ' ' else name[i])
  }

  /** The part of a note filename before its extension. */
  function Stem(filename: string): string
    requires EndsWith(filename, FileExtension)
  {
    filename[..|filename| - |FileExtension|]
  }

  /** A stem the sanitiser can produce: no unsafe character, no white space
      at either end. */
  predicate SafeStem(stem: string) {
    && (forall i :: 0 <= i < |stem| ==> stem[i] !in UnsafeChars)
    && IsStripped(stem)
  }

  /** `get_filename`: the note filename for a page title. */
  function GetFilename(name: string): (r: string)
    ensures EndsWith(r, FileExtension)
    ensures Stem(r) == Strip(Masked(name))
    ensures SafeStem(Stem(r))
  {
    var stem := Strip(ReplaceMultiple(name, UnsafeChars, " "));
    MaskedBySanitiser(name);
    SanitisedIsSafe(name);
    WithExtension(stem);
    stem + FileExtension
  }

  lemma WithExtension(stem: string)
    ensures EndsWith(stem + FileExtension, FileExtension)
    ensures Stem(stem + FileExtension) == stem
  {
    var r := stem + FileExtension;
    assert r[..|r| - |FileExtension|] == stem;
    assert r[|r| - |FileExtension|..] == FileExtension;
  }

  lemma SanitisedIsSafe(name: string)
    ensures SafeStem(Strip(Masked(name)))
  {
    StripKeepsSafe(Masked(name));
  }

  lemma MaskedBySanitiser(name: string)
    ensures ReplaceMultiple(name, UnsafeChars, " ") == Masked(name)
  {
    ReplaceMultiplePointwise(name, UnsafeChars, " ");
  }

  /** Stripping keeps a string free of unsafe characters. */
  lemma StripKeepsSafe(s: string)
    requires forall i :: 0 <= i < |s| ==> s[i] !in UnsafeChars
    ensures forall i :: 0 <= i < |Strip(s)| ==> Strip(s)[i] !in UnsafeChars
  {
    var t := RStrip(s);
    assert forall i :: 0 <= i < |t| ==> t[i] == s[i];
    var u := LStrip(t);
    assert forall i :: 0 <= i < |u| ==> u[i] == t[|t| - |u| + i];
  }

  /** The sanitiser leaves its own output alone: sanitising the stem of a
      filename gives that filename back. */
  lemma GetFilenameIdempotent(x: string)
    ensures GetFilename(Stem(GetFilename(x))) == GetFilename(x)
  {
    var f := GetFilename(x);
    var s := Stem(f);
    assert Masked(s) == s;
    StripOfStripped(s);
    assert f == s + FileExtension;
  }

  /** A filename is a single path component. */
  lemma GetFilenameIsComponent(x: string)
    ensures '/' !in GetFilename(x) && GetFilename(x) != ""
  {
    SafeNameIsComponent(GetFilename(x));
  }

  /** A safe stem with the extension holds no `/`. */
  lemma SafeNameIsComponent(f: string)
    requires EndsWith(f, FileExtension) && SafeStem(Stem(f))
    ensures '/' !in f && f != ""
  {
    var s := Stem(f);
    assert UnsafeChars[0] == '/';
    forall i | 0 <= i < |f| ensures f[i] != '/' {
      if i < |s| {
        assert f[i] == s[i];
      } else {
        assert f[i] == f[|s|..][i - |s|] == FileExtension[i - |s|];
      }
    }
  }

  /** A filename never starts or ends with white space, so it has a first
      white-space-separated token. */
  lemma GetFilenameHasToken(x: string)
    ensures HasToken(GetFilename(x))
  {
    EndsWithNoteHasToken(GetFilename(x));
  }

  lemma EndsWithNoteHasToken(f: string)
    requires EndsWith(f, FileExtension)
    ensures HasToken(f)
  {
    assert f[|f| - 1] == f[|f| - |FileExtension|..][|FileExtension| - 1];
    assert !IsSpace(f[|f| - 1]);
  }

  /** Some character of `s` is not white space (`s.split()` is not empty). */
  predicate HasToken(s: string) {
    exists i | 0 <= i < |s| :: !IsSpace(s[i])
  }

  /** The longest prefix of `s` without white space. */
  function TakeWord(s: string): (r: string)
    ensures StartsWith(s, r)
    ensures forall i :: 0 <= i < |r| ==> !IsSpace(r[i])
    ensures |r| == |s| || IsSpace(s[|r|])
  {
    if s == [] || IsSpace(s[0]) then [] else [s[0]] + TakeWord(s[1..])
  }

  /** `s.split()[0]`, which the source takes only of a string that has one. */
  function FirstToken(s: string): (r: string)
    requires HasToken(s)
    ensures |r| > 0
    ensures forall i :: 0 <= i < |r| ==> !IsSpace(r[i])
    ensures StartsWith(LStrip(s), r)
    ensures |r| == |LStrip(s)| || IsSpace(LStrip(s)[|r|])
  {
    var t := LStrip(s);
    assert t != [] by {
      var i :| 0 <= i < |s| && !IsSpace(s[i]);
      assert i >= |s| - |t|;
    }
    TakeWord(t)
  }

  /** `get_issue_number`: the first token of a filename when it holds "OPA"
      or "SUP", otherwise `None`. */
  function GetIssueNumber(filename: string): (r: Option<string>)
    requires HasToken(filename)
    ensures r.Some? <==> (Contains(FirstToken(filename), "OPA") || Contains(FirstToken(filename), "SUP"))
    ensures r.Some? ==> r.value == FirstToken(filename) && |r.value| >= 3
  {
    var token := FirstToken(filename);
    if exists o | o in Options :: Contains(token, o) then
      assert Contains(token, "OPA") || Contains(token, "SUP");
      Some(token)
    else None
  }

  /** The base address of the issue tracker. */
  const JiraHost := "https://jiradg.atlassian.net"
  const JiraBrowse := JiraHost + "/browse/"

  const NoIssueLink := "#NOISSUE-PR"

  /** `link` browses to issue `o-number` where "o-number" occurs in the title
      and the number holds no space. */
  predicate IssueLinkFor(filename: string, o: string, link: string) {
    && StartsWith(link, JiraBrowse + o + "-")
    && Contains(filename, link[|JiraBrowse|..])
    && ' ' !in link[|JiraBrowse + o + "-"|..]
  }

  /** `n` is the text of `s` from position `p` up to the first space, the
      next occurrence of `sep` or the end, whichever comes first. */
  predicate FieldAt(s: string, sep: string, p: nat, n: string) {
    && p + |n| <= |s| && s[p..p + |n|] == n
    && ' ' !in n
    && (forall j | p <= j < p + |n| :: !OccursAt(s, sep, j))
    && (p + |n| == |s| || s[p + |n|] == ' ' || OccursAt(s, sep, p + |n|))
  }

  /** At most one text satisfies `FieldAt` at a given position. */
  lemma FieldAtUnique(s: string, sep: string, p: nat, m: string, n: string)
    requires FieldAt(s, sep, p, m) && FieldAt(s, sep, p, n)
    ensures m == n
  {
    FieldStopsEarly(s, sep, p, m, n);
    FieldStopsEarly(s, sep, p, n, m);
    assert m == s[p..p + |m|] == n;
  }

  lemma FieldStopsEarly(s: string, sep: string, p: nat, m: string, n: string)
    requires FieldAt(s, sep, p, m) && FieldAt(s, sep, p, n)
    ensures |m| >= |n|
  {
    FieldRunsOn(s, sep, p, n);
  }

  /** Inside a field there is neither a space nor the start of `sep`. */
  lemma FieldRunsOn(s: string, sep: string, p: nat, n: string)
    requires FieldAt(s, sep, p, n)
    ensures forall k | p <= k < p + |n| :: s[k] != ' ' && !OccursAt(s, sep, k)
  {
    forall k | p <= k < p + |n| ensures s[k] != ' ' {
      assert s[p..p + |n|][k - p] == s[k];
    }
  }

  /** The text of `s` up to its first space or occurrence of `sep`. */
  function FieldText(s: string, sep: string): (n: string)
    requires |sep| > 0
    ensures FieldAt(s, sep, 0, n)
    decreases |s|
  {
    if s == [] || s[0] == ' ' || StartsWith(s, sep) then
      assert StartsWith(s, sep) ==> OccursAt(s, sep, 0);
      []
    else
      var rest := FieldText(s[1..], sep);
      FieldCons(s, sep, rest);
      [s[0]] + rest
  }

  lemma FieldCons(s: string, sep: string, rest: string)
    requires |sep| > 0 && s != [] && s[0] != ' ' && !StartsWith(s, sep)
    requires FieldAt(s[1..], sep, 0, rest)
    ensures FieldAt(s, sep, 0, [s[0]] + rest)
  {
    FieldShift(s, 1, sep, rest);
    assert s[0..1 + |rest|] == [s[0]] + s[1..1 + |rest|];
    assert !OccursAt(s, sep, 0);
  }

  /** A field of a suffix of `s` is a field of `s`, shifted. */
  lemma FieldShift(s: string, p: nat, sep: string, n: string)
    requires p <= |s| && FieldAt(s[p..], sep, 0, n)
    ensures FieldAt(s, sep, p, n)
  {
    forall j | p <= j < p + |n| ensures !OccursAt(s, sep, j) {
      OccursInSuffix(s, p, sep, j - p);
    }
    OccursInSuffix(s, p, sep, |n|);
    assert s[p..][0..|n|] == s[p..p + |n|];
    if p + |n| < |s| {
      assert s[p..][|n|] == s[p + |n|];
    }
  }

  /** The issue number after the first `sep` of a title, as
      `title.split(sep)[1].split(' ')[0]` gives it: the text after that
      `sep` up to the next `sep` or the first space, whichever comes first. */
  function PrIssueNumber(filename: string, sep: string): (n: string)
    requires |sep| > 0 && Contains(filename, sep)
    ensures FieldAt(filename, sep, |BeforeFirst(filename, sep)| + |sep|, n)
  {
    FieldAfterFirst(filename, sep);
    FieldText(filename[|BeforeFirst(filename, sep)| + |sep|..], sep)
  }

  lemma FieldAfterFirst(filename: string, sep: string)
    requires |sep| > 0 && Contains(filename, sep)
    ensures |BeforeFirst(filename, sep)| + |sep| <= |filename|
    ensures FieldAt(filename, sep, |BeforeFirst(filename, sep)| + |sep|,
                    FieldText(filename[|BeforeFirst(filename, sep)| + |sep|..], sep))
  {
    FieldTextShift(filename, |BeforeFirst(filename, sep)| + |sep|, sep);
  }

  lemma FieldTextShift(s: string, p: nat, sep: string)
    requires |sep| > 0 && p <= |s|
    ensures FieldAt(s, sep, p, FieldText(s[p..], sep))
  {
    FieldShift(s, p, sep, FieldText(s[p..], sep));
  }

  /** The key `sep + number` occurs in the title. */
  lemma PrIssueKeyOccurs(filename: string, sep: string)
    requires |sep| > 0 && Contains(filename, sep)
    ensures Contains(filename, sep + PrIssueNumber(filename, sep))
  {
    FieldKeyOccurs(filename, sep, |BeforeFirst(filename, sep)|, PrIssueNumber(filename, sep));
  }

  /** A field right after an occurrence of `sep` forms a key `sep + n`. */
  lemma FieldKeyOccurs(s: string, sep: string, q: nat, n: string)
    requires OccursAt(s, sep, q) && FieldAt(s, sep, q + |sep|, n)
    ensures Contains(s, sep + n)
  {
    assert s[q..q + |sep + n|] == s[q..q + |sep|] + s[q + |sep|..q + |sep| + |n|];
    assert OccursAt(s, sep + n, q);
  }

  lemma IssueLinkBuilt(filename: string, o: string, n: string)
    requires Contains(filename, o + "-" + n) && ' ' !in n
    ensures IssueLinkFor(filename, o, JiraBrowse + o + "-" + n)
  {
    var link := JiraBrowse + o + "-" + n;
    assert link == JiraBrowse + (o + "-" + n);
    assert link[|JiraBrowse|..] == o + "-" + n;
    assert link[|JiraBrowse + o + "-"|..] == n;
  }

  /** `link` browses to the issue of `options[i]`, the first option in
      order whose `options[i] + "-"` occurs in the title. */
  predicate FirstOptionLink(filename: string, options: seq<string>, i: int, link: string) {
    && 0 <= i < |options|
    && Contains(filename, options[i] + "-")
    && (forall j | 0 <= j < i :: !Contains(filename, options[j] + "-"))
    && link == JiraBrowse + options[i] + "-" + PrIssueNumber(filename, options[i] + "-")
  }

  /** The issue link for the first option `o` such that `o + "-"` occurs in
      the title. */
  function PrIssueLink(filename: string, options: seq<string>): (r: Option<string>)
    ensures r.None? <==> forall o | o in options :: !Contains(filename, o + "-")
    ensures r.Some? ==> exists i :: FirstOptionLink(filename, options, i, r.value)
    ensures r.Some? ==> (exists o | o in options :: IssueLinkFor(filename, o, r.value))
  {
    if options == [] then None
    else
      var sep := options[0] + "-";
      if Contains(filename, sep) then
        var n := PrIssueNumber(filename, sep);
        PrIssueKeyOccurs(filename, sep);
        IssueLinkBuilt(filename, options[0], n);
        assert FirstOptionLink(filename, options, 0, JiraBrowse + options[0] + "-" + n);
        Some(JiraBrowse + options[0] + "-" + n)
      else
        var r := PrIssueLink(filename, options[1..]);
        assert forall o | o in options[1..] :: o in options;
        FirstOptionShift(filename, options, r);
        r
  }

  lemma FirstOptionShift(filename: string, options: seq<string>, r: Option<string>)
    requires options != [] && !Contains(filename, options[0] + "-")
    requires r.Some? ==> exists i :: FirstOptionLink(filename, options[1..], i, r.value)
    ensures r.Some? ==> exists i :: FirstOptionLink(filename, options, i, r.value)
  {
    if r.Some? {
      var i :| FirstOptionLink(filename, options[1..], i, r.value);
      assert options[1..][i] == options[i + 1];
      forall j | 0 <= j < i + 1 ensures !Contains(filename, options[j] + "-") {
        if j > 0 {
          assert options[1..][j - 1] == options[j];
        }
      }
      assert FirstOptionLink(filename, options, i + 1, r.value);
    }
  }

  /** With the tool's options, "OPA-" is tried before "SUP-": the link names
      the number after the first "OPA-" whenever one occurs. */
  lemma PrIssueLinkOptions(filename: string)
    ensures Contains(filename, "OPA-") ==>
      PrIssueLink(filename, Options) == Some(JiraBrowse + "OPA-" + PrIssueNumber(filename, "OPA-"))
    ensures !Contains(filename, "OPA-") && Contains(filename, "SUP-") ==>
      PrIssueLink(filename, Options) == Some(JiraBrowse + "SUP-" + PrIssueNumber(filename, "SUP-"))
  {
    if Contains(filename, "OPA-") {
      PrIssueLinkOpa(filename);
    } else if Contains(filename, "SUP-") {
      PrIssueLinkSup(filename);
    }
  }

  lemma PrIssueLinkOpa(filename: string)
    requires Contains(filename, "OPA-")
    ensures PrIssueLink(filename, Options) == Some(JiraBrowse + "OPA-" + PrIssueNumber(filename, "OPA-"))
  {
    assert Options[0] + "-" == "OPA-";
    PrIssueLinkHead(filename, Options);
    LinkJoin(JiraBrowse, Options[0], PrIssueNumber(filename, "OPA-"));
  }

  lemma PrIssueLinkSup(filename: string)
    requires !Contains(filename, "OPA-") && Contains(filename, "SUP-")
    ensures PrIssueLink(filename, Options) == Some(JiraBrowse + "SUP-" + PrIssueNumber(filename, "SUP-"))
  {
    assert Options[0] + "-" == "OPA-" && Options[1] + "-" == "SUP-";
    PrIssueLinkSecond(filename, Options);
    LinkJoin(JiraBrowse, Options[1], PrIssueNumber(filename, "SUP-"));
  }

  lemma LinkJoin(base: string, o: string, n: string)
    ensures base + o + "-" + n == base + (o + "-") + n
  {
  }

  lemma PrIssueLinkSecond(filename: string, options: seq<string>)
    requires |options| >= 2
    requires !Contains(filename, options[0] + "-") && Contains(filename, options[1] + "-")
    ensures PrIssueLink(filename, options) == Some(JiraBrowse + options[1] + "-" + PrIssueNumber(filename, options[1] + "-"))
  {
    PrIssueLinkHead(filename, options);
    assert options[1..][0] == options[1];
    PrIssueLinkHead(filename, options[1..]);
  }

  /** The first option decides when its separator occurs; otherwise the
      rest of the options do. */
  lemma PrIssueLinkHead(filename: string, options: seq<string>)
    requires options != []
    ensures Contains(filename, options[0] + "-") ==>
      PrIssueLink(filename, options) == Some(JiraBrowse + options[0] + "-" + PrIssueNumber(filename, options[0] + "-"))
    ensures !Contains(filename, options[0] + "-") ==>
      PrIssueLink(filename, options) == PrIssueLink(filename, options[1..])
  {
  }

  /** A title naming a support issue before a project issue still links the
      project issue: the option order decides, not the position in the title. */
  lemma OptionOrderDecides(f: string)
    requires f == "SUP-1 OPA-2"
    ensures PrIssueLink(f, Options) == Some(JiraBrowse + "OPA-2")
  {
    ExampleNumber(f);
    PrIssueLinkOpa(f);
    ConcatAssoc(JiraBrowse, "OPA-", "2");
    assert "OPA-" + "2" == "OPA-2";
  }

  lemma ExampleNumber(f: string)
    requires f == "SUP-1 OPA-2"
    ensures Contains(f, "OPA-") && PrIssueNumber(f, "OPA-") == "2"
  {
    ProjectKeyInExample(f);
    BeforeFirstAt(f, "OPA-", 6);
    NumberAfterFirst(f, "OPA-", "2");
  }

  lemma ProjectKeyInExample(f: string)
    requires f == "SUP-1 OPA-2"
    ensures OccursAt(f, "OPA-", 6) && Contains(f, "OPA-")
    ensures forall j | 0 <= j < 6 :: !OccursAt(f, "OPA-", j)
    ensures FieldAt(f, "OPA-", 10, "2")
  {
    assert f[6..10] == "OPA-";
    forall j | 0 <= j < 6 ensures !OccursAt(f, "OPA-", j) {
      assert f[j] != 'O';
    }
  }

  /** The number is the field after the first occurrence of `sep`. */
  lemma NumberAfterFirst(s: string, sep: string, n: string)
    requires |sep| > 0 && Contains(s, sep)
    requires FieldAt(s, sep, |BeforeFirst(s, sep)| + |sep|, n)
    ensures PrIssueNumber(s, sep) == n
  {
    FieldAtUnique(s, sep, |BeforeFirst(s, sep)| + |sep|, n, PrIssueNumber(s, sep));
  }

  lemma BeforeFirstAt(s: string, sep: string, q: nat)
    requires |sep| > 0 && OccursAt(s, sep, q)
    requires forall j | 0 <= j < q :: !OccursAt(s, sep, j)
    ensures Contains(s, sep) && |BeforeFirst(s, sep)| == q
  {
  }

  lemma OptionSeparators(filename: string)
    ensures (forall o | o in Options :: !Contains(filename, o + "-"))
        <==> (!Contains(filename, "OPA-") && !Contains(filename, "SUP-"))
  {
    assert Options[0] + "-" == "OPA-";
    assert Options[1] + "-" == "SUP-";
    assert forall o | o in Options :: o == Options[0] || o == Options[1];
  }

  lemma IssueLinkNotNoIssue(filename: string, o: string, link: string)
    requires IssueLinkFor(filename, o, link)
    ensures link != NoIssueLink
  {
    assert link[0] == JiraBrowse[0] == 'h';
  }

  lemma PrIssueLinkNotNoIssue(filename: string)
    ensures PrIssueLink(filename, Options) != Some(NoIssueLink)
  {
    var r := PrIssueLink(filename, Options);
    if r.Some? {
      var o :| o in Options && IssueLinkFor(filename, o, r.value);
      IssueLinkNotNoIssue(filename, o, r.value);
    }
  }

  /** `get_jira_issue_link_from_pr_title`: "#NOISSUE-PR" when "noissue"
      appears in any letter case, else the browse link of the first issue key
      found, else `None`. */
  function GetJiraIssueLinkFromPrTitle(filename: string): (r: Option<string>)
    ensures Contains(AsciiLower(filename), "noissue") <==> r == Some(NoIssueLink)
    ensures r.None? <==> (!Contains(AsciiLower(filename), "noissue")
      && !Contains(filename, "OPA-") && !Contains(filename, "SUP-"))
    ensures r.Some? && r != Some(NoIssueLink) ==>
      exists o | o in Options :: IssueLinkFor(filename, o, r.value)
    ensures !Contains(AsciiLower(filename), "noissue") && Contains(filename, "OPA-") ==>
      r == Some(JiraBrowse + "OPA-" + PrIssueNumber(filename, "OPA-"))
    ensures (!Contains(AsciiLower(filename), "noissue") && !Contains(filename, "OPA-")
             && Contains(filename, "SUP-")) ==>
      r == Some(JiraBrowse + "SUP-" + PrIssueNumber(filename, "SUP-"))
  {
    if Contains(AsciiLower(filename), "noissue") then Some(NoIssueLink)
    else
      var r := PrIssueLink(filename, Options);
      OptionSeparators(filename);
      PrIssueLinkNotNoIssue(filename);
      PrIssueLinkOptions(filename);
      r
  }

  /** `get_url_title`: the title of an issue as fetched through `lookup`, or
      the bare number when the lookup finds nothing. */
  function GetUrlTitle(number: string, lookup: string -> Option<JiraInterface.JiraIssue>): (r: string)
    ensures EndsWith(r, " - Jira")
    ensures lookup(number).None? ==> r == number + " - Jira"
  {
    match lookup(number)
    case Some(issue) => "[" + Render(issue.key) + "] " + Render(issue.summary) + " - Jira"
    case None => number + " - Jira"
  }

  /** The last `c`-separated segment of `s` (`s.split(c)[-1]`). */
  function AfterLast(s: string, c: char): (r: string)
    ensures c !in r
    ensures EndsWith(s, r)
    ensures r == s || s[|s| - |r| - 1] == c
  {
    if s == [] then []
    else if s[|s| - 1] == c then []
    else AfterLast(s[..|s| - 1], c) + [s[|s| - 1]]
  }

  const SelectedIssue := "selectedIssue="

  /** The URL names an issue selected on a tracker board. */
  predicate IsBoardSelection(url: string) {
    StartsWith(url, JiraHost) && StartsWith(AfterLast(url, '&'), SelectedIssue)
  }

  lemma SelectionHasEquals(segment: string)
    requires StartsWith(segment, SelectedIssue)
    ensures Contains(segment, "=")
  {
    assert segment[13] == SelectedIssue[13] == '=';
    assert segment[13..14] == "=";
    assert OccursAt(segment, "=", 13);
  }

  lemma NoEqualsBeforeFirst(s: string, n: string)
    requires n == BeforeFirst(s, "=")
    ensures '=' !in n
  {
    forall j | 0 <= j < |n| ensures n[j] != '=' {
      assert !OccursAt(s, "=", j);
      assert s[j..j + 1] == [n[j]];
    }
  }

  /** The issue number of a board selection URL: the text after the first
      '=' of its last segment, up to the next '='. That first '=' is the one
      closing "selectedIssue=", so the number starts right after it. */
  function SelectedNumber(url: string): (n: string)
    requires IsBoardSelection(url)
    ensures '=' !in n
    ensures var segment := AfterLast(url, '&');
      var p := |SelectedIssue|;
      && p + |n| <= |segment| && segment[p..p + |n|] == n
      && (p + |n| == |segment| || segment[p + |n|] == '=')
  {
    SegmentNumber(AfterLast(url, '&'))
  }

  /** The number in a segment starting "selectedIssue=". */
  function SegmentNumber(segment: string): (n: string)
    requires StartsWith(segment, SelectedIssue)
    ensures '=' !in n
    ensures var p := |SelectedIssue|;
      && p + |n| <= |segment| && segment[p..p + |n|] == n
      && (p + |n| == |segment| || segment[p + |n|] == '=')
  {
    SelectionHasEquals(segment);
    var rest := segment[|BeforeFirst(segment, "=")| + 1..];
    NoEqualsBeforeFirst(rest, BeforeFirst(rest, "="));
    SelectedNumberAt(segment, rest, BeforeFirst(rest, "="));
    BeforeFirst(rest, "=")
  }


  lemma SelectedNumberAt(segment: string, rest: string, n: string)
    requires StartsWith(segment, SelectedIssue) && Contains(segment, "=")
    requires rest == segment[|BeforeFirst(segment, "=")| + 1..] && n == BeforeFirst(rest, "=")
    ensures var p := |SelectedIssue|;
      && p + |n| <= |segment| && segment[p..p + |n|] == n
      && (p + |n| == |segment| || segment[p + |n|] == '=')
  {
    var b := BeforeFirst(segment, "=");
    OccursAtChar(segment, '=', 13);
    assert segment[13] == SelectedIssue[13] == '=';
    OccursAtChar(segment, '=', |b|);
    forall j | 0 <= j < 13 ensures !OccursAt(segment, "=", j) {
      OccursAtChar(segment, '=', j);
      assert segment[j] == SelectedIssue[j];
    }
    assert |b| == 13;
    SliceOfRest(segment, rest, n, 14);
    if n != rest {
      OccursAtChar(rest, '=', |n|);
    }
  }

  lemma SliceOfRest(segment: string, rest: string, n: string, p: nat)
    requires p <= |segment| && rest == segment[p..] && StartsWith(rest, n)
    ensures p + |n| <= |segment| && segment[p..p + |n|] == n
    ensures p + |n| < |segment| ==> segment[p + |n|] == rest[|n|]
  {
    assert segment[p..p + |n|] == rest[..|n|];
  }

  /** `handle_special_jira_cases`: a tracker URL whose last '&' segment selects
      an issue is rewritten to that issue's browse URL, with the title
      fetched through `lookup`; every other URL and title pass unchanged. */
  function HandleSpecialJiraCases(url: string, title: string,
                                  lookup: string -> Option<JiraInterface.JiraIssue>): (r: (string, string))
    ensures !IsBoardSelection(url) ==> r == (url, title)
    ensures IsBoardSelection(url) ==>
      && StartsWith(r.0, JiraBrowse)
      && r.0[|JiraBrowse|..] == SelectedNumber(url)
      && r.1 == GetUrlTitle(SelectedNumber(url), lookup)
  {
    if StartsWith(url, JiraHost) then
      var possibleIssue := AfterLast(url, '&');
      if StartsWith(possibleIssue, SelectedIssue) then
        var number := SelectedNumber(url);
        var newUrl := JiraBrowse + number;
        assert newUrl[|JiraBrowse|..] == number;
        (newUrl, GetUrlTitle(number, lookup))
      else (url, title)
    else (url, title)
  }

  /** The rewritten URL is a plain browse URL, so rewriting again changes
      nothing. */
  lemma SpecialCasesIdempotent(url: string, title: string,
                               lookup: string -> Option<JiraInterface.JiraIssue>)
    ensures var r := HandleSpecialJiraCases(url, title, lookup);
      HandleSpecialJiraCases(r.0, r.1, lookup) == r
  {
    if IsBoardSelection(url) {
      var n := SelectedNumber(url);
      SelectedNumberNoAmpersand(url);
      BrowseUrlIsNoSelection(n);
    }
  }

  lemma SelectedNumberNoAmpersand(url: string)
    requires IsBoardSelection(url)
    ensures '&' !in SelectedNumber(url)
  {
    SliceKeepsOut(AfterLast(url, '&'), |SelectedIssue|, SelectedNumber(url), '&');
  }

  /** A slice holds no character its whole string lacks. */
  lemma SliceKeepsOut(s: string, p: nat, n: string, c: char)
    requires c !in s && p + |n| <= |s| && s[p..p + |n|] == n
    ensures c !in n
  {
    forall k | 0 <= k < |n| ensures n[k] != c {
      assert n[k] == s[p + k];
    }
  }

  /** A browse URL of a number without '&' is its own last segment, which
      starts with the host and not with "selectedIssue=". */
  lemma BrowseUrlIsNoSelection(n: string)
    requires '&' !in n
    ensures !IsBoardSelection(JiraBrowse + n)
  {
    var u := JiraBrowse + n;
    BrowseHasNoAmpersand();
    assert '&' !in u;
    AfterLastAbsent(u, '&');
    assert u[0] == 'h' != SelectedIssue[0];
  }

  lemma BrowseHasNoAmpersand()
    ensures '&' !in JiraBrowse
  {
  }

  lemma AfterLastAbsent(s: string, c: char)
    requires c !in s
    ensures AfterLast(s, c) == s
  {
    forall k | 0 <= k < |s| ensures s[k] != c {
      assert s[k] in s;
    }
  }
}

=== FILE: Wrappers.dfy ===
/** Option and Result, the two failure-compatible wrappers the model uses for
    Python's `None` returns and for exceptions that propagate to the caller. */
module Wrappers {

  /** A value that may be absent; stands for a Python value that may be `None`. */
  datatype Option<+T> = None | Some(value: T) {

    predicate IsFailure() {
      None?
    }

    function PropagateFailure<U>(): Option<U>
      requires None?
    {
      None
    }

    function Extract(): T
      requires Some?
    {
      value
    }

    /** The wrapped value, or `default` when absent. */
    function GetOr(default: T): T {
      match this
      case Some(v) => v
      case None => default
    }
  }

  /** Either a value or the exception that the modelled code raises. */
  datatype Result<+T, +E> = Ok(value: T) | Err(error: E) {

    predicate IsFailure() {
      Err?
    }

    function PropagateFailure<U>(): Result<U, E>
      requires Err?
    {
      Err(error)
    }

    function Extract(): T
      requires Ok?
    {
      value
    }
  }

  /** The Python exception classes the modelled code can raise. */
  datatype Raised =
    | AttributeError
    | TypeError
    | IndexError
    | ValueError
    | ZeroDivisionError
    | UnboundLocalError
    | IsADirectoryError
}
